=== FILE: README.md ===
# qtvulkan cube demo — a Dafny model

This project models the decision logic and the small state machines of the qtvulkan
cube demo, a Qt wrapper around Vulkan 1.0. The modelled parts are:

- the swapchain negotiation that follows the `VK_KHR_surface` and `VK_KHR_swapchain`
  extensions: present mode, image count, pre-transform, extent, surface format and
  queue family;
- the memory-type searches `QVkDevice::memoryType` and
  `QVkUniformBuffer::memory_type_from_properties`;
- the layout-transition access tables of `set_image_layout` and `transformImage`;
- layer and extension negotiation in both instance classes (`cube/qvkinstance.cpp` and
  `lib/qvulkaninstance.cpp`) and in the `QVulkanView` constructor;
- the command recorder, command buffer and queue wrappers;
- the lifecycle of the cube's `QVulkanView`: the lazily created init command buffer,
  `prepare`, `resize_vk`, `draw` and teardown;
- the small utilities: `getVk`, the Qt-to-Vulkan format table, the `ScopeDebug`
  counter and the `TreeItem` tree behind `QVulkanInfoModel`.

The Vulkan driver is modelled by one object, `Gpu.Gpu`. It hands out fresh opaque handles,
keeps the set of live handles and the set of live semaphores, and appends one event per
driver call to a log. Every operation that calls the driver is specified by the events it
appends and by the handles it creates or destroys. What the driver answers (enumeration
results, capabilities, supported formats, `VkResult` codes) is passed in as parameters.

A failed `Q_ASSERT` or a `qFatal` ends the process. The model turns it into an error
outcome: `Err` of `Wrappers.Result`, `Abort` of `CubeView.Outcome` or `Aborted` of
`CubeView.DrawOutcome`. This is the behaviour of a debug build. A driver call whose result
the source only asserts is assumed to succeed. Two null-handle assertions are stated as
preconditions instead, which callers must establish: the non-null device and surface
of the swapchain constructor (`Swapchain.Swapchain.constructor`, asserted at
cube/qvkswapchain.cpp:15-16) and the non-null physical device of the device constructor
(`Device.Device.constructor`, asserted at cube/qvkdevice.cpp:21). The view meets the
first from its own invariant.

Shared code:

- `lib/qvulkanview.cpp` and the root `qvulkanview.cpp` have the same constructor logic:
  the same extension filter, device checks, queue-family search and surface-format
  choice. Both are modelled by `LibView`.
- The three recorder copies (`cube/qvkcmdbuf.h`, `cube/qvkcmdbuf.cpp` and
  `cube/QVkCmdBuf.h`) share one `Recorder.Recorder` class. The older header's
  `beginRenderPass` takes no colour, so it is the separate `BeginRenderPassFixedColor`.
- `QVulkanInstance::layerNames` (lib/qvulkaninstance.cpp:108-115) is the same loop as
  `VkUtil.LayerNames`.

Modules, one file each:

| module | file | what it holds |
|---|---|---|
| `Wrappers` | `wrappers.dfy` | `Option` and `Result` |
| `VkTypes` | `vk_types.dfy` | handles, flags, formats, layouts, results and the records the driver reports |
| `Gpu` | `gpu.dfy` | the driver model: handle allocation, live sets, the event log |
| `Barriers` | `barriers.dfy` | the destination-access tables of the two layout transitions |
| `MemoryTypes` | `memory_types.dfy` | the specification of the memory-type search |
| `SwapchainChoice` | `swapchain_choice.dfy` | the swapchain parameter choices and the queue-family search |
| `VkUtil` | `vk_util.dfy` | `getVk`, `QVkRect`, the format table, `layerNames`, `ScopeDebug`, `QVkDeviceResource` |
| `Recorder` | `recorder.dfy` | `QVkCommandBufferRecorder`, `QVkCommandBuffer`, `QVkQueue` |
| `Device` | `device.dfy` | `QVkDevice` |
| `PhysicalDevice` | `physical_device.dfy` | `QVkPhysicalDevice` |
| `Image` | `image.dfy` | `QVkImage`, `QVkDepthImage`, `QVkImageView` |
| `Swapchain` | `swapchain.dfy` | `QVkSwapchain` |
| `UniformBuffer` | `uniform_buffer.dfy` | `QVkUniformBuffer` |
| `InstanceCube` | `instance_cube.dfy` | `QVkInstance` of `cube/qvkinstance.cpp` |
| `LibInstance` | `lib_instance.dfy` | `QVulkanInstance` and `QVulkanPhysicalDevice` of `lib/qvulkaninstance.cpp` |
| `LibView` | `lib_view.dfy` | the constructor of the lib and root `QVulkanView` |
| `LiveSets` | `live_sets.dfy` | how a stretch of driver calls changes the set of live handles |
| `CubeView` | `cube_view.dfy` | the cube's `QVulkanView` |
| `InfoModel` | `info_model.dfy` | `TreeItem`, `setupModelData` and the `QVulkanInfoModel` rules |

## Model

| member | source | states |
|---|---|---|
| Barriers.AccessPoliciesAgree | cube/qvkcmdbuf.h:183-200 | set_image_layout's chain of `if`s and transformImage's `switch` pick the same destination access for every target layout (the four tabled ones and 0 otherwise), and transformImage's `dstAccess` argument never reaches the barrier |
| Barriers.LayoutBarrier | cube/qvulkanview.cpp:199-226 | the barrier keeps the image, both layouts and the source access, takes the tabled destination access, and covers one mip level and one layer of the given aspect |
| Barriers.LayoutTransition | cube/qvulkanview.cpp:228-231 | the barrier call is top-of-pipe to top-of-pipe, with no dependency flags, no memory or buffer barriers and exactly the one image barrier |
| Device.DeviceCreateInfoFor | cube/qvkdevice.cpp:22-39 | the device create-info asks for exactly one queue, of the graphics family, and passes the caller's layers and extensions through |
| Device.Device.constructor | cube/qvkdevice.cpp:18-47 | the device keeps its create-info and the memory properties read from the physical device |
| Device.Device.MemoryType | cube/qvkdevice.cpp:53-68 | the loop returns the lowest index below 32 whose bit is set in `typeBits` and whose flags include `requirements`, or -1 |
| MemoryTypes.FirstQualifyingFromIsFirst | cube/qvkdevice.cpp:56-67 | the search from a starting index finds the first qualifying index at or after it, and -1 exactly when none qualifies |
| MemoryTypes.LowestQualifyingIsLowest | cube/qvkdevice.cpp:53-68 | the memory-type search yields -1 exactly when no index qualifies, and otherwise a qualifying index with none lower |
| MemoryTypes.NoAllowedTypeGivesMinusOne | cube/qvkdevice.cpp:56-67 | a resource that allows no memory type gets -1 |
| MemoryTypes.NoRequirementsGivesLowestSetBit | cube/qvkdevice.cpp:56-67 | with no required flags the search returns the lowest set bit of `typeBits`, or -1 when there is none |
| PhysicalDevice.PhysicalDevice.constructor | cube/qvkphysicaldevice.cpp:39-46 | the queue families are what the two-call query reports, and exactly the driver's list when both calls agree |
| PhysicalDevice.PhysicalDevice.QueueProperties | cube/qvkphysicaldevice.cpp:21-25 | queueProperties hands back the stored list unchanged |
| PhysicalDevice.PhysicalDevice.GraphicsQueueIndex | cube/qvkphysicaldevice.cpp:27-37 | the lowest family with the graphics bit, or -1 exactly when no family has it |
| Image.ImageCreateInfoFor | cube/qvkimage.h:23-37 | the image create-info is a 2D image of depth 1 with no flags, every other field taken from the constructor's arguments |
| Image.DepthImageCreateInfo | cube/qvkimage.h:69-75 | a depth image is D16_UNORM with depth-stencil-attachment usage and the constructor's defaults (one level, one layer, one sample, optimal tiling, undefined layout) |
| Image.ImageViewCreateInfoFor | cube/qvkimage.h:81-92 | an image view is a 2D view, in the image's format, of the depth aspect of one mip level and one layer |
| Image.Image.constructor | cube/qvkimage.h:10-41 | the image records its format and initial layout, is created from ImageCreateInfoFor, and is a fresh live handle |
| Image.Image.Layout | cube/qvkimage.h:49-51 | layout() is the layout the image was created in |
| Image.Image.Format | cube/qvkimage.h:59-61 | format() is the format the image was created with |
| Image.NewDepthImage | cube/qvkimage.h:71-74 | a depth image is one fresh image with the depth create-info, in D16_UNORM and the undefined layout |
| Image.DepthViewMatchesDepthImage | cube/qvkimage.h:69-95 | a view of a depth image views its depth aspect in D16_UNORM over exactly the one level and layer the image has, and the image is usable as a depth-stencil attachment |
| Image.ImageView.constructor | cube/qvkimage.h:79-95 | the view is created from ImageViewCreateInfoFor on the image's handle and format, as a fresh live handle |
| Image.ImageView.Release | cube/qvkimage.h:96-98 | the destructor destroys this view and no other object |
| Swapchain.SwapchainCreateInfoFor | cube/qvkswapchain.cpp:19-37 | the swapchain create-info carries the negotiated parameters, the previous swapchain's handle or null, and fixed colour-attachment usage, opaque alpha, one layer, exclusive sharing and clipping |
| Swapchain.NegotiatedCreateInfoRespectsCapabilities | cube/qvulkanview.cpp:364-403 | the swapchain prepare_buffers asks for stays within the surface's capabilities: no more images than the maximum, at least the minimum unless the 32-bit addition wraps, a supported transform, and a listed present mode or FIFO |
| Swapchain.Swapchain.constructor | cube/qvkswapchain.cpp:3-41 | with non-null device and surface, one fresh swapchain handle created from SwapchainCreateInfoFor |
| Swapchain.Swapchain.Release | cube/qvkswapchain.cpp:43-46 | the destructor destroys this swapchain and no other object |
| Swapchain.Swapchain.GetSwapchainImages | cube/qvkswapchain.cpp:48-51 | asks the driver about this swapchain and returns its answer unchanged |
| Swapchain.Swapchain.AcquireNextImage | cube/qvkswapchain.cpp:53-56 | asks the driver for the next image of this swapchain, signalling the given semaphore, and returns its result and index unchanged |
| SwapchainChoice.PresentModeIgnoresOrder | cube/qvulkanview.cpp:364-374 | the preferred present mode depends only on which modes the surface offers, not their order or repetition, and is an offered mode or FIFO |
| SwapchainChoice.ChoosePresentMode | cube/qvulkanview.cpp:364-374 | the loop ends with MAILBOX when offered, else IMMEDIATE when offered, else FIFO |
| SwapchainChoice.DesiredImageCount | cube/qvulkanview.cpp:379-384 | minImageCount + 1 in 32-bit arithmetic, capped by a non-zero maxImageCount; never above the maximum and, unless the addition wraps, never below the minimum |
| SwapchainChoice.ImageCountWraps | cube/qvulkanview.cpp:379 | a surface reporting minImageCount 0xFFFFFFFF and no maximum gets an image count of 0 |
| SwapchainChoice.PreTransform | cube/qvulkanview.cpp:386-391 | IDENTITY when the surface supports it, otherwise the current transform |
| SwapchainChoice.SwapchainExtent | cube/qvulkanview.cpp:347-358 | an undefined current extent gives the 400x400 fallback and no window resize; a defined one is used as is and the window is resized to it |
| SwapchainChoice.ChooseSurfaceFormat | cube/qvulkanview.cpp:1245-1260 | an empty list fails; a lone UNDEFINED entry gives B8G8R8A8_UNORM; otherwise the first entry's format; the colour space is always the first entry's |
| SwapchainChoice.SurfaceFormatIsOfferedOrFallback | cube/qvulkanview.cpp:1255-1259 | the chosen format is one the surface listed or the B8G8R8A8_UNORM fallback, and UNDEFINED is chosen only from a longer list |
| SwapchainChoice.SelectQueueFamily | cube/qvulkanview.cpp:1198-1243 | the two search loops succeed exactly when some family does both graphics and present, and then yield the lowest such family; otherwise the error path |
| UniformBuffer.UniformBuffer.constructor | cube/qvulkanbuffer.h:58-100 | one fresh buffer and one fresh memory allocation bound to it, allocated at the lowest host-visible memory type the buffer allows (type 0 when there is none), with the descriptor covering the whole struct |
| UniformBuffer.UniformBuffer.MemoryTypeFromProperties | cube/qvulkanbuffer.h:136-153 | returns true with the lowest qualifying index exactly when one exists, and otherwise false with the out-parameter untouched |
| UniformBuffer.UniformBuffer.Data | cube/qvulkanbuffer.h:132-134 | data() hands out the host-side copy of the struct |
| UniformBuffer.UniformBuffer.WriteHostData | cube/qvulkanbuffer.h:132-134 | a write through data() replaces the host copy and touches no device memory |
| UniformBuffer.UniformBuffer.Update | cube/qvulkanbuffer.h:107-130 | update() maps the whole allocation, copies the host struct into it and unmaps, in that order |
| UniformBuffer.UniformBuffer.Release | cube/qvulkanbuffer.h:101-105 | the destructor destroys the buffer and then frees its memory, and nothing else |
| VkTypes.ToU32 | cube/qvkutil.h:10-15 | assigning an int to a uint32_t keeps every value in range and otherwise wraps modulo 2^32 |
| VkUtil.Filled | cube/qvkutil.h:66-69 | the vector the second getter call fills has exactly the first call's count of elements, the getter's items first and value-initialised ones after |
| VkUtil.GetVk | cube/qvkutil.h:59-72 | a failing first call fails with one call made; a zero count gives an empty vector with one call; otherwise two calls, and a getter whose list is stable returns exactly that list |
| VkUtil.RectFromInts | cube/qvkutil.h:10-15 | the offset takes x and y unchanged; the extent takes w and h as unsigned 32-bit values, unchanged when they are in range |
| VkUtil.RectFromQRect | cube/qvkutil.h:17-30 | the QRect constructor and assignment agree with the four-int constructor on left, top, width and height |
| VkUtil.NegativeWidthWraps | cube/qvkutil.h:11 | a width of -1 becomes 0xFFFFFFFF in the extent |
| VkUtil.DeviceResource.constructor | cube/qvkutil.h:50 | the resource keeps the device it was built with |
| VkUtil.DeviceResource.Device | cube/qvkutil.h:51 | device() returns that device |
| VkUtil.QtFormatToVkFormat | cube/qvkutil.cpp:3-31 | the QImage-to-Vulkan format table, case by case, and every format it maps has the same non-zero number of bytes per pixel on both sides |
| VkUtil.LayerNames | cube/qvkutil.cpp:33-37 | one name per layer, in the layers' order |
| VkUtil.Spaces | cube/qvkutil.h:88 | the indentation is n spaces |
| VkUtil.DecrementUndoesIncrement | cube/qvkutil.h:78-81 | stack-- undoes stack++ on the unsigned counter, including across the wrap-around |
| VkUtil.RunCallRestoresDepth | cube/qvkutil.h:76-83 | a traced call leaves the counter where it found it, and its ">>>" and "<<<" lines are indented at the same depth |
| VkUtil.RunCalleesRestoreDepth | cube/qvkutil.h:76-83 | a sequence of traced calls leaves the counter where it found it |
| VkUtil.ScopeDebugStack.constructor | cube/qvulkanview.cpp:46 | the static counter starts at 0 |
| VkUtil.ScopeDebugStack.Line | cube/qvkutil.h:85-92 | a printed line is two spaces per level of the counter followed by the text |
| VkUtil.ScopeDebugStack.EnterScope | cube/qvkutil.h:76-79 | the entry line is printed at the old depth, then the counter is incremented |
| VkUtil.ScopeDebugStack.LeaveScope | cube/qvkutil.h:80-83 | the counter is decremented, then the exit line is printed at the new depth |
| Recorder.CommandEventsAreRecorded | cube/qvkcmdbuf.h:31-210 | each chained recorder call leaves exactly one recorded command on its own buffer, in call order |
| Recorder.RecordingIsBracketed | cube/qvkcmdbuf.h:12-29 | a recording is opened by one begin of its buffer with the given usage flags and closed by one end of the same buffer, with the commands in between in call order |
| Recorder.Recorder.constructor | cube/qvkcmdbuf.h:12-23 | constructing a recorder begins its command buffer with the given usage flags |
| Recorder.Recorder.Finish | cube/qvkcmdbuf.h:25-29 | destroying a recorder ends its command buffer |
| Recorder.Recorder.Viewport | cube/qvkcmdbuf.h:31-34 | one viewport set at index 0, and the same recorder returned for chaining |
| Recorder.Recorder.Viewports | cube/qvkcmdbuf.h:36-39 | as many viewports as given, from index 0 |
| Recorder.Recorder.Scissor | cube/qvkcmdbuf.h:41-44 | one scissor rectangle set at index 0 |
| Recorder.Recorder.Scissors | cube/qvkcmdbuf.h:46-49 | the given scissor rectangles, from index 0 |
| Recorder.Recorder.Draw | cube/qvkcmdbuf.h:51-58 | a draw whose vertex and instance counts and firsts come from the arguments in the driver's own order (vertices, instances, first vertex, first instance) |
| Recorder.Recorder.BeginRenderPass | cube/qvkcmdbuf.h:60-84 | a render pass begun on the given pass, framebuffer and area, clearing colour to the given colour and depth to 1.0 with stencil 0, contents inline |
| Recorder.Recorder.BeginRenderPassFixedColor | cube/QVkCmdBuf.h:84-106 | the older header's variant clears colour to the fixed (0.2, 0.2, 0.4, 0.2) |
| Recorder.Recorder.EndRenderPass | cube/qvkcmdbuf.h:86-90 | the render pass is ended |
| Recorder.Recorder.BindPipeline | cube/qvkcmdbuf.h:92-96 | the pipeline is bound at the graphics bind point |
| Recorder.Recorder.BindDescriptorSet | cube/qvkcmdbuf.h:98-110 | one descriptor set bound at set 0 of the graphics bind point, with the given dynamic offsets |
| Recorder.Recorder.BindDescriptorSets | cube/qvkcmdbuf.h:112-125 | the given sets bound from the given first set, with all given dynamic offsets |
| Recorder.Recorder.PipelineBarrier | cube/qvkcmdbuf.h:127-147 | one pipeline barrier command carrying the given stages, dependency flags and barrier lists unchanged |
| Recorder.Recorder.PipelineBarrierImage | cube/qvkcmdbuf.h:149-163 | a barrier with no memory or buffer barriers and exactly the one image barrier |
| Recorder.Recorder.TransformImage | cube/qvkcmdbuf.h:165-210 | an image layout transition recorded as the barrier set_image_layout would build for the same image, aspect, layouts and source access |
| Recorder.CommandBuffer.constructor | cube/qvkcmdbuf.h:219-234 | one fresh primary command buffer allocated and nothing else created |
| Recorder.CommandBuffer.Record | cube/qvkcmdbuf.h:241-243 | record() yields a new recorder on this buffer, which has begun it |
| Recorder.CommandBuffer.Release | cube/qvkcmdbuf.h:235-238 | the destructor frees the buffer the constructor allocated, and nothing else |
| Recorder.QueuePresentVerdict | cube/qvkcmdbuf.h:299-309 | out-of-date only warns, suboptimal and success are accepted, and every other result is an assertion failure |
| Recorder.Queue.constructor | cube/qvkcmdbuf.h:259-262 | the queue object holds the queue fetched for the device |
| Recorder.Queue.WaitIdle | cube/qvkcmdbuf.h:266-269 | one wait-idle on the queue |
| Recorder.Queue.Submit | cube/qvkcmdbuf.h:271-287 | one submission of the one command buffer, without fence |
| Recorder.Queue.Present | cube/qvkcmdbuf.h:289-310 | one present of the given image, judged as QueuePresentVerdict says, with nothing recreated on out-of-date |
| InstanceCube.ContainsAllLayers | cube/qvkinstance.cpp:265-281 | the loop answers true for an empty needle list and otherwise exactly whether the first needle is in the haystack, because `found` is never reset between needles |
| InstanceCube.ContainsAllLayersChecksOnlyFirstNeedle | cube/qvkinstance.cpp:265-281 | a true subset test implies the answer; for a non-empty needle list the answer is a subset test of the first needle alone |
| InstanceCube.ContainsAllLayersMissesLaterNeedles | cube/qvkinstance.cpp:265-281 | a haystack holding only VK_LAYER_GOOGLE_threading is accepted as containing all eight default validation layers, though seven are missing |
| InstanceCube.ChooseValidationLayers | cube/qvkinstance.cpp:20-42 | no layers at all is fatal; the standard bundle is chosen exactly when its layer is present; otherwise the default bundle when its first layer is present; otherwise fatal |
| InstanceCube.SelectValidationLayers | cube/qvkinstance.cpp:27-41 | the two containsAllLayers calls make exactly the choice ChooseValidationLayers describes |
| InstanceCube.NamesAmong | cube/qvkinstance.cpp:55-70 | the filtered name list is never longer than the enumeration |
| InstanceCube.NamesAmongMembers | cube/qvkinstance.cpp:55-70 | the filtered list holds only wanted names, and a wanted name is in it exactly when some enumerated extension carries it |
| InstanceCube.InstanceExtensionsWanted | cube/qvkinstance.cpp:57-69 | the surface and XCB-surface extensions are always wanted, the debug-report one exactly when validating |
| InstanceCube.InstanceExtensionNamesDistinct | cube/qvkinstance.cpp:57-67 | the three instance-extension names differ, so each test in the loop matches at most one of them |
| InstanceCube.DebugMessage | cube/qvkinstance.cpp:283-313 | an error or warning message aborts the process; any other message returns false to the layer |
| InstanceCube.PhysicalDeviceAt | cube/qvkinstance.cpp:326-339 | device(index) yields the first enumerated device whatever the index, and fails exactly when none is enumerated |
| InstanceCube.InstanceReadyIff | cube/qvkinstance.cpp:5-237 | construction succeeds exactly when validation (if on) finds layers and a bundle and the debug entry points and callback work, both surface extensions and the swapchain extension are reported, and vkCreateInstance succeeds |
| InstanceCube.ReadyInstanceExtensions | cube/qvkinstance.cpp:55-187 | a constructed instance enabled both surface extensions, the debug-report one exactly when validating and available, and kept only swapchain names for the device |
| InstanceCube.NoValidationIgnoresLayers | cube/qvkinstance.cpp:21-42 | without validation neither layer list affects the outcome |
| InstanceCube.Instance.constructor | cube/qvkinstance.cpp:5-258 | the outcome is the first failing check in the constructor's order; on success the layers and extensions handed to vkCreateInstance and the device extension names are the filtered lists, and the device validation layers stay empty |
| InstanceCube.Instance.Setup | cube/qvkinstance.cpp:20-237 | the instance phase and then, unless it failed, the device phase |
| InstanceCube.Instance.CreateInstance | cube/qvkinstance.cpp:20-140 | the validation bundle, the instance-extension checks and vkCreateInstance, failing at the first check that fails |
| InstanceCube.Instance.CheckDevice | cube/qvkinstance.cpp:143-237 | the device-layer check, the device-extension checks and the debug callback, failing at the first check that fails, with the list of device extension names cleared and refilled |
| InstanceCube.Instance.CollectInstanceExtensions | cube/qvkinstance.cpp:55-70 | the loop appends the wanted names in enumeration order and its two flags say whether each surface extension was seen |
| InstanceCube.Instance.CollectDeviceExtensions | cube/qvkinstance.cpp:171-177 | the loop appends the swapchain name once per entry carrying it and its flag says whether one was seen |
| LibInstance.CheckLayers | lib/qvulkaninstance.cpp:5-20 | true exactly when every requested name is carried by some layer; when false, some requested name is missing |
| LibInstance.CheckLayersRejectsThreadingAlone | lib/qvulkaninstance.cpp:5-20 | the threading layer alone fails checkLayers on the eight validation layers, though the cube's containsAllLayers accepts it |
| LibInstance.Enumerate | lib/qvulkaninstance.cpp:126-143 | succeeds exactly when EnumerationSucceeds: a failing first or second call fails the assertion, as does a second call writing back fewer items than the first reported; on success the list is the first call's count of items from the second call, empty on a zero count, and a stable getter's own list |
| LibInstance.ExtensionNames | lib/qvulkaninstance.cpp:117-124 | one name per extension, in order (the physical device's extensionNames at lines 289-296 is the same loop) |
| LibInstance.DbgFunc | lib/qvulkaninstance.cpp:229-253 | an error is logged as ERROR, otherwise a warning as WARNING, otherwise nothing, and the layer is always told not to bail out |
| LibInstance.DebugCallbacksAgree | lib/qvulkaninstance.cpp:229-253 | the lib callback logs exactly the messages on which the cube's callback aborts, and both answer false to the rest |
| LibInstance.Instance.constructor | lib/qvulkaninstance.cpp:22-54 | construction succeeds exactly when both enumerations get through and, with validation, all eight validation layers are among the layers read; then the layers and extensions are those read, which are the reported ones for stable enumerations |
| LibInstance.Instance.InitLayers | lib/qvulkaninstance.cpp:126-143 | succeeds exactly when the enumeration's assertions hold (so either call failing is fatal); a zero count leaves the layers as they were; on success the layers are the first `count` items of the second call |
| LibInstance.Instance.InitExtensions | lib/qvulkaninstance.cpp:145-162 | as InitLayers, for the instance extensions |
| LibInstance.Instance.InitDevices | lib/qvulkaninstance.cpp:164-178 | as InitLayers, for the physical devices |
| LibInstance.CountGraphics | lib/qvulkaninstance.cpp:298-307 | the number of graphics-capable families is at most the number of families |
| LibInstance.CountGraphicsPositive | lib/qvulkaninstance.cpp:298-307 | the count is non-zero exactly when some family has the graphics bit |
| LibInstance.PhysicalDevice.constructor | lib/qvulkaninstance.cpp:255-257 | the physical device keeps its handle, extensions and queue families |
| LibInstance.PhysicalDevice.HasGraphicsQueue | lib/qvulkaninstance.cpp:298-307 | the loop's count equals CountGraphics of the queue families |
| LibInstance.OpenPhysicalDevice | lib/qvulkaninstance.cpp:255-282 | succeeds exactly when the extension enumeration gets through and there is at least one queue family; the device keeps its handle, the extensions read and the families the second call wrote into a list of the first call's size, which are the reported ones for stable answers |
| LibView.ExtensionRank | lib/qvulkanview.cpp:21-30 | the three instance extensions the constructor may enable are ranked 0, 1, 2 in append order, and every other name 3 |
| LibView.EnabledInstanceExtensions | lib/qvulkanview.cpp:21-30 | a name is enabled exactly when the instance lists it and it is one of the three, in the fixed surface, XCB-surface, debug-report order, at most three of them |
| LibView.ConfigureView | lib/qvulkanview.cpp:12-146 | construction succeeds exactly when there is a physical device, it offers the swapchain extension, some family does both graphics and present, and the surface reports a format; it then enables the filtered instance extensions, picks the lowest family doing both, passes all device extension names on and picks the surface format as ChooseSurfaceFormat does |
| CubeView.Resized | cube/qvulkanview.cpp:1022 | QVector::resize keeps the existing elements and value-initialises the new ones |
| CubeView.ChooseTexturePath | cube/qvulkanview.cpp:651-710 | the linear path exactly when linear tiling can be sampled and staging is off; otherwise the staging path exactly when optimal tiling can be sampled; otherwise the failed assertion |
| CubeView.TexturePathSamples | cube/qvulkanview.cpp:651-710 | whichever path is taken, the texture the shaders sample has a tiling in which the device can sample the format; staging is used only when needed or asked for; the program stops only when neither tiling can be sampled |
| CubeView.FrameResultAction | cube/qvulkanview.cpp:254-268 | out of date recreates the swapchain, suboptimal proceeds like success, any other result fails the assertion |
| CubeView.ViewAndQueuePresentAgree | cube/qvulkanview.cpp:312-321 | draw judges a present result as QVkQueue::present does, except that out of date recreates where the queue only warns |
| CubeView.LayoutEvents | cube/qvulkanview.cpp:161-232 | set_image_layout logs an allocation and begin only when there was no init command buffer, and always ends with its barrier |
| CubeView.FlushEvents | cube/qvulkanview.cpp:127-159 | flush_init_cmd logs nothing exactly when there is no init command buffer, and otherwise starts by ending it and finishes by freeing it |
| CubeView.DestroyEvents | cube/qvulkanview.cpp:93-95 | one destroy call per handle |
| CubeView.DestroyEventsDestroyEach | cube/qvulkanview.cpp:93-95 | the i-th destroy call is for the i-th handle |
| CubeView.TextureTeardownEvents | cube/qvulkanview.cpp:104-109 | four destroy calls per texture |
| CubeView.BufferTeardownEvents | cube/qvulkanview.cpp:115-120 | two destroy calls per swapchain buffer |
| CubeView.PipelineTeardownEvents | cube/qvulkanview.cpp:93-102 | one destroy call per framebuffer plus the six pipeline objects |
| CubeView.DepthTeardownEvents | cube/qvulkanview.cpp:111-113 | three destroy calls for the depth buffer |
| CubeView.TeardownEvents | cube/qvulkanview.cpp:93-122 | the shared destroy sequence has one call per object prepare() made, and ends with the command pool |
| CubeView.RebuildEvents | cube/qvulkanview.cpp:1132-1135 | one buildDrawCommand hook per swapchain buffer |
| CubeView.RebuildEventsBuildEach | cube/qvulkanview.cpp:1132-1135 | the i-th hook builds the i-th buffer's command buffer |
| CubeView.RebuildTail | cube/qvulkanview.cpp:1126-1135 | after a failed prepare() nothing more happens; otherwise prepareDescriptorSet and then one buildDrawCommand per buffer |
| CubeView.View.Held | cube/qvulkanview.cpp:87-125 | what the destructor and resize_vk destroy is the view's own buffers, framebuffers and command pool |
| CubeView.View.constructor | cube/qvulkanview.cpp:72-85 | a new view is valid, not prepared, with no init command buffer, no swapchain, no buffers or framebuffers, and staging off |
| CubeView.View.SetImageLayout | cube/qvulkanview.cpp:161-232 | the init command buffer is created and begun only when there is none, otherwise reused, and one barrier for the transition is recorded on it |
| CubeView.View.FlushInitCmd | cube/qvulkanview.cpp:127-159 | a pending init command buffer is ended, submitted without semaphores, waited for and freed, and then forgotten; with none, nothing happens |
| CubeView.View.DestroyAll | cube/qvulkanview.cpp:93-95 | each handle destroyed in order, and none stays live |
| CubeView.View.DestroyTextures | cube/qvulkanview.cpp:104-109 | view, image, memory and sampler of each texture destroyed, in order |
| CubeView.View.DestroyBuffers | cube/qvulkanview.cpp:115-120 | each buffer's view destroyed and command buffer freed, both nulled, the images kept |
| CubeView.View.DestroyPipeline | cube/qvulkanview.cpp:93-102 | framebuffers, descriptor pool, pipeline, pipeline cache, render pass, pipeline layout and descriptor set layout destroyed in that order |
| CubeView.View.DestroyDepth | cube/qvulkanview.cpp:111-113 | the depth view, image and memory destroyed in that order |
| CubeView.View.Teardown | cube/qvulkanview.cpp:93-122 | the shared destroy sequence, in the source's order, over what the view held, and exactly those handles are no longer live |
| CubeView.View.PrepareBuffers | cube/qvulkanview.cpp:329-464 | a new swapchain created with the negotiated image count, extent, present mode and transform over the previous one; it fails exactly when the swapchain has no images, and otherwise buffer i holds image i and a fresh view of it, the previous swapchain is no longer live, and the new swapchain and the views are the only handles added |
| CubeView.View.CreateSwapchain | cube/qvulkanview.cpp:347-403 | the swapchain create info is the one built from the surface's capabilities and present modes, with the previous swapchain as old swapchain |
| CubeView.View.InitSwapchainImages | cube/qvulkanview.cpp:406-463 | each buffer holds its swapchain image and a view of it, after a one-off command buffer has been recorded, submitted, waited for and freed |
| CubeView.View.CreateSwapchainViews | cube/qvulkanview.cpp:422-460 | buffer i holds image i and a non-null view, the views distinct and handed out in order |
| CubeView.View.PrepareDepth | cube/qvulkanview.cpp:466-539 | fails exactly when no memory type is allowed; otherwise the depth buffer is D16 at the lowest allowed memory type, with its layout transition pending on the init command buffer |
| CubeView.View.PrepareTextureImage | cube/qvulkanview.cpp:542-629 | fails exactly when the file does not load or no memory type has the required properties; otherwise the texture is at the lowest such type, has the file's size and is bound for SHADER_READ_ONLY with the transition pending |
| CubeView.View.BindTextureMemory | cube/qvulkanview.cpp:593-621 | one new memory object is allocated and bound to the image; only when host-visible memory was asked for is it then mapped, filled with the file's bytes and unmapped |
| CubeView.View.Upload | cube/qvulkanview.cpp:614-620 | the whole allocation is mapped, the file's bytes copied in and the memory unmapped |
| CubeView.View.PrepareStagedTexture | cube/qvulkanview.cpp:662-706 | fails exactly when the file does not load or either memory type is missing; otherwise the texture is device-local at the lowest such type, and the copy has been flushed |
| CubeView.View.CopyStagedTexture | cube/qvulkanview.cpp:673-706 | the copy and its layout transitions are flushed, leaving no init command buffer |
| CubeView.View.PrepareTexture | cube/qvulkanview.cpp:648-755 | one texture along the chosen path with its sampler and view; the other textures are untouched |
| CubeView.View.PrepareTextureObject | cube/qvulkanview.cpp:651-710 | succeeds exactly when the chosen path's file and memory types are available |
| CubeView.View.PrepareTextures | cube/qvulkanview.cpp:639-756 | succeeds exactly when TextureSucceeds, and then every texture is in SHADER_READ_ONLY layout |
| CubeView.View.PrepareDescriptorLayout | cube/qvulkanview.cpp:758-794 | a descriptor set layout and then a pipeline layout are created |
| CubeView.View.PrepareRenderPass | cube/qvulkanview.cpp:796-851 | one render pass is created |
| CubeView.View.CreateShaderModule | cube/qvulkanview.cpp:853-877 | an unreadable file is fatal and creates nothing; otherwise exactly one new shader module |
| CubeView.View.PreparePipeline | cube/qvulkanview.cpp:879-979 | succeeds exactly when both shader files can be read |
| CubeView.View.AllocateDrawBuffers | cube/qvulkanview.cpp:1062-1065 | each buffer gets its own new command buffer, distinct and handed out in order, none of them the init command buffer, and nothing else in the buffer changes; these command buffers are the only handles added |
| CubeView.View.PrepareFramebuffers | cube/qvulkanview.cpp:1004-1029 | one new framebuffer per buffer, distinct and in order |
| CubeView.View.PrepareResources | cube/qvulkanview.cpp:1036-1049 | the command pool, swapchain buffers, depth buffer and textures; it succeeds exactly when the swapchain has images, the depth image finds memory and the textures succeed |
| CubeView.View.PreparePipelineState | cube/qvulkanview.cpp:1051-1053 | succeeds exactly when both shader files can be read |
| CubeView.View.PrepareDrawing | cube/qvulkanview.cpp:1055-1077 | the view is prepared: draw targets for every image, no pending init commands, current buffer 0 |
| CubeView.View.CreateDrawTargets | cube/qvulkanview.cpp:1062-1067 | command buffers and framebuffers for every swapchain buffer, none of them the init command buffer |
| CubeView.View.Prepare | cube/qvulkanview.cpp:1031-1078 | prepare() succeeds exactly when PrepareSucceeds; then the view is prepared with one view, command buffer and framebuffer per swapchain image, no pending init commands, and a swapchain negotiated from the surface; the live handles are those before, less the previous swapchain, plus what the view now holds and the new swapchain, all freshly handed out |
| CubeView.View.RebuildDrawCommands | cube/qvulkanview.cpp:1132-1135 | one buildDrawCommand per buffer in order, leaving the current buffer at the last one |
| CubeView.View.ResizeVk | cube/qvulkanview.cpp:1080-1136 | before the first prepare() nothing changes; afterwards the shared teardown, a new prepare() and, if that got through, the subclass rebuild, in that order. After a successful resize the live handles are those before less everything the view held and its old swapchain, plus what it now holds and its new swapchain, freshly handed out: what a first prepare() leaves, so nothing leaks and nothing is kept twice |
| CubeView.View.PrepareAndRebuild | cube/qvulkanview.cpp:1126-1135 | prepare() and then, if it got through, the subclass hooks; it succeeds exactly when PrepareSucceeds, with the live set of a first prepare() |
| CubeView.View.TeardownForResize | cube/qvulkanview.cpp:1091-1122 | no longer prepared, the shared destroy sequence run, exactly the held handles no longer live, and the buffers cleared |
| CubeView.View.Rebuild | cube/qvulkanview.cpp:1131-1135 | prepareDescriptorSet, then buildDrawCommand for each buffer |
| CubeView.View.Draw | cube/qvulkanview.cpp:234-327 | the outcome is the one ExpectedDraw gives for the driver's answers: an out-of-date acquire resizes (failing when a prepared view's new prepare() fails) and retries, success or suboptimal presents the image, any other result fails. The log is exact on both paths: the semaphore and acquire, then either the frame's events or the resize, the retry's own events and the semaphore's destruction. A frame that does not fail leaves the set of semaphores as it found it. A frame that does not fail keeps the view prepared or not as it was. A frame drawn on the first attempt leaves the view's resources, swapchain and live handles as they were with the acquired index as current buffer (cube/qvulkanview.cpp:250-253), or, when its present resized a prepared view, leaves the view prepared on the new images |
| CubeView.ExpectedDrawRetries | cube/qvulkanview.cpp:250-268 | a frame is drawn after exactly as many retries as there are out-of-date acquires in front of it, on an attempt whose acquire goes through and whose present does not fail; draw() runs out of attempts only when every acquire is out of date |
| CubeView.DrawVerdictMeans | cube/qvulkanview.cpp:250-268 | the same facts read off an outcome that agrees with ExpectedDraw, and a failing acquire result stops draw() |
| CubeView.DrawsOnFirstGoodAttempt | cube/qvulkanview.cpp:250-268 | conversely, out-of-date acquires with resizes that get through, followed by a successful or suboptimal acquire of an image that names a buffer and a present that goes through, draw after that many retries |
| CubeView.FreedAfterItsPool | cube/qvulkanview.cpp:272-327 | when the present finds a prepared view's swapchain out of date, the command pool is destroyed before the one-off command buffer allocated from it is freed |
| CubeView.View.AcquireImage | cube/qvulkanview.cpp:245-252 | a fresh semaphore is created and the acquire waits on it; nothing else happens |
| CubeView.View.AfterAcquire | cube/qvulkanview.cpp:250-327 | the outcome agrees with ExpectedDraw; a drawn frame logs its events and any resize, and leaves the view as it was with the acquired index as current buffer, or rebuilt on the new images when its present resized it; an out-of-date acquire logs the resize, the retry and the semaphore's destruction; a frame that does not fail keeps the view prepared or not as it was, and its semaphore is gone |
| CubeView.View.RetryFrame | cube/qvulkanview.cpp:254-261 | resize_vk; on a prepared view whose new prepare() fails the frame fails; otherwise the outcome is the retry's with one retry more, after which this attempt's semaphore is destroyed, and the view is still prepared if it was |
| CubeView.View.DrawAgain | cube/qvulkanview.cpp:259-261 | the nested draw()'s outcome with one retry more, and then this attempt's semaphore destroyed; the view stays prepared if it was |
| CubeView.View.StartFrame | cube/qvulkanview.cpp:272-312 | the image returned to COLOR_ATTACHMENT_OPTIMAL on a new one-off command buffer, that buffer submitted and waited for, the image's own command buffer submitted waiting on the semaphore, and the image presented |
| CubeView.View.FinishFrame | cube/qvulkanview.cpp:312-327 | the frame is drawn exactly when the present result goes through (out of date needs the resize to get through); then any resize, the wait, the semaphore destroyed and the one-off buffer freed; without a resize the view is untouched and only the one-off buffer has left the live set, after one it is rebuilt on the new images |
| CubeView.View.EndFrame | cube/qvulkanview.cpp:323-327 | the queue waited for, the semaphore destroyed and the one-off command buffer freed, in that order, and neither stays live |
| CubeView.View.ResizePrepared | cube/qvulkanview.cpp:1087-1136 | resize_vk on a prepared view: teardown, prepare() and the rebuild, succeeding exactly when PrepareSucceeds, with the live set of a first prepare() |
| CubeView.View.HeldByStretch | cube/qvulkanview.cpp:87-125 | what the destructor destroys is exactly what prepare()'s steps create: pool, depth buffer, textures, views, pipeline objects, command buffers, framebuffers and descriptor pool |
| CubeView.View.PrepareImages | cube/qvulkanview.cpp:1048-1049 | succeeds exactly when the depth image finds memory and the textures succeed; then the depth and texture handles are the only ones added |
| CubeView.View.PreparePipelineAndDrawing | cube/qvulkanview.cpp:1051-1077 | succeeds exactly when both shader files can be read; then the view is prepared and the live set is that of a first prepare() |
| CubeView.View.FinishPrepare | cube/qvulkanview.cpp:1055-1077 | the view is prepared with current buffer 0 and the command buffers, framebuffers and descriptor pool complete what it holds |
| CubeView.View.PrepareDescriptorPool | cube/qvulkanview.cpp:981-1002 | one new descriptor pool, and nothing else |
| CubeView.View.AllocateDrawBuffer | cube/qvulkanview.cpp:1062-1065 | one pass: buffer i gets the next handle as its command buffer and nothing else changes |
| CubeView.View.CreateSwapchainView | cube/qvulkanview.cpp:422-460 | one pass: buffer i gets image i and the next handle as its view |
| CubeView.View.CreateDepthView | cube/qvulkanview.cpp:530-538 | the depth layout transition is pending on the init command buffer and one view is the only handle added |
| CubeView.View.AllocateTextureImage | cube/qvulkanview.cpp:561-600 | the memory type is the lowest with the required properties; when there is one, the image and its memory are the only handles added |
| CubeView.View.RecordTextureCopy | cube/qvulkanview.cpp:673-702 | the copy and its transitions go on the init command buffer, and no other handle is added |
| CubeView.View.PresentFrame | cube/qvulkanview.cpp:270-327 | the frame is drawn exactly when the image index names a buffer and the present goes through; then the image is returned to COLOR_ATTACHMENT_OPTIMAL, the buffer's commands submitted waiting on the semaphore, the image presented, the swapchain recreated on out of date, the queue waited for, the semaphore destroyed and the one-off command buffer freed, in that order; without a resize the view and its live handles are as they were, after one the view is rebuilt on the new images |
| CubeView.View.ReturnImage | cube/qvulkanview.cpp:272-277 | one new command buffer records the PRESENT_SRC to COLOR_ATTACHMENT transition, bracketed by begin and end, then it is submitted and waited for |
| CubeView.View.Destroy | cube/qvulkanview.cpp:87-125 | the destructor runs the shared destroy sequence, destroys the surface and then, as a member, the swapchain; afterwards exactly what the view held, the surface and the swapchain are no longer live, and the buffers keep their number |
| InfoModel.IndexOf | cube/qvulkaninfomodel.cpp:39-44 | QList::indexOf as row() uses it: -1 exactly when the item is absent, otherwise the first position holding it |
| InfoModel.TreeItem.constructor | cube/qvulkaninfomodel.cpp:10-13 | a new item holds the given cells and parent and has no children |
| InfoModel.TreeItem.AppendChild | cube/qvulkaninfomodel.cpp:19-22 | the child's parent becomes this item and the child is added after the existing children, one more child in all, reachable at the old count |
| InfoModel.TreeItem.Child | cube/qvulkaninfomodel.cpp:24-26 | QList::value: null exactly when the row is out of range, otherwise the child at that row |
| InfoModel.TreeItem.Data | cube/qvulkaninfomodel.cpp:35-37 | the cell at the column, or an invalid value for a column out of range |
| InfoModel.TreeItem.Row | cube/qvulkaninfomodel.cpp:39-44 | 0 for an item without a parent; otherwise -1 exactly when the parent does not list it, else the first position where the parent lists it |
| InfoModel.Graft | cube/qvulkaninfomodel.cpp:19-22 | appending a parentless tree under an item of another, disjoint tree gives one well-linked tree over both item sets |
| InfoModel.Leaf | cube/qvulkaninfomodel.cpp:10-13 | a fresh parentless item with the given cells is a one-item tree |
| InfoModel.DeviceRows | cube/qvulkaninfomodel.cpp:66-74 | five rows under a device, the last one the limits header |
| InfoModel.LimitsRow | cube/qvulkaninfomodel.cpp:58-64 | the granularity row holds the value cast to a 32-bit unsigned integer, equal to the value whenever it fits |
| InfoModel.LimitsNode | cube/qvulkaninfomodel.cpp:58-64 | a fresh tree: the limits header with exactly the granularity row under it |
| InfoModel.DeviceNode | cube/qvulkaninfomodel.cpp:66-74 | a fresh tree headed by the device name, with the five property rows in order and the granularity row under the limits row |
| InfoModel.GroupData | cube/qvulkaninfomodel.cpp:176-216 | each of the five groups has a two-cell header whose first cell is its title |
| InfoModel.NameRows | cube/qvulkaninfomodel.cpp:176-216 | one row per name, in order, each the name and an empty summary |
| InfoModel.LayerNames | cube/qvulkaninfomodel.cpp:197-200 | the layer names of the available layers, in order |
| InfoModel.ExtensionNames | cube/qvulkaninfomodel.cpp:204-207 | the extension names of the available extensions, in order |
| InfoModel.GroupRows | cube/qvulkaninfomodel.cpp:176-216 | the rows of each group; the devices group has one row per `device(j)` answer, j below numDevices, in call order, headed by that answer's name |
| InfoModel.ListGroup | cube/qvulkaninfomodel.cpp:180-207 | a fresh tree, disjoint from the existing items, whose header is the group's and whose children are exactly the name rows in order |
| InfoModel.DeviceGroup | cube/qvulkaninfomodel.cpp:209-216 | a fresh tree listing one device node per `device(j)` answer, in call order, each with its five property rows |
| InfoModel.DevicesShown | cube/qvkinstance.cpp:326-338 | the `device(j)` answers for j below numDevices: the program stops exactly when it asks on an empty enumeration, and otherwise every answer is the first enumerated device |
| InfoModel.DeviceGroupRepeatsFirst | cube/qvulkaninfomodel.cpp:209-216 | with the cube's instance, each of the numDevices rows of the devices group carries the first enumerated device's name |
| InfoModel.SecondDeviceNeverShown | cube/qvulkaninfomodel.cpp:209-216 | a second enumerated device named differently from the first never appears in the devices group |
| InfoModel.AppendListGroup | cube/qvulkaninfomodel.cpp:180-207 | the root keeps its children and gains one more, which lists exactly the given names, and stays one well-linked tree |
| InfoModel.AppendDeviceGroup | cube/qvulkaninfomodel.cpp:209-216 | the root keeps its children and gains the devices group, and stays one well-linked tree |
| InfoModel.SetupModelData | cube/qvulkaninfomodel.cpp:176-216 | the five groups are appended after the root's existing children in their fixed order, each listing exactly its elements, and the whole stays one well-linked tree |
| InfoModel.QVulkanInfoModel.constructor | cube/qvulkaninfomodel.cpp:78-83 | the model is a well-linked tree under the "Element"/"Summary" header with exactly the five groups showing what the instance reports |
| InfoModel.QVulkanInfoModel.ColumnCount | cube/qvulkaninfomodel.cpp:90-96 | the cell count of the item the index names, or of the header item for the invalid index |
| InfoModel.QVulkanInfoModel.RowCount | cube/qvulkaninfomodel.cpp:162-174 | no rows past the first column, the top-level items under the invalid index, otherwise the children of the named item |
| InfoModel.QVulkanInfoModel.Parent | cube/qvulkaninfomodel.cpp:148-160 | invalid exactly when the parent is the root; otherwise a column-0 index naming the parent at the row where the grandparent lists it |
| InfoModel.QVulkanInfoModel.ShapeOfModel | cube/qvulkaninfomodel.cpp:148-216 | in a built model the top level has five rows, each group one row per listed element, a group has no parent and each element's parent is its group at the group's row |

## Left out

- Vulkan itself: every driver call is a handle plus a log event. The model has no GPU semantics, no memory contents beyond the bytes copied into a mapping, and no synchronisation beyond the order of events.
- Driver answers: enumeration results, capabilities, memory requirements, format properties and `VkResult` codes are parameters. This also covers the two-call helper `getVk`, whose calls are given as answers. A call whose result the source only passes to `Q_ASSERT(!err)` is taken to succeed.
- Release builds: with assertions compiled out, a failed `Q_ASSERT` does not stop the program. Only the debug-build behaviour (stop with an error) is modelled.
- UniformBuffer.UniformBuffer.constructor: a failed `Q_ASSERT(pass)` is recorded in `typeFound` instead of ending construction, and the memory is then allocated with type 0, as a build without assertions would do it.
- CubeView.View.Draw: the unbounded recursion of `draw()` on an out-of-date swapchain is bounded by the sequence of per-attempt driver answers. Running out of answers gives `RetriesExhausted`, which the source cannot reach. `ExpectedDraw` states the outcome for every sequence of answers. After a retry, the view's state is stated only as staying prepared or not as it was: its current buffer and resources after the nested frame are not stated.
- CubeView.View.PresentFrame: an image index the driver returns outside `m_buffers` is undefined behaviour in the source. The model stops with `Aborted` and logs nothing more.
- CubeView.View.ResizeVk: the events of the second `prepare()` inside `resize_vk` (cube/qvulkanview.cpp:1126) are returned as `prepareEvents` and are not spelled out call by call. Neither there nor in `Prepare` is the sequence of `prepare()`'s driver calls stated; its outcome, the objects it leaves and its effect on the live handles are. The same holds for the resize inside `Draw` and `PresentFrame`.
- Queue family of the device: the view's constructor creates the device and its queue while `m_graphics_queue_node_index` is still 0 (cube/qvulkanview.cpp:75-77). `init_vk_swapchain` picks the graphics-and-present family only later (cube/qvulkanview.cpp:1243), and `prepare()` creates the command pool on that family (cube/qvulkanview.cpp:1039). When the picked family is not 0, the pool's family has no queue on the device. The model's command pool carries no family, so it does not capture this mismatch; the view's constructor takes the device and queue as given.
- Command buffers and their pool: `draw()` allocates its one-off `QVkCommandBuffer` from `m_cmd_pool` (cube/qvulkanview.cpp:272) and frees it when `draw()` returns (cube/qvkcmdbuf.h:235-238). When the present reports an out-of-date swapchain, `resize_vk` has destroyed that pool in between (cube/qvulkanview.cpp:1121), so the free uses a destroyed pool. The driver model does not tie a command buffer to its pool and does not require a destroyed handle to be live, so it cannot reject this. `CubeView.FreedAfterItsPool` shows the order of the two events in the log.
- Floating point: clear colours come from `QColor` and are kept only as the values passed to the recorder. `QVkViewport`, sampler LOD and anisotropy, queue priorities and the cube's matrices are not modelled.
- File and memory I/O: QImage decoding and shader file reading are left out. A loaded texture is a record of format, size and bytes, and a shader file is an optional byte string (absent when it cannot be read). A `memcpy` into mapped memory is a log event carrying the copied bytes.
- Create-info blobs that are fixed configuration are not modelled field by field: the descriptor layout, render pass, pipeline, descriptor pool, sampler and framebuffer. Only the objects they create are. The swapchain, device and uniform-buffer create-infos are modelled, and so are the image and image-view create-infos of `QVkImage`, `QVkDepthImage` and `QVkImageView`. The view's own texture images are not built through `QVkImage`: their tiling and usage are not modelled, only their memory type and layout.
- Window and platform plumbing is left out: XCB surface creation in `init_vk_swapchain`, the lib view's window creation, `resizeEvent` and the render timer of cube/cube.cpp. The view starts from a surface, device, queue and format given to its constructor.
- Qt model plumbing of `QVulkanInfoModel`: `data`, `flags`, `headerData` and `index` (cube/qvulkaninfomodel.cpp:98-146) are not modelled. `QVariant` is reduced to null, text and number.
- InfoModel.SetupModelData: the five accessors it calls on the instance (`enabledLayerNames`, `enabledExtensionNames`, `availableLayers`, `availableExtensions`, `numDevices`) are not declared by cube/qvkinstance.h, so their answers are parameters of the model. `device(j)` is the one cube/qvkinstance.cpp:326-338 defines: it ignores its index, so every node of the devices group repeats the first enumerated device (DevicesShown, DeviceGroupRepeatsFirst).
- InfoModel.SetupModelData: the source appends each group to the root before filling it. The model fills each group first and appends it afterwards, which yields the same final tree.
- Destruction of trees and objects: `~TreeItem` (`qDeleteAll`), `~QVkImage`, the instance and device destructors, and the info model's destructor are not modelled. The view's destructor, the swapchain, command buffer, image view and uniform buffer releases are.
- `QVkInstance` (cube/qvkinstance.cpp:246-251) loops over the queue families looking for a graphics family and uses the result nowhere. It has no effect and is not modelled.
- lib/qvulkaninstance.cpp outside the constructor's checks and the listed helpers is not modelled: `init()` (63-106), `initFunctionPointers`, `initDebug`, `QVulkanDevice`, `surfaceFormats`, `init(surface)` and `createCommandPool`. Their answers are parameters of `LibView.ConfigureView`.
- Logging: `qDebug`/`qWarning` output, the text `ScopeDebug` prints, and `BreakCallback`'s SIGTRAP are left out. The debug callbacks are modelled by the severity they report and the value they return.
- `cube/cube.cpp`, `cube/cube.h` and `main.cpp` (application start-up and the cube's geometry) are not part of this model.

## Findings

| source | as written | input that shows it | evidently intended | confidence | as-written member | corrected member |
|---|---|---|---|---|---|---|
| cube/qvkinstance.cpp:265-281 | `containsAllLayers` sets `found` for the first needle and never resets it, so every later needle passes unchecked | a haystack holding only `VK_LAYER_GOOGLE_threading`, checked against the eight default validation layers, is reported as containing them all | every needle must be in the haystack, as `checkLayers` in lib/qvulkaninstance.cpp:5-20 checks it | not executed | InstanceCube.ContainsAllLayersMissesLaterNeedles | LibInstance.CheckLayers |

=== FILE: barriers.dfy ===
/** The image layout transition barrier the demo records in two places: the view's
    set_image_layout (a chain of independent `if`s) and the recorder's transformImage
    (a `switch`). Both pick the destination access mask from the target layout alone. */
module Barriers {
  import opened VkTypes
  import opened Gpu

  const SHADER_READ_ACCESS: Flags := ACCESS_SHADER_READ_BIT | ACCESS_INPUT_ATTACHMENT_READ_BIT

  /** set_image_layout: the mask starts at 0 and each `if` that matches overwrites it. */
  function SetImageLayoutDstAccess(newLayout: ImageLayout): Flags
  {
    var afterTransfer := if newLayout == TransferDstOptimal then ACCESS_TRANSFER_READ_BIT else 0;
    var afterColor := if newLayout == ColorAttachmentOptimal then ACCESS_COLOR_ATTACHMENT_WRITE_BIT else afterTransfer;
    var afterDepth := if newLayout == DepthStencilAttachmentOptimal then ACCESS_DEPTH_STENCIL_ATTACHMENT_WRITE_BIT else afterColor;
    if newLayout == ShaderReadOnlyOptimal then SHADER_READ_ACCESS else afterDepth
  }

  /** transformImage: the caller's `dstAccess` is written into the barrier and then
      overwritten by the switch on the target layout, whose default is 0. */
  function TransformImageDstAccess(toLayout: ImageLayout, dstAccess: Flags): Flags
  {
    match toLayout
    case TransferDstOptimal => ACCESS_TRANSFER_READ_BIT
    case ColorAttachmentOptimal => ACCESS_COLOR_ATTACHMENT_WRITE_BIT
    case DepthStencilAttachmentOptimal => ACCESS_DEPTH_STENCIL_ATTACHMENT_WRITE_BIT
    case ShaderReadOnlyOptimal => SHADER_READ_ACCESS
    case _ => 0
  }

  /** The two policies are one table: TRANSFER_DST -> TRANSFER_READ, COLOR_ATTACHMENT ->
      COLOR_ATTACHMENT_WRITE, DEPTH_STENCIL_ATTACHMENT -> DEPTH_STENCIL_ATTACHMENT_WRITE,
      SHADER_READ_ONLY -> SHADER_READ | INPUT_ATTACHMENT_READ, anything else -> 0; and
      transformImage's `dstAccess` argument never reaches the barrier. */
  lemma AccessPoliciesAgree(layout: ImageLayout, dstAccess: Flags)
    ensures TransformImageDstAccess(layout, dstAccess) == SetImageLayoutDstAccess(layout)
    ensures TransformImageDstAccess(layout, dstAccess) == TransformImageDstAccess(layout, 0)
    ensures layout == TransferDstOptimal ==> SetImageLayoutDstAccess(layout) == ACCESS_TRANSFER_READ_BIT
    ensures layout == ColorAttachmentOptimal ==> SetImageLayoutDstAccess(layout) == ACCESS_COLOR_ATTACHMENT_WRITE_BIT
    ensures layout == DepthStencilAttachmentOptimal ==> SetImageLayoutDstAccess(layout) == ACCESS_DEPTH_STENCIL_ATTACHMENT_WRITE_BIT
    ensures layout == ShaderReadOnlyOptimal ==> SetImageLayoutDstAccess(layout) == SHADER_READ_ACCESS
    ensures layout !in {TransferDstOptimal, ColorAttachmentOptimal, DepthStencilAttachmentOptimal, ShaderReadOnlyOptimal}
            ==> SetImageLayoutDstAccess(layout) == 0
  {
  }

  /** The barrier both build: source access passed through, the tabled destination
      access, one mip level and one array layer of the given aspect, and the queue
      family fields of a zero-initialised struct. */
  function LayoutBarrier(image: Handle, aspectMask: Flags, oldLayout: ImageLayout, newLayout: ImageLayout, srcAccess: Flags): (b: ImageBarrier)
    ensures b.image == image && b.oldLayout == oldLayout && b.newLayout == newLayout
    ensures b.srcAccessMask == srcAccess && b.dstAccessMask == SetImageLayoutDstAccess(newLayout)
    ensures b.subresourceRange == SubresourceRange(aspectMask, 0, 1, 0, 1)
  {
    ImageBarrier(srcAccess, SetImageLayoutDstAccess(newLayout), oldLayout, newLayout, 0, 0, image,
                 SubresourceRange(aspectMask, 0, 1, 0, 1))
  }

  /** The vkCmdPipelineBarrier call both make: top-of-pipe on both sides, no
      dependency flags, no memory or buffer barriers and exactly one image barrier. */
  function LayoutTransition(image: Handle, aspectMask: Flags, oldLayout: ImageLayout, newLayout: ImageLayout, srcAccess: Flags): (c: Command)
    ensures c.PipelineBarrier?
    ensures c.srcStageMask == PIPELINE_STAGE_TOP_OF_PIPE_BIT && c.dstStageMask == PIPELINE_STAGE_TOP_OF_PIPE_BIT
    ensures c.dependencyFlags == 0 && c.memoryBarrierCount == 0 && c.bufferMemoryBarrierCount == 0
    ensures c.imageBarriers == [LayoutBarrier(image, aspectMask, oldLayout, newLayout, srcAccess)]
  {
    PipelineBarrier(PIPELINE_STAGE_TOP_OF_PIPE_BIT, PIPELINE_STAGE_TOP_OF_PIPE_BIT, 0, 0, 0,
                    [LayoutBarrier(image, aspectMask, oldLayout, newLayout, srcAccess)])
  }
}

=== FILE: cube_view.dfy ===
/** QVulkanView of cube/qvulkanview.cpp: the window's Vulkan state and its lifecycle.
    prepare builds everything from the command pool to the descriptor pool, resize_vk
    tears it down and builds it again, draw presents one frame and reacts to what the
    swapchain reports, and the init command buffer `m_cmd` is created on demand by
    set_image_layout and flushed by flush_init_cmd. Every driver call is an event on the
    Gpu log; what the driver answers (capabilities, swapchain images, memory
    requirements, the texture file, the result codes of a frame) comes in as records. */
module CubeView {
  import opened VkTypes
  import opened Wrappers
  import opened Gpu
  import opened Barriers
  import Recorder
  import Swapchain
  import opened SwapchainChoice
  import Device
  import MemoryTypes
  import VkUtil
  import opened LiveSets

  // ---------------------------------------------------------------- state records

  /** SwapchainBuffers: one presentable image, the command buffer that draws into it,
      and its colour view. */
  datatype SwapchainBuffers = SwapchainBuffers(image: Handle, cmd: Handle, view: Handle)

  /** texture_object (mem_alloc reduced to the chosen memory type index). */
  datatype TextureObject = TextureObject(
    sampler: Handle,
    image: Handle,
    imageLayout: ImageLayout,
    memoryTypeIndex: nat,
    mem: Handle,
    view: Handle,
    texWidth: U32,
    texHeight: U32)

  /** m_depth (mem_alloc reduced to the chosen memory type index). */
  datatype DepthBuffer = DepthBuffer(format: Format, image: Handle, memoryTypeIndex: nat, mem: Handle, view: Handle)

  const ZERO_TEXTURE := TextureObject(NullHandle, NullHandle, Undefined, 0, NullHandle, NullHandle, 0, 0)
  const ZERO_DEPTH := DepthBuffer(FormatUndefined, NullHandle, 0, NullHandle, NullHandle)
  const ZERO_BUFFERS := SwapchainBuffers(NullHandle, NullHandle, NullHandle)

  const DEMO_TEXTURE_COUNT: nat := 1
  const DEPTH_FORMAT: Format := D16Unorm
  const DEPTH_WIDTH: U32 := 400
  const DEPTH_HEIGHT: U32 := 400
  /** The format whose sampling support decides the texture path. */
  const TEXTURE_FORMAT: Format := R8G8B8A8Unorm

  /** QVector::resize: existing elements are kept, new ones value-initialised. */
  function Resized<T>(s: seq<T>, n: nat, zero: T): (r: seq<T>)
    ensures |r| == n
    ensures forall i :: 0 <= i < n ==> r[i] == if i < |s| then s[i] else zero
  {
    if n <= |s| then s[..n] else s + seq(n - |s|, _ => zero)
  }

  // ---------------------------------------------------------------- driver answers

  /** The texture file as QImage reads it; None when QImage comes back null. */
  datatype TextureFile = TextureFile(format: VkUtil.QImageFormat, width: U32, height: U32, bits: seq<bv8>)

  /** What the driver and the file system answer during one prepare(). */
  datatype PrepareAnswers = PrepareAnswers(
    capabilities: SurfaceCapabilities,
    presentModes: seq<PresentMode>,
    swapchainImages: seq<Handle>,
    depthMemory: MemoryRequirements,
    formatProperties: FormatProperties,
    textureFile: Option<TextureFile>,
    /** vkGetImageMemoryRequirements for a linear (host-visible) texture image */
    linearMemory: MemoryRequirements,
    /** the same for the optimal-tiling texture image of the staging path */
    optimalMemory: MemoryRequirements,
    /** the contents of cube-vert.spv and cube-frag.spv; None when QFile cannot open it */
    vertexShader: Option<seq<bv8>>,
    fragmentShader: Option<seq<bv8>>)
  {
    /** The 32-bit fields fit in 32 bits. */
    predicate InRange() {
      capabilities.minImageCount <= UINT32_MAX && capabilities.maxImageCount <= UINT32_MAX
    }
  }

  /** How prepare (and what calls it) ends: done, or a Q_ASSERT / qFatal that stops the
      program. */
  datatype Outcome = Done | Abort(reason: string)

  // ---------------------------------------------------------------- texture path

  datatype TexturePath = LinearPath | StagingPath | NoTextureSupport

  /** prepare_textures: sample a linear image directly when linear tiling supports
      sampling and staging is off; else copy through a linear staging image into an
      optimal one when optimal tiling supports sampling; else fail. */
  function ChooseTexturePath(props: FormatProperties, useStagingBuffer: bool): (p: TexturePath)
    ensures p == LinearPath <==> (HasBits(props.linearTilingFeatures, FORMAT_FEATURE_SAMPLED_IMAGE_BIT) && !useStagingBuffer)
    ensures p == StagingPath <==>
      (!(HasBits(props.linearTilingFeatures, FORMAT_FEATURE_SAMPLED_IMAGE_BIT) && !useStagingBuffer) &&
       HasBits(props.optimalTilingFeatures, FORMAT_FEATURE_SAMPLED_IMAGE_BIT))
  {
    if props.linearTilingFeatures & FORMAT_FEATURE_SAMPLED_IMAGE_BIT != 0 && !useStagingBuffer then LinearPath
    else if props.optimalTilingFeatures & FORMAT_FEATURE_SAMPLED_IMAGE_BIT != 0 then StagingPath
    else NoTextureSupport
  }

  /** The tiling of the image the shaders end up sampling on each path. */
  function SampledTiling(p: TexturePath): ImageTiling
  {
    if p == LinearPath then TilingLinear else TilingOptimal
  }

  /** Whatever path is taken, the texture the shaders sample has a tiling in which the
      device can sample the format; the staging path is taken only when it is needed or
      asked for, and the program stops only when neither tiling can be sampled. */
  lemma TexturePathSamples(props: FormatProperties, useStagingBuffer: bool)
    ensures var p := ChooseTexturePath(props, useStagingBuffer);
            (p != NoTextureSupport ==>
               HasBits(if SampledTiling(p) == TilingLinear then props.linearTilingFeatures else props.optimalTilingFeatures,
                       FORMAT_FEATURE_SAMPLED_IMAGE_BIT)) &&
            (p == NoTextureSupport <==>
               !HasBits(props.optimalTilingFeatures, FORMAT_FEATURE_SAMPLED_IMAGE_BIT) &&
               (useStagingBuffer || !HasBits(props.linearTilingFeatures, FORMAT_FEATURE_SAMPLED_IMAGE_BIT))) &&
            (p == StagingPath ==> useStagingBuffer || !HasBits(props.linearTilingFeatures, FORMAT_FEATURE_SAMPLED_IMAGE_BIT))
  {
  }

  // ---------------------------------------------------------------- frame results

  /** What the driver answers during one call of draw(): the acquire result and
      image index, the present result, and what a resize in this call finds. */
  datatype FrameAnswers = FrameAnswers(
    acquireResult: VkResult,
    imageIndex: U32,
    presentResult: VkResult,
    resize: PrepareAnswers)

  /** How draw() ends: presented after some number of out-of-date retries, out of
      modelled retries, or stopped by a failed assertion. */
  datatype DrawOutcome = Drawn(retries: nat) | RetriesExhausted | Aborted(reason: string)

  datatype FrameAction = Proceed | Recreate | Stop

  /** What draw does with the result of acquiring or presenting an image: out of date
      recreates the swapchain (and, on acquire, retries the frame), suboptimal carries
      on like success, anything else fails the assertion. */
  function FrameResultAction(result: VkResult): (a: FrameAction)
    ensures a == Recreate <==> result == ErrorOutOfDate
    ensures a == Proceed <==> result in {Success, Suboptimal}
    ensures a == Stop <==> result !in {Success, Suboptimal, ErrorOutOfDate}
  {
    if result == ErrorOutOfDate then Recreate
    else if result == Suboptimal then Proceed
    else if result == Success then Proceed
    else Stop
  }

  /** The view handles a present result the way QVkQueue::present does, except that an
      out-of-date swapchain is recreated where the queue only warns about it. */
  lemma ViewAndQueuePresentAgree(result: VkResult)
    ensures FrameResultAction(result) == Proceed <==> Recorder.QueuePresentVerdict(result) == Recorder.Accepted
    ensures FrameResultAction(result) == Stop <==> Recorder.QueuePresentVerdict(result) == Recorder.Aborted
    ensures FrameResultAction(result) == Recreate <==> Recorder.QueuePresentVerdict(result) == Recorder.WarnedOutOfDate
  {
  }

  /** What draw() comes to, its failure messages left aside. */
  datatype DrawVerdict = WouldDraw(retries: nat) | WouldExhaust | WouldAbort

  /** The verdict of an outcome. */
  function VerdictOf(d: DrawOutcome): DrawVerdict
  {
    match d
    case Drawn(k) => WouldDraw(k)
    case RetriesExhausted => WouldExhaust
    case Aborted(_) => WouldAbort
  }

  /** One more out-of-date retry in front of a verdict. */
  function Retried(v: DrawVerdict): (r: DrawVerdict)
    ensures r.WouldDraw? <==> v.WouldDraw?
    ensures r.WouldDraw? ==> r.retries == v.retries + 1
    ensures !r.WouldDraw? ==> r == v
  {
    if v.WouldDraw? then WouldDraw(v.retries + 1) else v
  }

  /** Whether a frame gets through once its image is presented: success and suboptimal
      carry on; out of date resizes, and the resize's prepare() must get through when
      the view was prepared; anything else fails the assertion. */
  predicate PresentGoesThrough(f: FrameAnswers, prepared: bool, table: MemoryTypes.MemoryTypeTable,
                               useStagingBuffer: bool)
  {
    match FrameResultAction(f.presentResult)
    case Proceed => true
    case Stop => false
    case Recreate => !prepared || PrepareSucceeds(f.resize, table, useStagingBuffer)
  }

  /** The 32-bit fields of every attempt's resize answers fit in 32 bits. */
  predicate ResizesInRange(attempts: seq<FrameAnswers>)
  {
    forall k :: 0 <= k < |attempts| ==> attempts[k].resize.InRange()
  }

  /** The first attempt's answers are in range, and so are the rest. */
  lemma ResizesInRangeSplit(attempts: seq<FrameAnswers>)
    requires ResizesInRange(attempts) && |attempts| > 0
    ensures attempts[0].resize.InRange() && ResizesInRange(attempts[1..])
  {
    assert forall k :: 1 <= k < |attempts| ==> attempts[1..][k - 1] == attempts[k];
  }

  /** Every one of the first `n` attempts found the swapchain out of date at acquire. */
  predicate OutOfDateBefore(attempts: seq<FrameAnswers>, n: nat)
  {
    forall k :: 0 <= k < n && k < |attempts| ==> attempts[k].acquireResult == ErrorOutOfDate
  }

  /** Attempt `k` is the one that draws: every attempt before it found the swapchain
      out of date at acquire, its own acquire went through and its present did not fail. */
  predicate DrawnOnAttempt(attempts: seq<FrameAnswers>, k: nat)
  {
    k < |attempts| && OutOfDateBefore(attempts, k) &&
    FrameResultAction(attempts[k].acquireResult) == Proceed && FrameResultAction(attempts[k].presentResult) != Stop
  }

  /** What draw() comes to when the driver answers its attempts with `attempts`, on a
      view that is `prepared` with `buffers` swapchain buffers: an out-of-date acquire
      resizes (which fails when the new prepare() does) and tries again with the next
      attempt; an acquire that goes through draws exactly when the image index names a
      buffer and the present goes through; any other acquire result fails. */
  function ExpectedDraw(attempts: seq<FrameAnswers>, prepared: bool, buffers: nat,
                        table: MemoryTypes.MemoryTypeTable, useStagingBuffer: bool): DrawVerdict
    decreases |attempts|
  {
    if attempts == [] then WouldExhaust
    else
      var f := attempts[0];
      match FrameResultAction(f.acquireResult)
      case Stop => WouldAbort
      case Proceed =>
        if f.imageIndex as int < buffers && PresentGoesThrough(f, prepared, table, useStagingBuffer) then WouldDraw(0)
        else WouldAbort
      case Recreate =>
        if !prepared then Retried(ExpectedDraw(attempts[1..], false, buffers, table, useStagingBuffer))
        else if PrepareSucceeds(f.resize, table, useStagingBuffer) then
          Retried(ExpectedDraw(attempts[1..], true, |f.resize.swapchainImages|, table, useStagingBuffer))
        else WouldAbort
  }

  /** A frame is drawn after exactly as many retries as there are out-of-date acquires
      in front of it, on an attempt whose acquire goes through and whose present does
      not fail; draw() runs out of attempts only when every acquire is out of date. */
  lemma {:induction false} ExpectedDrawRetries(attempts: seq<FrameAnswers>, prepared: bool, buffers: nat,
                                               table: MemoryTypes.MemoryTypeTable, useStagingBuffer: bool)
    ensures var v := ExpectedDraw(attempts, prepared, buffers, table, useStagingBuffer);
      (v.WouldDraw? ==>
         DrawnOnAttempt(attempts, v.retries)) &&
      (v == WouldExhaust ==> OutOfDateBefore(attempts, |attempts|))
    decreases |attempts|
  {
    if attempts != [] && FrameResultAction(attempts[0].acquireResult) == Recreate {
      var f := attempts[0];
      var rest := attempts[1..];
      if !prepared {
        ExpectedDrawRetries(rest, false, buffers, table, useStagingBuffer);
      } else if PrepareSucceeds(f.resize, table, useStagingBuffer) {
        ExpectedDrawRetries(rest, true, |f.resize.swapchainImages|, table, useStagingBuffer);
      }
      assert forall k :: 1 <= k < |attempts| ==> attempts[k] == rest[k - 1];
    }
  }

  /** The same, read off the outcome of draw(). */
  lemma DrawVerdictMeans(d: DrawOutcome, attempts: seq<FrameAnswers>, prepared: bool, buffers: nat,
                         table: MemoryTypes.MemoryTypeTable, useStagingBuffer: bool)
    requires VerdictOf(d) == ExpectedDraw(attempts, prepared, buffers, table, useStagingBuffer)
    ensures d == RetriesExhausted ==> OutOfDateBefore(attempts, |attempts|)
    ensures d.Drawn? ==>
      DrawnOnAttempt(attempts, d.retries)
    ensures |attempts| > 0 && FrameResultAction(attempts[0].acquireResult) == Stop ==> d.Aborted?
  {
    ExpectedDrawRetries(attempts, prepared, buffers, table, useStagingBuffer);
  }

  /** How many swapchain buffers the view has when attempt `k` acquires: on a prepared
      view every earlier attempt resized, so the last resize's images count. */
  function BuffersAt(attempts: seq<FrameAnswers>, k: nat, prepared: bool, buffers: nat): nat
    requires k <= |attempts|
  {
    if prepared && k > 0 then |attempts[k - 1].resize.swapchainImages| else buffers
  }

  /** Conversely, draw() does draw, after `k` retries, when the first `k` acquires are
      out of date with resizes whose prepare() gets through, and attempt `k` acquires
      (successfully or suboptimally) an image that names a buffer and presents it
      without failing. */
  lemma {:induction false} DrawsOnFirstGoodAttempt(attempts: seq<FrameAnswers>, k: nat, prepared: bool, buffers: nat,
                                                   table: MemoryTypes.MemoryTypeTable, useStagingBuffer: bool)
    requires k < |attempts| && OutOfDateBefore(attempts, k)
    requires forall j :: 0 <= j < k ==> !prepared || PrepareSucceeds(attempts[j].resize, table, useStagingBuffer)
    requires attempts[k].acquireResult == Success || attempts[k].acquireResult == Suboptimal
    requires attempts[k].imageIndex as int < BuffersAt(attempts, k, prepared, buffers)
    requires PresentGoesThrough(attempts[k], prepared, table, useStagingBuffer)
    ensures ExpectedDraw(attempts, prepared, buffers, table, useStagingBuffer) == WouldDraw(k)
    decreases k
  {
    if k > 0 {
      var f := attempts[0];
      var rest := attempts[1..];
      assert f.acquireResult == ErrorOutOfDate;
      assert forall j :: 1 <= j < |attempts| ==> attempts[j] == rest[j - 1];
      assert OutOfDateBefore(rest, k - 1) by {
        forall j | 0 <= j < k - 1 && j < |rest|
          ensures rest[j].acquireResult == ErrorOutOfDate
        {
          assert rest[j] == attempts[j + 1];
        }
      }
      if prepared {
        assert PrepareSucceeds(f.resize, table, useStagingBuffer);
        DrawsOnFirstGoodAttempt(rest, k - 1, true, |f.resize.swapchainImages|, table, useStagingBuffer);
      } else {
        DrawsOnFirstGoodAttempt(rest, k - 1, false, buffers, table, useStagingBuffer);
      }
    }
  }

  /** A log that extends another is the other followed by what came after it. */
  lemma LogExtends(before: seq<Event>, after: seq<Event>)
    requires before <= after
    ensures after == before + after[|before|..]
  {
  }

  /** A handle created and destroyed again (a semaphore, a one-off command buffer)
      leaves the others as they were. */
  lemma HandleGone(handles: set<Handle>, h: Handle)
    requires h !in handles
    ensures handles + {h} - {h} == handles
  {
  }

  /** Whether presenting `f` makes a prepared view rebuild itself: the present found
      the swapchain out of date. */
  predicate PresentResizes(f: FrameAnswers, prepared: bool)
  {
    prepared && FrameResultAction(f.presentResult) == Recreate
  }

  /** What draw() logs first: the semaphore, then the acquire that waits on it. */
  function AcquireEvents(swapchain: Handle, semaphore: Handle, result: VkResult): (r: seq<Event>)
    ensures |r| == 2 && r[1].Acquired?
  {
    [SemaphoreCreated(semaphore), Acquired(swapchain, semaphore, result)]
  }

  /** What draw() logs from giving the image back to the colour attachment layout up to
      the present: the one-off buffer `local` recording the transition, submitted and
      waited for, then the buffer's draw commands submitted to wait on the semaphore,
      and the present of image `index`. */
  function FrameStartEvents(local: Handle, b: SwapchainBuffers, semaphore: Handle, swapchain: Handle,
                            index: nat, result: VkResult): (r: seq<Event>)
    ensures |r| > 2 && r[0] == Created(Kind.CommandBuffer, local) && r[|r| - 1] == Presented(swapchain, index, result)
    ensures r[|r| - 2] == Submitted(b.cmd, semaphore)
  {
    [Created(Kind.CommandBuffer, local)] +
    Recorder.Recording(local, 0, [LayoutTransition(b.image, IMAGE_ASPECT_COLOR_BIT, PresentSrc, ColorAttachmentOptimal, 0)]) +
    [Submitted(local, NullHandle), QueueWaitedIdle, Submitted(b.cmd, semaphore), Presented(swapchain, index, result)]
  }

  /** What draw() logs last: the wait for the queue, the semaphore destroyed, and the
      one-off buffer freed as it goes out of scope. */
  function FrameEndEvents(semaphore: Handle, local: Handle): (r: seq<Event>)
    ensures |r| == 3 && r[2] == Destroyed(Kind.CommandBuffer, local)
  {
    [QueueWaitedIdle, SemaphoreDestroyed(semaphore), Destroyed(Kind.CommandBuffer, local)]
  }

  /** What a resize_vk called by draw() logs when the swapchain is out of date
      (`recreate`): nothing before the first prepare(), else the teardown of what the
      view `held`, what prepare() logged and the subclass hooks over the new buffers. */
  function ResizeLog(recreate: bool, prepared: bool, held: Resources, prepareEvents: seq<Event>,
                     bs: seq<SwapchainBuffers>): (r: seq<Event>)
    ensures recreate && prepared ==> TeardownEvents(held) <= r
    ensures !(recreate && prepared) ==> r == []
  {
    if recreate && prepared then TeardownEvents(held) + prepareEvents + RebuildTail(Done, bs) else []
  }

  /** The log of a resize that got through, read as one stretch after what came before. */
  lemma ResizeLogAfter(log: seq<Event>, held: Resources, prepareEvents: seq<Event>, bs: seq<SwapchainBuffers>)
    ensures log + TeardownEvents(held) + prepareEvents + RebuildTail(Done, bs) ==
            log + ResizeLog(true, true, held, prepareEvents, bs)
  {
    var t, tail := TeardownEvents(held), RebuildTail(Done, bs);
    assert log + t + prepareEvents + tail == log + (t + prepareEvents + tail);
  }

  /** When the present finds a prepared view's swapchain out of date, resize_vk destroys
      the command pool the one-off buffer of draw() came from, and only afterwards is
      that buffer freed. */
  lemma FreedAfterItsPool(local: Handle, b: SwapchainBuffers, semaphore: Handle, swapchain: Handle, index: nat,
                          held: Resources, prepareEvents: seq<Event>, bs: seq<SwapchainBuffers>)
    ensures var start := FrameStartEvents(local, b, semaphore, swapchain, index, ErrorOutOfDate);
            var log := start + ResizeLog(true, true, held, prepareEvents, bs) + FrameEndEvents(semaphore, local);
            var p := |start| + |TeardownEvents(held)| - 1;
            p < |log| - 1 && log[p] == Destroyed(Kind.CommandPool, held.cmdPool) &&
            log[|log| - 1] == Destroyed(Kind.CommandBuffer, local)
  {
    var start := FrameStartEvents(local, b, semaphore, swapchain, index, ErrorOutOfDate);
    var t := TeardownEvents(held);
    var log := start + ResizeLog(true, true, held, prepareEvents, bs) + FrameEndEvents(semaphore, local);
    assert log == start + t + (prepareEvents + RebuildTail(Done, bs)) + FrameEndEvents(semaphore, local);
    assert log[|start| + |t| - 1] == t[|t| - 1];
  }

  // ---------------------------------------------------------------- event shapes

  /** What set_image_layout leaves in the log: the allocation and begin of the init
      command buffer when there was none (`before` is null), then the barrier on it. */
  function LayoutEvents(before: Handle, cb: Handle, c: Command): (r: seq<Event>)
    ensures |r| == if before == NullHandle then 3 else 1
    ensures r[|r| - 1] == Recorded(cb, c)
  {
    (if before == NullHandle then [Created(Kind.CommandBuffer, cb), Begun(cb, 0)] else []) + [Recorded(cb, c)]
  }

  /** What flush_init_cmd leaves in the log: nothing without an init command buffer,
      otherwise end, submit without semaphores, wait, free. */
  function FlushEvents(cb: Handle): (r: seq<Event>)
    ensures cb == NullHandle <==> r == []
    ensures cb != NullHandle ==> r[0] == Ended(cb) && r[|r| - 1] == Destroyed(Kind.CommandBuffer, cb)
  {
    if cb == NullHandle then []
    else [Ended(cb), Submitted(cb, NullHandle), QueueWaitedIdle, Destroyed(Kind.CommandBuffer, cb)]
  }

  /** One destroy call per handle, in order. */
  function DestroyEvents(kind: Kind, hs: seq<Handle>): (r: seq<Event>)
    ensures |r| == |hs|
  {
    if hs == [] then [] else DestroyEvents(kind, hs[..|hs| - 1]) + [Destroyed(kind, hs[|hs| - 1])]
  }

  lemma {:induction false} DestroyEventsDestroyEach(kind: Kind, hs: seq<Handle>)
    ensures forall i :: 0 <= i < |hs| ==> DestroyEvents(kind, hs)[i] == Destroyed(kind, hs[i])
  {
    if hs != [] {
      DestroyEventsDestroyEach(kind, hs[..|hs| - 1]);
    }
  }

  /** View, image, memory and sampler of each texture, in order. */
  function TextureTeardownEvents(ts: seq<TextureObject>): (r: seq<Event>)
    ensures |r| == 4 * |ts|
  {
    if ts == [] then []
    else
      var t := ts[|ts| - 1];
      TextureTeardownEvents(ts[..|ts| - 1]) +
      [Destroyed(Kind.ImageView, t.view), Destroyed(Kind.Image, t.image),
       Destroyed(Kind.DeviceMemory, t.mem), Destroyed(Kind.Sampler, t.sampler)]
  }

  /** The view and the command buffer of each swapchain buffer, in order. */
  function BufferTeardownEvents(bs: seq<SwapchainBuffers>): (r: seq<Event>)
    ensures |r| == 2 * |bs|
  {
    if bs == [] then []
    else
      var b := bs[|bs| - 1];
      BufferTeardownEvents(bs[..|bs| - 1]) + [Destroyed(Kind.ImageView, b.view), Destroyed(Kind.CommandBuffer, b.cmd)]
  }

  /** Everything prepare() creates, as the destructor and resize_vk find it. */
  datatype Resources = Resources(
    framebuffers: seq<Handle>,
    descPool: Handle,
    pipeline: Handle,
    pipelineCache: Handle,
    renderPass: Handle,
    pipelineLayout: Handle,
    descLayout: Handle,
    textures: seq<TextureObject>,
    depth: DepthBuffer,
    buffers: seq<SwapchainBuffers>,
    cmdPool: Handle)

  /** The framebuffers, then the pipeline objects and layouts. */
  function PipelineTeardownEvents(r: Resources): (e: seq<Event>)
    ensures |e| == |r.framebuffers| + 6
  {
    DestroyEvents(Kind.Framebuffer, r.framebuffers) +
    [Destroyed(Kind.DescriptorPool, r.descPool),
     Destroyed(Kind.Pipeline, r.pipeline),
     Destroyed(Kind.PipelineCache, r.pipelineCache),
     Destroyed(Kind.RenderPass, r.renderPass),
     Destroyed(Kind.PipelineLayout, r.pipelineLayout),
     Destroyed(Kind.DescriptorSetLayout, r.descLayout)]
  }

  function DepthTeardownEvents(d: DepthBuffer): (e: seq<Event>)
    ensures |e| == 3
  {
    [Destroyed(Kind.ImageView, d.view), Destroyed(Kind.Image, d.image), Destroyed(Kind.DeviceMemory, d.mem)]
  }

  /** The destroy sequence the destructor and resize_vk share: framebuffers,
      descriptor pool, pipeline, pipeline cache, render pass, pipeline layout,
      descriptor set layout, textures, depth buffer, swapchain buffers, command pool. */
  function TeardownEvents(r: Resources): (e: seq<Event>)
    ensures |e| == |r.framebuffers| + 6 + 4 * |r.textures| + 3 + 2 * |r.buffers| + 1
    ensures e[|e| - 1] == Destroyed(Kind.CommandPool, r.cmdPool)
  {
    PipelineTeardownEvents(r) + TextureTeardownEvents(r.textures) + DepthTeardownEvents(r.depth) +
    BufferTeardownEvents(r.buffers) + [Destroyed(Kind.CommandPool, r.cmdPool)]
  }

  /** The hooks resize_vk calls on the subclass after prepare(): the descriptor set,
      then the draw command of each buffer in order. */
  function RebuildEvents(bs: seq<SwapchainBuffers>): (r: seq<Event>)
    ensures |r| == |bs|
  {
    if bs == [] then [] else RebuildEvents(bs[..|bs| - 1]) + [Hook("buildDrawCommand", bs[|bs| - 1].cmd)]
  }

  lemma {:induction false} RebuildEventsBuildEach(bs: seq<SwapchainBuffers>)
    ensures forall i :: 0 <= i < |bs| ==> RebuildEvents(bs)[i] == Hook("buildDrawCommand", bs[i].cmd)
  {
    if bs != [] {
      RebuildEventsBuildEach(bs[..|bs| - 1]);
    }
  }

  /** What resize_vk logs after prepare(): the subclass hooks when prepare() got
      through, nothing when it failed. */
  function RebuildTail(o: Outcome, bs: seq<SwapchainBuffers>): (r: seq<Event>)
    ensures o.Abort? <==> r == []
    ensures o.Done? ==> r[0] == Hook("prepareDescriptorSet", NullHandle) && r[1..] == RebuildEvents(bs)
  {
    if o.Done? then [Hook("prepareDescriptorSet", NullHandle)] + RebuildEvents(bs) else []
  }

  /** The swapchain's handle as a set: empty when there is none. */
  function SwapchainSet(s: Swapchain.Swapchain?): (r: set<Handle>)
    ensures s == null <==> r == {}
  {
    if s == null then {} else {s.handle}
  }

  /** The view of each swapchain buffer. */
  function ViewsOf(bs: seq<SwapchainBuffers>): set<Handle>
  {
    set i | 0 <= i < |bs| :: bs[i].view
  }

  /** The draw command buffer of each swapchain buffer. */
  function DrawCmdsOf(bs: seq<SwapchainBuffers>): set<Handle>
  {
    set i | 0 <= i < |bs| :: bs[i].cmd
  }

  lemma BuffersPrefix(bs: seq<SwapchainBuffers>, i: nat)
    requires i < |bs|
    ensures ViewsOf(bs[..i + 1]) == ViewsOf(bs[..i]) + {bs[i].view}
    ensures DrawCmdsOf(bs[..i + 1]) == DrawCmdsOf(bs[..i]) + {bs[i].cmd}
    ensures BufferTeardownEvents(bs[..i + 1]) ==
      BufferTeardownEvents(bs[..i]) + [Destroyed(Kind.ImageView, bs[i].view), Destroyed(Kind.CommandBuffer, bs[i].cmd)]
  {
    var p, q := bs[..i + 1], bs[..i];
    assert forall k :: 0 <= k < i ==> p[k] == q[k];
    assert p[i] == bs[i];
    assert p[..i] == q;
  }

  /** The framebuffers as a set. */
  function FramebufferSet(fbs: seq<Handle>): set<Handle>
  {
    set h | h in fbs
  }

  lemma FramebufferPrefix(fbs: seq<Handle>, i: nat)
    requires i < |fbs|
    ensures FramebufferSet(fbs[..i + 1]) == FramebufferSet(fbs[..i]) + {fbs[i]}
  {
    assert fbs[..i + 1] == fbs[..i] + [fbs[i]];
  }

  /** Where the allocation loop of prepare_buffers stands: `bs` is `bs0` with the first
      `i` buffers given command buffers handed out from `next0` on, in increasing order,
      still live and none of them the init command buffer `cmd`. */
  ghost predicate CmdsAllocated(bs0: seq<SwapchainBuffers>, bs: seq<SwapchainBuffers>, i: nat, next0: Handle,
                                next: Handle, live: set<Handle>, cmd: Handle)
  {
    i <= |bs| == |bs0| &&
    (forall k :: 0 <= k < |bs| ==> bs[k] == bs0[k].(cmd := bs[k].cmd)) &&
    (forall k :: 0 <= k < i ==> next0 <= bs[k].cmd < next && bs[k].cmd in live && bs[k].cmd != cmd) &&
    (forall k, l :: 0 <= k < l < i ==> bs[k].cmd < bs[l].cmd)
  }

  /** One more buffer given the driver's next handle keeps the loop's account. */
  lemma CmdsAllocatedStep(bs0: seq<SwapchainBuffers>, bs: seq<SwapchainBuffers>, i: nat, next0: Handle,
                          next: Handle, live: set<Handle>, cmd: Handle)
    requires CmdsAllocated(bs0, bs, i, next0, next, live, cmd) && i < |bs| && cmd < next && next0 <= next
    ensures CmdsAllocated(bs0, bs[i := bs[i].(cmd := next)], i + 1, next0, next + 1, live + {next}, cmd)
  {
    var cs := bs[i := bs[i].(cmd := next)];
    assert forall k :: 0 <= k < i ==> cs[k] == bs[k];
  }

  /** Where the view loop of prepare_buffers stands: the first `i` of `bs` hold the
      swapchain image at their position and a view of it, the views handed out in
      increasing order below `next`. */
  ghost predicate ViewsCreated(bs: seq<SwapchainBuffers>, images: seq<Handle>, i: nat, next: Handle)
  {
    i <= |bs| == |images| &&
    (forall k :: 0 <= k < i ==> bs[k].image == images[k] && bs[k].view != NullHandle && bs[k].view < next) &&
    (forall k, l :: 0 <= k < l < i ==> bs[k].view < bs[l].view)
  }

  /** One more buffer given its image and the driver's next handle as its view keeps
      the loop's account. */
  lemma ViewsCreatedStep(bs: seq<SwapchainBuffers>, images: seq<Handle>, i: nat, next: Handle)
    requires ViewsCreated(bs, images, i, next) && i < |bs| && next != NullHandle
    ensures ViewsCreated(bs[i := bs[i].(image := images[i], view := next)], images, i + 1, next + 1)
  {
    var cs := bs[i := bs[i].(image := images[i], view := next)];
    assert forall k :: 0 <= k < i ==> cs[k] == bs[k];
  }

  /** When the loop is through, every buffer views its image, in increasing order. */
  lemma ViewsCreatedAll(bs: seq<SwapchainBuffers>, images: seq<Handle>, next: Handle)
    requires ViewsCreated(bs, images, |bs|, next)
    ensures forall i :: 0 <= i < |bs| ==> bs[i].image == images[i] && bs[i].view != NullHandle
    ensures Increasing(ViewSeq(bs))
  {
    var vs := ViewSeq(bs);
    assert forall i, j :: 0 <= i < j < |vs| ==> vs[i] == bs[i].view < bs[j].view == vs[j];
  }

  /** Where the framebuffer loop of prepare_framebuffers stands: the first `i` of `fbs`
      are handed out from `next0` on, in increasing order, still live and none of them
      the init command buffer `cmd`. */
  ghost predicate FramebuffersMade(fbs: seq<Handle>, i: nat, next0: Handle, next: Handle, live: set<Handle>, cmd: Handle)
  {
    i <= |fbs| &&
    (forall k :: 0 <= k < i ==> next0 <= fbs[k] < next && fbs[k] in live && fbs[k] != cmd) &&
    (forall k, l :: 0 <= k < l < i ==> fbs[k] < fbs[l])
  }

  /** One more framebuffer, the driver's next handle, keeps the loop's account. */
  lemma FramebuffersMadeStep(fbs: seq<Handle>, i: nat, next0: Handle, next: Handle, live: set<Handle>, cmd: Handle)
    requires FramebuffersMade(fbs, i, next0, next, live, cmd) && i < |fbs| && cmd < next && next0 <= next
    ensures FramebuffersMade(fbs[i := next], i + 1, next0, next + 1, live + {next}, cmd)
  {
    var gs := fbs[i := next];
    assert forall k :: 0 <= k < i ==> gs[k] == fbs[k];
  }

  /** Giving the buffers new command buffers leaves their views alone. */
  lemma ViewsKept(bs: seq<SwapchainBuffers>, cs: seq<SwapchainBuffers>)
    requires |bs| == |cs| && forall k :: 0 <= k < |cs| ==> cs[k] == bs[k].(cmd := cs[k].cmd)
    ensures ViewsOf(cs) == ViewsOf(bs) && ViewSeq(cs) == ViewSeq(bs)
    ensures forall k :: 0 <= k < |cs| ==> cs[k].image == bs[k].image
  {
    assert forall k :: 0 <= k < |cs| ==> ViewSeq(cs)[k] == ViewSeq(bs)[k];
    forall v | v in ViewsOf(cs) ensures v in ViewsOf(bs) {
      var k :| 0 <= k < |cs| && cs[k].view == v;
      assert bs[k].view == v;
    }
    forall v | v in ViewsOf(bs) ensures v in ViewsOf(cs) {
      var k :| 0 <= k < |bs| && bs[k].view == v;
      assert cs[k].view == v;
    }
  }

  /** The handles one texture owns: image, memory, sampler and view. */
  function TextureHandleSet(t: TextureObject): set<Handle>
  {
    {t.sampler, t.image, t.mem, t.view}
  }

  /** The handles every texture owns. */
  function TextureHandles(ts: seq<TextureObject>): set<Handle>
  {
    if ts == [] then {} else TextureHandles(ts[..|ts| - 1]) + TextureHandleSet(ts[|ts| - 1])
  }

  /** The handles the depth buffer owns: image, memory and view. */
  function DepthHandles(d: DepthBuffer): set<Handle>
  {
    {d.image, d.mem, d.view}
  }

  /** One view, one command buffer and one framebuffer per swapchain image, the command
      buffers and framebuffers objects held in `live`, and each kind handed out in
      increasing order, so no two of a kind are the same object. */
  ghost predicate DrawTargets(images: seq<Handle>, buffers: seq<SwapchainBuffers>, framebuffers: seq<Handle>,
                              live: set<Handle>)
  {
    |buffers| == |images| && |framebuffers| == |buffers| &&
    (forall i :: 0 <= i < |buffers| ==>
       buffers[i].image == images[i] && buffers[i].view != NullHandle &&
       buffers[i].cmd in live && framebuffers[i] in live) &&
    Increasing(ViewSeq(buffers)) && Increasing(CmdSeq(buffers)) && Increasing(framebuffers)
  }

  /** Each handle was handed out before the next one. */
  ghost predicate Increasing(hs: seq<Handle>)
  {
    forall i, j :: 0 <= i < j < |hs| ==> hs[i] < hs[j]
  }

  /** The swapchain buffers' views, in buffer order. */
  function ViewSeq(bs: seq<SwapchainBuffers>): (r: seq<Handle>)
    ensures |r| == |bs| && forall i :: 0 <= i < |bs| ==> r[i] == bs[i].view
  {
    seq(|bs|, i requires 0 <= i < |bs| => bs[i].view)
  }

  /** The swapchain buffers' draw command buffers, in buffer order. */
  function CmdSeq(bs: seq<SwapchainBuffers>): (r: seq<Handle>)
    ensures |r| == |bs| && forall i :: 0 <= i < |bs| ==> r[i] == bs[i].cmd
  {
    seq(|bs|, i requires 0 <= i < |bs| => bs[i].cmd)
  }

  /** Command buffers handed out in increasing order make an increasing sequence. */
  lemma CmdsIncreasing(bs: seq<SwapchainBuffers>)
    requires forall i, j :: 0 <= i < j < |bs| ==> bs[i].cmd < bs[j].cmd
    ensures Increasing(CmdSeq(bs))
  {
    var cs := CmdSeq(bs);
    assert forall i, j :: 0 <= i < j < |cs| ==> cs[i] == bs[i].cmd < bs[j].cmd == cs[j];
  }

  /** Every handle the destructor and resize_vk destroy: the handles of Resources, the
      swapchain images excepted (the swapchain owns those). */
  function HeldHandles(r: Resources): set<Handle>
  {
    FramebufferSet(r.framebuffers) +
    {r.descPool, r.pipeline, r.pipelineCache, r.renderPass, r.pipelineLayout, r.descLayout} +
    TextureHandles(r.textures) + DepthHandles(r.depth) + ViewsOf(r.buffers) + DrawCmdsOf(r.buffers) +
    {r.cmdPool}
  }

  /** The last stretch of prepare(): when `B` and the swapchain `s` were added before
      the draw targets `C`, all of them are added, each handed out during prepare(). */
  lemma PrepareStretches(live0: set<Handle>, next0: nat, B: set<Handle>, s: Handle,
                         live1: set<Handle>, next1: nat, cmd1: Handle,
                         C: set<Handle>, live2: set<Handle>, next2: nat)
    requires forall h :: h in live0 ==> h < next0
    requires Adds(live0, next0, NullHandle, B + {s}, live1, next1, cmd1)
    requires Adds(live1, next1, cmd1, C, live2, next2, NullHandle)
    ensures live2 == live0 + (B + C + {s}) && HandedOut(B + C + {s}, next0, next2)
  {
    AddsChain(live0, next0, NullHandle, B + {s}, live1, next1, cmd1, C, live2, next2, NullHandle);
    assert B + {s} + C == B + C + {s};
  }

  /** When prepare_textures gets through: the file loads, and the device can sample the
      texture format along a path whose memory types exist (host-visible memory for the
      linear image, and device-local memory too for the optimal image of the staging path). */
  predicate TextureSucceeds(a: PrepareAnswers, table: MemoryTypes.MemoryTypeTable, useStagingBuffer: bool)
  {
    var linearFound := MemoryTypes.LowestQualifying(table, a.linearMemory.memoryTypeBits, MEMORY_PROPERTY_HOST_VISIBLE_BIT) >= 0;
    var optimalFound := MemoryTypes.LowestQualifying(table, a.optimalMemory.memoryTypeBits, MEMORY_PROPERTY_DEVICE_LOCAL_BIT) >= 0;
    a.textureFile.Some? &&
    match ChooseTexturePath(a.formatProperties, useStagingBuffer)
    case LinearPath => linearFound
    case StagingPath => linearFound && optimalFound
    case NoTextureSupport => false
  }

  /** When prepare() gets through without a failed assertion or a fatal error: the
      swapchain has images, the depth image finds a memory type, the textures can be
      made and both shader files can be read. */
  predicate PrepareSucceeds(a: PrepareAnswers, table: MemoryTypes.MemoryTypeTable, useStagingBuffer: bool)
  {
    |a.swapchainImages| > 0 &&
    MemoryTypes.LowestQualifying(table, a.depthMemory.memoryTypeBits, 0) >= 0 &&
    TextureSucceeds(a, table, useStagingBuffer) &&
    a.vertexShader.Some? && a.fragmentShader.Some?
  }

  // ---------------------------------------------------------------- the view

  class View {
    const gpu: Gpu
    /** m_device, with the memory properties memoryType searches */
    const device: Device.Device
    /** m_queue */
    const queue: Recorder.Queue
    /** m_surface, m_format and m_color_space, settled by init_vk_swapchain */
    const surface: Handle
    const format: Format
    const colorSpace: ColorSpace
    /** m_use_staging_buffer: never written after construction */
    const useStagingBuffer: bool

    var prepared: bool
    var cmdPool: Handle
    /** m_swapchain (a shared pointer; null until the first prepare) */
    var swapchain: Swapchain.Swapchain?
    var buffers: seq<SwapchainBuffers>
    var framebuffers: seq<Handle>
    var depth: DepthBuffer
    /** m_textures, an array of DEMO_TEXTURE_COUNT entries */
    var textures: seq<TextureObject>
    /** m_cmd: the init command buffer, null when no initialisation commands are pending */
    var cmd: Handle
    var pipelineLayout: Handle
    var descLayout: Handle
    var pipelineCache: Handle
    var renderPass: Handle
    var pipeline: Handle
    var currentBuffer: nat
    var descPool: Handle

    /** The objects the view is made of agree with each other, and a pending init
        command buffer is one the driver handed out and nobody freed. */
    ghost predicate Valid()
      reads this`swapchain, this`textures, this`cmd, gpu`next, gpu`live, gpu`semaphores
    {
      gpu.Valid() && queue.gpu == gpu && surface != NullHandle && device.handle != NullHandle &&
      (swapchain != null ==> swapchain.gpu == gpu && swapchain.handle < gpu.next) &&
      |textures| == DEMO_TEXTURE_COUNT &&
      (cmd == NullHandle || cmd in gpu.live)
    }

    /** The state prepare() promises: the init commands flushed, a swapchain, and the
        draw targets of every swapchain image. */
    ghost predicate Prepared(images: seq<Handle>)
      reads this`prepared, this`cmd, this`swapchain, this`buffers, this`framebuffers, gpu`live
    {
      prepared && cmd == NullHandle && swapchain != null && |images| > 0 && DrawTargets(images, buffers, framebuffers, gpu.live)
    }


    /** The view after a frame that did not rebuild it: the resources, swapchain and
        live handles it had, no init command buffer, and `current` as current buffer. */
    ghost predicate Kept(held: Resources, sw: Swapchain.Swapchain?, current: nat, live: set<Handle>)
      reads this`framebuffers, this`descPool, this`pipeline, this`pipelineCache, this`renderPass,
            this`pipelineLayout, this`descLayout, this`textures, this`depth, this`buffers, this`cmdPool,
            this`swapchain, this`cmd, this`currentBuffer, gpu`live
    {
      Held() == held && swapchain == sw && cmd == NullHandle && currentBuffer == current && gpu.live == live
    }

    /** The view after a frame whose present made it rebuild itself on `images`: still
        prepared, one buffer per new image, and the last of them current. */
    ghost predicate Rebuilt(images: seq<Handle>)
      reads this`prepared, this`cmd, this`buffers, this`currentBuffer
    {
      prepared && cmd == NullHandle && |images| > 0 && |buffers| == |images| && currentBuffer == |buffers| - 1
    }

    /** The handles the destructor finds, gathered by the stretch of prepare() that
        creates them: the command pool, depth buffer and textures, the buffers' views,
        the pipeline state, and the draw targets. */
    lemma HeldByStretch()
      ensures HeldHandles(Held()) ==
        {cmdPool} + DepthHandles(depth) + TextureHandles(textures) + ViewsOf(buffers) +
        {descLayout, pipelineLayout, renderPass, pipelineCache, pipeline} +
        (DrawCmdsOf(buffers) + FramebufferSet(framebuffers) + {descPool})
    {
    }

    /** What the destructor and resize_vk find to destroy. */
    function Held(): (r: Resources)
      reads this`framebuffers, this`descPool, this`pipeline, this`pipelineCache, this`renderPass,
            this`pipelineLayout, this`descLayout, this`textures, this`depth, this`buffers, this`cmdPool
      ensures r.buffers == buffers && r.framebuffers == framebuffers && r.cmdPool == cmdPool
    {
      Resources(framebuffers, descPool, pipeline, pipelineCache, renderPass, pipelineLayout, descLayout,
                textures, depth, buffers, cmdPool)
    }

    /** The member initialisers: nothing prepared, every handle null. The device,
        queue, surface and format come from the constructor's first half
        (init_vk_swapchain), which is not part of this class's model. */
    constructor (gpu: Gpu, device: Device.Device, queue: Recorder.Queue, surface: Handle,
                 format: Format, colorSpace: ColorSpace)
      requires gpu.Valid() && queue.gpu == gpu && surface != NullHandle && device.handle != NullHandle
      ensures Valid() && !prepared && cmd == NullHandle && swapchain == null && buffers == [] && framebuffers == []
      ensures this.gpu == gpu && this.device == device && this.queue == queue && this.surface == surface
      ensures this.format == format && this.colorSpace == colorSpace && !useStagingBuffer
    {
      this.gpu := gpu;
      this.device := device;
      this.queue := queue;
      this.surface := surface;
      this.format := format;
      this.colorSpace := colorSpace;
      useStagingBuffer := false;
      prepared := false;
      cmdPool := NullHandle;
      swapchain := null;
      buffers := [];
      framebuffers := [];
      depth := ZERO_DEPTH;
      textures := seq(DEMO_TEXTURE_COUNT, _ => ZERO_TEXTURE);
      cmd := NullHandle;
      pipelineLayout, descLayout, pipelineCache, renderPass, pipeline := NullHandle, NullHandle, NullHandle, NullHandle, NullHandle;
      currentBuffer := 0;
      descPool := NullHandle;
    }

    // -------------------------------------------------------------- init command buffer

    /** set_image_layout: allocate and begin the init command buffer only when there is
        none, then record one top-of-pipe barrier on it, its destination access picked
        by the chain of ifs on the new layout. */
    method SetImageLayout(image: Handle, aspectMask: Flags, oldLayout: ImageLayout, newLayout: ImageLayout, srcAccess: Flags)
      requires Valid()
      modifies this`cmd, gpu`log, gpu`next, gpu`live
      ensures Valid() && cmd != NullHandle
      ensures old(cmd) != NullHandle ==> cmd == old(cmd) && gpu.live == old(gpu.live) && gpu.next == old(gpu.next)
      ensures old(cmd) == NullHandle ==> cmd !in old(gpu.live) && gpu.live == old(gpu.live) + {cmd}
      ensures Adds(old(gpu.live), old(gpu.next), old(cmd), {}, gpu.live, gpu.next, cmd)
      ensures gpu.log == old(gpu.log) + LayoutEvents(old(cmd), cmd, LayoutTransition(image, aspectMask, oldLayout, newLayout, srcAccess))
    {
      if cmd == NullHandle {
        cmd := gpu.Create(Kind.CommandBuffer);
        gpu.Call(Begun(cmd, 0));
      }
      var barrier := ImageBarrier(srcAccess, 0, oldLayout, newLayout, 0, 0, image, SubresourceRange(aspectMask, 0, 1, 0, 1));
      if newLayout == TransferDstOptimal {
        barrier := barrier.(dstAccessMask := ACCESS_TRANSFER_READ_BIT);
      }
      if newLayout == ColorAttachmentOptimal {
        barrier := barrier.(dstAccessMask := ACCESS_COLOR_ATTACHMENT_WRITE_BIT);
      }
      if newLayout == DepthStencilAttachmentOptimal {
        barrier := barrier.(dstAccessMask := ACCESS_DEPTH_STENCIL_ATTACHMENT_WRITE_BIT);
      }
      if newLayout == ShaderReadOnlyOptimal {
        barrier := barrier.(dstAccessMask := ACCESS_SHADER_READ_BIT | ACCESS_INPUT_ATTACHMENT_READ_BIT);
      }
      var stages := PIPELINE_STAGE_TOP_OF_PIPE_BIT;
      gpu.Call(Recorded(cmd, Command.PipelineBarrier(stages, stages, 0, 0, 0, [barrier])));
    }

    /** flush_init_cmd: nothing when there is no init command buffer; otherwise end it,
        submit it, wait for the queue, free it and forget it. */
    method FlushInitCmd()
      requires Valid()
      modifies this`cmd, gpu`log, gpu`live
      ensures Valid() && cmd == NullHandle
      ensures gpu.live == old(gpu.live) - {old(cmd)}
      ensures Adds(old(gpu.live), old(gpu.next), old(cmd), {}, gpu.live, gpu.next, cmd)
      ensures gpu.log == old(gpu.log) + FlushEvents(old(cmd))
    {
      if cmd == NullHandle {
        return;
      }
      gpu.Call(Ended(cmd));
      queue.Submit(cmd);
      queue.WaitIdle();
      gpu.Destroy(Kind.CommandBuffer, cmd);
      cmd := NullHandle;
    }

    // -------------------------------------------------------------- teardown

    method DestroyAll(kind: Kind, hs: seq<Handle>)
      requires gpu.Valid()
      modifies gpu`log, gpu`live
      ensures gpu.Valid() && gpu.live == old(gpu.live) - FramebufferSet(hs)
      ensures gpu.log == old(gpu.log) + DestroyEvents(kind, hs)
    {
      for i := 0 to |hs|
        invariant gpu.Valid() && gpu.live == old(gpu.live) - FramebufferSet(hs[..i])
        invariant gpu.log == old(gpu.log) + DestroyEvents(kind, hs[..i])
      {
        gpu.Destroy(kind, hs[i]);
        assert hs[..i + 1][..i] == hs[..i];
      }
      assert hs[..|hs|] == hs;
    }

    method DestroyTextures()
      requires gpu.Valid()
      modifies gpu`log, gpu`live
      ensures gpu.Valid() && gpu.live == old(gpu.live) - TextureHandles(textures)
      ensures gpu.log == old(gpu.log) + TextureTeardownEvents(textures)
    {
      for i := 0 to |textures|
        invariant gpu.Valid() && gpu.live == old(gpu.live) - TextureHandles(textures[..i])
        invariant gpu.log == old(gpu.log) + TextureTeardownEvents(textures[..i])
      {
        var t := textures[i];
        gpu.Destroy(Kind.ImageView, t.view);
        gpu.Destroy(Kind.Image, t.image);
        gpu.Destroy(Kind.DeviceMemory, t.mem);
        gpu.Destroy(Kind.Sampler, t.sampler);
        assert textures[..i + 1][..i] == textures[..i];
      }
      assert textures[..|textures|] == textures;
    }

    /** Destroys each buffer's view and frees its command buffer, nulling both. */
    method DestroyBuffers()
      requires gpu.Valid()
      modifies this`buffers, gpu`log, gpu`live
      ensures gpu.Valid() && |buffers| == |old(buffers)|
      ensures forall i :: 0 <= i < |buffers| ==> buffers[i] == old(buffers[i]).(view := NullHandle, cmd := NullHandle)
      ensures gpu.live == old(gpu.live) - ViewsOf(old(buffers)) - DrawCmdsOf(old(buffers))
      ensures gpu.log == old(gpu.log) + BufferTeardownEvents(old(buffers))
    {
      ghost var bs := buffers;
      for i := 0 to |buffers|
        invariant gpu.Valid() && |buffers| == |bs|
        invariant gpu.live == old(gpu.live) - ViewsOf(bs[..i]) - DrawCmdsOf(bs[..i])
        invariant forall k :: 0 <= k < |bs| ==> buffers[k] == if k < i then bs[k].(view := NullHandle, cmd := NullHandle) else bs[k]
        invariant gpu.log == old(gpu.log) + BufferTeardownEvents(bs[..i])
      {
        gpu.Destroy(Kind.ImageView, buffers[i].view);
        buffers := buffers[i := buffers[i].(view := NullHandle)];
        gpu.Destroy(Kind.CommandBuffer, buffers[i].cmd);
        buffers := buffers[i := buffers[i].(cmd := NullHandle)];
        BuffersPrefix(bs, i);
      }
      assert bs[..|bs|] == bs;
    }

    method DestroyPipeline()
      requires gpu.Valid()
      modifies gpu`log, gpu`live
      ensures gpu.Valid()
      ensures gpu.live == old(gpu.live) - FramebufferSet(framebuffers) -
        {descPool, pipeline, pipelineCache, renderPass, pipelineLayout, descLayout}
      ensures gpu.log == old(gpu.log) + PipelineTeardownEvents(Held())
    {
      DestroyAll(Kind.Framebuffer, framebuffers);
      gpu.Destroy(Kind.DescriptorPool, descPool);
      gpu.Destroy(Kind.Pipeline, pipeline);
      gpu.Destroy(Kind.PipelineCache, pipelineCache);
      gpu.Destroy(Kind.RenderPass, renderPass);
      gpu.Destroy(Kind.PipelineLayout, pipelineLayout);
      gpu.Destroy(Kind.DescriptorSetLayout, descLayout);
    }

    method DestroyDepth()
      requires gpu.Valid()
      modifies gpu`log, gpu`live
      ensures gpu.Valid() && gpu.live == old(gpu.live) - DepthHandles(depth)
      ensures gpu.log == old(gpu.log) + DepthTeardownEvents(depth)
    {
      gpu.Destroy(Kind.ImageView, depth.view);
      gpu.Destroy(Kind.Image, depth.image);
      gpu.Destroy(Kind.DeviceMemory, depth.mem);
    }

    /** The destroy sequence of the destructor and of resize_vk. */
    method Teardown()
      requires Valid() && cmd == NullHandle
      modifies this`buffers, gpu`log, gpu`live
      ensures Valid() && cmd == NullHandle && |buffers| == |old(buffers)|
      ensures gpu.live == old(gpu.live) - HeldHandles(old(Held()))
      ensures gpu.log == old(gpu.log) + TeardownEvents(old(Held()))
    {
      ghost var r := Held();
      ghost var log0 := gpu.log;
      DestroyPipeline();
      ghost var log1 := gpu.log;
      DestroyTextures();
      ghost var log2 := gpu.log;
      DestroyDepth();
      ghost var log3 := gpu.log;
      DestroyBuffers();
      ghost var log4 := gpu.log;
      gpu.Destroy(Kind.CommandPool, cmdPool);
      assert gpu.log == log0 + PipelineTeardownEvents(r) + TextureTeardownEvents(r.textures) + DepthTeardownEvents(r.depth)
                        + BufferTeardownEvents(r.buffers) + [Destroyed(Kind.CommandPool, r.cmdPool)];
      assert gpu.live == old(gpu.live) - HeldHandles(r);
    }

    // -------------------------------------------------------------- prepare

    /** Each swapchain buffer holds the swapchain image at its position and a view of it,
        the views distinct objects handed out in order. */
    ghost predicate BuffersViewing(images: seq<Handle>)
      reads this`buffers
    {
      |buffers| == |images| &&
      (forall i :: 0 <= i < |buffers| ==> buffers[i].image == images[i] && buffers[i].view != NullHandle) &&
      Increasing(ViewSeq(buffers))
    }

    /** prepare_buffers: negotiate and create the swapchain, fetch its images (none is
        a failed assertion), set each up, and let the previous swapchain go when the
        function's last reference to it does. */
    method PrepareBuffers(a: PrepareAnswers) returns (o: Outcome)
      requires Valid() && cmd == NullHandle && a.InRange()
      modifies this`swapchain, this`buffers, gpu`log, gpu`next, gpu`live
      ensures Valid() && swapchain != null && fresh(swapchain) && old(gpu.log) <= gpu.log
      ensures swapchain.createInfo ==
        Swapchain.SwapchainCreateInfoFor(surface, DesiredImageCount(a.capabilities), format, colorSpace,
                                         SwapchainExtent(a.capabilities).extent, PreferredPresentMode(a.presentModes),
                                         PreTransform(a.capabilities),
                                         if old(swapchain) == null then None else Some(old(swapchain).handle))
      ensures o.Done? <==> |a.swapchainImages| > 0
      ensures o.Done? ==> BuffersViewing(a.swapchainImages)
      ensures o.Done? ==>
        Adds(old(gpu.live) - SwapchainSet(old(swapchain)), old(gpu.next), old(cmd),
             {swapchain.handle} + ViewsOf(buffers), gpu.live, gpu.next, cmd)
    {
      ghost var live0, next0 := gpu.live, gpu.next;
      LiveBelowNext(gpu);
      var oldSwapchain := CreateSwapchain(a);
      ghost var live1, next1 := gpu.live, gpu.next;
      var images := swapchain.GetSwapchainImages(a.swapchainImages);
      if |images| == 0 {
        return Abort("Q_ASSERT(!swapchainImages.isEmpty())");
      }
      buffers := Resized(buffers, |images|, ZERO_BUFFERS);
      InitSwapchainImages(images);
      AddsChain(live0, next0, NullHandle, {swapchain.handle}, live1, next1, NullHandle, ViewsOf(buffers),
                gpu.live, gpu.next, NullHandle);
      ghost var added := {swapchain.handle} + ViewsOf(buffers);
      if oldSwapchain != null {
        assert oldSwapchain.handle !in added;
        oldSwapchain.Release();
      }
      assert gpu.live == (live0 - SwapchainSet(oldSwapchain)) + added;
      o := Done;
    }

    /** The first half of prepare_buffers: the present mode, image count, extent and
        pre-transform chosen from what the surface reports, and a swapchain created with
        them over the previous one, which the caller still holds. */
    method CreateSwapchain(a: PrepareAnswers) returns (oldSwapchain: Swapchain.Swapchain?)
      requires Valid() && a.InRange()
      modifies this`swapchain, gpu`log, gpu`next, gpu`live
      ensures Valid() && old(gpu.live) <= gpu.live && old(gpu.log) <= gpu.log
      ensures oldSwapchain == old(swapchain) && swapchain != null && fresh(swapchain)
      ensures Adds(old(gpu.live), old(gpu.next), old(cmd), {swapchain.handle}, gpu.live, gpu.next, cmd)
      ensures swapchain.createInfo ==
        Swapchain.SwapchainCreateInfoFor(surface, DesiredImageCount(a.capabilities), format, colorSpace,
                                         SwapchainExtent(a.capabilities).extent, PreferredPresentMode(a.presentModes),
                                         PreTransform(a.capabilities),
                                         if oldSwapchain == null then None else Some(oldSwapchain.handle))
    {
      oldSwapchain := swapchain;
      var caps := a.capabilities;
      var extent := SwapchainExtent(caps);
      var mode := ChoosePresentMode(a.presentModes);
      LiveBelowNext(gpu);
      swapchain := new Swapchain.Swapchain(gpu, device.handle, surface, DesiredImageCount(caps), format, colorSpace,
                                           extent.extent, mode, PreTransform(caps), oldSwapchain);
      AddsCreated(old(gpu.live), old(gpu.next), cmd, swapchain.handle);
    }

    /** The second half of prepare_buffers: on a one-off command buffer, record for each
        image the UNDEFINED -> PRESENT_SRC transition the render loop expects to find,
        and create a colour view of it; then end the recording (the recorder goes out
        of scope), submit it, wait for the queue and free the buffer. */
    method InitSwapchainImages(images: seq<Handle>)
      requires Valid() && cmd == NullHandle && |buffers| == |images|
      modifies this`buffers, gpu`log, gpu`next, gpu`live
      ensures Valid() && old(gpu.live) <= gpu.live && BuffersViewing(images) && old(gpu.log) <= gpu.log
      ensures Adds(old(gpu.live), old(gpu.next), NullHandle, ViewsOf(buffers), gpu.live, gpu.next, NullHandle)
    {
      LiveBelowNext(gpu);
      var local := new Recorder.CommandBuffer(gpu, cmdPool);
      ghost var live1, next1 := gpu.live, gpu.next;
      var rec := local.Record();
      CreateSwapchainViews(rec, images);
      assert HandedOut(ViewsOf(buffers), next1, gpu.next);
      rec.Finish();
      queue.Submit(local.handle);
      queue.WaitIdle();
      local.Release();
      assert gpu.live == old(gpu.live) + ViewsOf(buffers);
    }

    /** The loop of prepare_buffers: image i goes into buffer i, its layout transition
        is recorded on `rec`, and a view of it is created. */
    method CreateSwapchainViews(rec: Recorder.Recorder, images: seq<Handle>)
      requires Valid() && rec.gpu == gpu && |buffers| == |images|
      modifies this`buffers, gpu`log, gpu`next, gpu`live
      ensures Valid() && old(gpu.live) <= gpu.live && old(gpu.next) <= gpu.next && old(gpu.log) <= gpu.log
      ensures BuffersViewing(images)
      ensures Adds(old(gpu.live), old(gpu.next), cmd, ViewsOf(buffers), gpu.live, gpu.next, cmd)
    {
      ghost var live0, next0 := gpu.live, gpu.next;
      LiveBelowNext(gpu);
      AddsNothing(live0, next0, cmd);
      for i := 0 to |buffers|
        invariant Valid() && |buffers| == |images|
        invariant old(gpu.live) <= gpu.live && old(gpu.next) <= gpu.next && old(gpu.log) <= gpu.log
        invariant ViewsCreated(buffers, images, i, gpu.next)
        invariant Adds(live0, next0, cmd, ViewsOf(buffers[..i]), gpu.live, gpu.next, cmd)
      {
        ghost var live1, next1, bs := gpu.live, gpu.next, buffers;
        ViewsCreatedStep(bs, images, i, next1);
        CreateSwapchainView(rec, i, images[i]);
        AddsOneMore(live0, next0, cmd, ViewsOf(bs[..i]), live1, next1, next1);
      }
      assert buffers[..|buffers|] == buffers;
      ViewsCreatedAll(buffers, images, gpu.next);
    }

    /** One pass of that loop. */
    method CreateSwapchainView(rec: Recorder.Recorder, i: nat, image: Handle)
      requires Valid() && rec.gpu == gpu && i < |buffers|
      modifies this`buffers, gpu`log, gpu`next, gpu`live
      ensures Valid() && old(gpu.log) <= gpu.log
      ensures buffers == old(buffers)[i := old(buffers)[i].(image := image, view := old(gpu.next))]
      ensures gpu.next == old(gpu.next) + 1 && gpu.live == old(gpu.live) + {old(gpu.next)}
      ensures ViewsOf(buffers[..i + 1]) == ViewsOf(old(buffers)[..i]) + {old(gpu.next)}
    {
      buffers := buffers[i := buffers[i].(image := image)];
      var r := rec.TransformImage(image, Undefined, PresentSrc);
      var view := gpu.Create(Kind.ImageView);
      buffers := buffers[i := buffers[i].(view := view)];
      assert buffers[..i] == old(buffers)[..i];
      BuffersPrefix(buffers, i);
    }

    /** prepare_depth: a D16 image, memory of the lowest type its requirements allow
        (no property asked for, none found a failed assertion), bound to it, the
        UNDEFINED -> DEPTH_STENCIL_ATTACHMENT transition on the init command buffer,
        and a depth view. */
    method PrepareDepth(a: PrepareAnswers) returns (o: Outcome)
      requires Valid()
      modifies this`depth, this`cmd, gpu`log, gpu`next, gpu`live
      ensures Valid() && old(gpu.live) <= gpu.live && old(gpu.log) <= gpu.log
      ensures o.Done? <==> MemoryTypes.LowestQualifying(device.memoryProperties, a.depthMemory.memoryTypeBits, 0) >= 0
      ensures o.Done? ==>
        depth.format == DEPTH_FORMAT && cmd != NullHandle &&
        depth.memoryTypeIndex == MemoryTypes.LowestQualifying(device.memoryProperties, a.depthMemory.memoryTypeBits, 0)
      ensures o.Done? ==> Adds(old(gpu.live), old(gpu.next), old(cmd), DepthHandles(depth), gpu.live, gpu.next, cmd)
    {
      ghost var live0, next0 := gpu.live, gpu.next;
      LiveBelowNext(gpu);
      var image := gpu.Create(Kind.Image);
      var index := device.MemoryType(a.depthMemory.memoryTypeBits, 0);
      if index < 0 {
        return Abort("Q_ASSERT(index >= 0)");
      }
      var mem := gpu.Create(Kind.DeviceMemory);
      gpu.Call(MemoryBound(image, mem));
      AddsCreatedPair(live0, next0, cmd, image, mem);
      ghost var live1, next1 := gpu.live, gpu.next;
      var view := CreateDepthView(image);
      AddsChain(live0, next0, old(cmd), {image, mem}, live1, next1, old(cmd), {view}, gpu.live, gpu.next, cmd);
      depth := DepthBuffer(DEPTH_FORMAT, image, index, mem, view);
      assert {image, mem} + {view} == DepthHandles(depth);
      o := Done;
    }

    /** The depth image's transition into the depth-stencil layout and the creation of its view. */
    method CreateDepthView(image: Handle) returns (view: Handle)
      requires Valid()
      modifies this`cmd, gpu`log, gpu`next, gpu`live
      ensures Valid() && cmd != NullHandle && old(gpu.log) <= gpu.log && old(gpu.live) <= gpu.live
      ensures Adds(old(gpu.live), old(gpu.next), old(cmd), {view}, gpu.live, gpu.next, cmd)
    {
      ghost var live0, next0 := gpu.live, gpu.next;
      LiveBelowNext(gpu);
      SetImageLayout(image, IMAGE_ASPECT_DEPTH_BIT, Undefined, DepthStencilAttachmentOptimal, 0);
      ghost var live1, next1 := gpu.live, gpu.next;
      LiveBelowNext(gpu);
      view := gpu.Create(Kind.ImageView);
      AddsCreated(live1, next1, cmd, view);
      AddsChain(live0, next0, old(cmd), {}, live1, next1, cmd, {view}, gpu.live, gpu.next, cmd);
      assert {} + {view} == {view};
    }

    /** prepare_texture_image: load the file (a null image is fatal), create the image,
        allocate memory of the lowest type with the required properties (none found is
        a failed assertion) and bind it, copy the file's bytes in when that memory is
        host visible, and move the image from PREINITIALIZED to SHADER_READ_ONLY on the
        init command buffer. */
    method PrepareTextureImage(file: Option<TextureFile>, requiredProps: Flags, mem: MemoryRequirements)
      returns (o: Outcome, tex: TextureObject)
      requires Valid()
      modifies this`cmd, gpu`log, gpu`next, gpu`live
      ensures Valid() && old(gpu.live) <= gpu.live && old(gpu.log) <= gpu.log
      ensures o.Done? <==>
        file.Some? && MemoryTypes.LowestQualifying(device.memoryProperties, mem.memoryTypeBits, requiredProps) >= 0
      ensures o.Done? ==>
        cmd != NullHandle && tex.imageLayout == ShaderReadOnlyOptimal && tex.image in gpu.live && tex.mem in gpu.live &&
        tex.texWidth == file.value.width && tex.texHeight == file.value.height &&
        tex.memoryTypeIndex == MemoryTypes.LowestQualifying(device.memoryProperties, mem.memoryTypeBits, requiredProps)
      ensures o.Done? ==> Adds(old(gpu.live), old(gpu.next), old(cmd), {tex.image, tex.mem}, gpu.live, gpu.next, cmd)
    {
      if file.None? {
        return Abort("qFatal: Failed to load textures"), ZERO_TEXTURE;
      }
      ghost var live0, next0 := gpu.live, gpu.next;
      LiveBelowNext(gpu);
      var image, index, memory := AllocateTextureImage(file.value.bits, requiredProps, mem);
      if index < 0 {
        return Abort("Q_ASSERT(index >= 0)"), ZERO_TEXTURE;
      }
      tex := TextureObject(NullHandle, image, ShaderReadOnlyOptimal, index, memory, NullHandle,
                           file.value.width, file.value.height);
      ghost var live1, next1 := gpu.live, gpu.next;
      SetImageLayout(image, IMAGE_ASPECT_COLOR_BIT, Preinitialized, tex.imageLayout, ACCESS_HOST_WRITE_BIT);
      AddsChain(live0, next0, old(cmd), {tex.image, tex.mem}, live1, next1, old(cmd), {}, gpu.live, gpu.next, cmd);
      assert {tex.image, tex.mem} + {} == {tex.image, tex.mem};
      o := Done;
    }

    /** A texture image, the memory type its memory comes from and, when there is one,
        that memory, allocated and bound. */
    method AllocateTextureImage(bits: seq<bv8>, requiredProps: Flags, mem: MemoryRequirements)
      returns (image: Handle, index: int, memory: Handle)
      requires Valid()
      modifies gpu`log, gpu`next, gpu`live
      ensures Valid() && old(gpu.live) <= gpu.live && old(gpu.log) <= gpu.log
      ensures index == MemoryTypes.LowestQualifying(device.memoryProperties, mem.memoryTypeBits, requiredProps)
      ensures index >= 0 ==> Adds(old(gpu.live), old(gpu.next), cmd, {image, memory}, gpu.live, gpu.next, cmd)
    {
      ghost var live0, next0 := gpu.live, gpu.next;
      LiveBelowNext(gpu);
      image := gpu.Create(Kind.Image);
      index := device.MemoryType(mem.memoryTypeBits, requiredProps);
      if index < 0 {
        return image, index, NullHandle;
      }
      memory := BindTextureMemory(image, mem.size, requiredProps, bits);
      AddsCreatedPair(live0, next0, cmd, image, memory);
    }

    /** The memory of a texture image: allocate it, bind it to the image and, when it
        is host visible, copy the file's bytes in. */
    method BindTextureMemory(image: Handle, size: nat, requiredProps: Flags, bits: seq<bv8>) returns (memory: Handle)
      requires Valid()
      modifies gpu`log, gpu`next, gpu`live
      ensures Valid() && memory != NullHandle && memory !in old(gpu.live) && gpu.live == old(gpu.live) + {memory}
      ensures memory == old(gpu.next) && gpu.next == old(gpu.next) + 1
      ensures gpu.log == old(gpu.log) + [Created(Kind.DeviceMemory, memory), MemoryBound(image, memory)] +
        (if requiredProps & MEMORY_PROPERTY_HOST_VISIBLE_BIT != 0
         then [Mapped(memory, size), CopiedToMapping(memory, bits), Unmapped(memory)] else [])
    {
      memory := gpu.Create(Kind.DeviceMemory);
      gpu.Call(MemoryBound(image, memory));
      if requiredProps & MEMORY_PROPERTY_HOST_VISIBLE_BIT != 0 {
        Upload(memory, size, bits);
      }
    }

    /** Map the whole allocation, copy the image's bytes to it and unmap it. */
    method Upload(memory: Handle, size: nat, bits: seq<bv8>)
      modifies gpu`log
      ensures gpu.log == old(gpu.log) + [Mapped(memory, size), CopiedToMapping(memory, bits), Unmapped(memory)]
    {
      gpu.Call(Mapped(memory, size));
      gpu.Call(CopiedToMapping(memory, bits));
      gpu.Call(Unmapped(memory));
    }

    /** The staging branch of prepare_textures: a linear host-visible staging image and
        an optimal device-local texture, both filled as above; then staging ->
        TRANSFER_SRC, texture -> TRANSFER_DST, the copy, texture -> SHADER_READ_ONLY, a
        flush of the init commands, and destroy_texture_image on the staging image. */
    method PrepareStagedTexture(a: PrepareAnswers) returns (o: Outcome, tex: TextureObject)
      requires Valid()
      modifies this`cmd, gpu`log, gpu`next, gpu`live
      ensures Valid() && old(gpu.log) <= gpu.log
      ensures o.Done? <==>
        a.textureFile.Some? &&
        MemoryTypes.LowestQualifying(device.memoryProperties, a.linearMemory.memoryTypeBits, MEMORY_PROPERTY_HOST_VISIBLE_BIT) >= 0 &&
        MemoryTypes.LowestQualifying(device.memoryProperties, a.optimalMemory.memoryTypeBits, MEMORY_PROPERTY_DEVICE_LOCAL_BIT) >= 0
      ensures o.Done? ==>
        cmd == NullHandle && tex.imageLayout == ShaderReadOnlyOptimal &&
        tex.memoryTypeIndex == MemoryTypes.LowestQualifying(device.memoryProperties, a.optimalMemory.memoryTypeBits, MEMORY_PROPERTY_DEVICE_LOCAL_BIT)
      ensures o.Done? ==> Adds(old(gpu.live), old(gpu.next), old(cmd), {tex.image, tex.mem}, gpu.live, gpu.next, cmd)
    {
      ghost var live0, next0 := gpu.live, gpu.next;
      LiveBelowNext(gpu);
      var staging;
      o, staging := PrepareTextureImage(a.textureFile, MEMORY_PROPERTY_HOST_VISIBLE_BIT, a.linearMemory);
      if o.Abort? {
        return o, ZERO_TEXTURE;
      }
      ghost var live1, next1, cmd1 := gpu.live, gpu.next, cmd;
      o, tex := PrepareTextureImage(a.textureFile, MEMORY_PROPERTY_DEVICE_LOCAL_BIT, a.optimalMemory);
      if o.Abort? {
        return o, ZERO_TEXTURE;
      }
      ghost var s, t := {staging.image, staging.mem}, {tex.image, tex.mem};
      AddsChain(live0, next0, old(cmd), s, live1, next1, cmd1, t, gpu.live, gpu.next, cmd);
      HandedOutUnion(s, t, next0, next1, gpu.next);
      ghost var live2, next2, cmd2 := gpu.live, gpu.next, cmd;
      AddsDropCmd(live0, next0, old(cmd), s + t, live2, next2, cmd2);
      CopyStagedTexture(staging, tex);
      assert gpu.live == (live0 - CmdSet(old(cmd))) + t;
    }

    /** The copy of the staging branch, from the layout transitions to the destruction of
        the staging image's memory and image. */
    method CopyStagedTexture(staging: TextureObject, tex: TextureObject)
      requires Valid()
      modifies this`cmd, gpu`log, gpu`next, gpu`live
      ensures Valid() && cmd == NullHandle && old(gpu.log) <= gpu.log
      ensures old(gpu.next) <= gpu.next
      ensures gpu.live == old(gpu.live) - CmdSet(old(cmd)) - {staging.mem, staging.image}
    {
      ghost var live0, next0 := gpu.live, gpu.next;
      LiveBelowNext(gpu);
      RecordTextureCopy(staging, tex);
      ghost var live1, next1, cmd1 := gpu.live, gpu.next, cmd;
      AddsDropCmd(live0, next0, old(cmd), {}, live1, next1, cmd1);
      FlushInitCmd();
      gpu.Destroy(Kind.DeviceMemory, staging.mem);
      gpu.Destroy(Kind.Image, staging.image);
    }

    /** The layout transitions around the copy from the staging image into the texture
        image, recorded into the init command buffer. */
    method RecordTextureCopy(staging: TextureObject, tex: TextureObject)
      requires Valid()
      modifies this`cmd, gpu`log, gpu`next, gpu`live
      ensures Valid() && cmd != NullHandle && old(gpu.log) <= gpu.log
      ensures Adds(old(gpu.live), old(gpu.next), old(cmd), {}, gpu.live, gpu.next, cmd)
    {
      ghost var live0, next0 := gpu.live, gpu.next;
      LiveBelowNext(gpu);
      SetImageLayout(staging.image, IMAGE_ASPECT_COLOR_BIT, staging.imageLayout, TransferSrcOptimal, 0);
      ghost var live1, next1, cmd1 := gpu.live, gpu.next, cmd;
      SetImageLayout(tex.image, IMAGE_ASPECT_COLOR_BIT, tex.imageLayout, TransferDstOptimal, 0);
      gpu.Call(Recorded(cmd, CopyImage(staging.image, TransferSrcOptimal, tex.image, TransferDstOptimal)));
      SetImageLayout(tex.image, IMAGE_ASPECT_COLOR_BIT, TransferDstOptimal, tex.imageLayout, 0);
      assert gpu.live == live1 && gpu.next == next1 && cmd == cmd1;
    }

    /** One pass of prepare_textures' loop: the texture along the chosen path, then its
        sampler and its view. */
    method PrepareTexture(i: nat, a: PrepareAnswers) returns (o: Outcome)
      requires Valid() && i < |textures|
      modifies this`textures, this`cmd, gpu`log, gpu`next, gpu`live
      ensures Valid() && old(gpu.log) <= gpu.log
      ensures forall k :: 0 <= k < |textures| && k != i ==> textures[k] == old(textures[k])
      ensures o.Done? <==> TextureSucceeds(a, device.memoryProperties, useStagingBuffer)
      ensures o.Done? ==>
        textures[i].imageLayout == ShaderReadOnlyOptimal && textures[i].sampler != NullHandle && textures[i].view != NullHandle
      ensures o.Done? ==> Adds(old(gpu.live), old(gpu.next), old(cmd), TextureHandleSet(textures[i]), gpu.live, gpu.next, cmd)
    {
      ghost var live0, next0 := gpu.live, gpu.next;
      LiveBelowNext(gpu);
      var tex;
      o, tex := PrepareTextureObject(a);
      if o.Abort? {
        return;
      }
      ghost var live1, next1 := gpu.live, gpu.next;
      var sampler := gpu.Create(Kind.Sampler);
      var view := gpu.Create(Kind.ImageView);
      assert Adds(live1, next1, cmd, {sampler, view}, gpu.live, gpu.next, cmd);
      AddsChain(live0, next0, old(cmd), {tex.image, tex.mem}, live1, next1, cmd, {sampler, view}, gpu.live, gpu.next, cmd);
      textures := textures[i := tex.(sampler := sampler, view := view)];
      assert {tex.image, tex.mem} + {sampler, view} == TextureHandleSet(textures[i]);
    }

    /** The branch of prepare_textures' loop: sample a linear image directly when the
        device can and no staging is asked for, else go through a staging image when the
        device can sample optimal images, else fail the assertion. */
    method PrepareTextureObject(a: PrepareAnswers) returns (o: Outcome, tex: TextureObject)
      requires Valid()
      modifies this`cmd, gpu`log, gpu`next, gpu`live
      ensures Valid() && old(gpu.log) <= gpu.log
      ensures o.Done? <==> TextureSucceeds(a, device.memoryProperties, useStagingBuffer)
      ensures o.Done? ==> tex.imageLayout == ShaderReadOnlyOptimal
      ensures o.Done? ==> Adds(old(gpu.live), old(gpu.next), old(cmd), {tex.image, tex.mem}, gpu.live, gpu.next, cmd)
    {
      var path := ChooseTexturePath(a.formatProperties, useStagingBuffer);
      if path == LinearPath {
        o, tex := PrepareTextureImage(a.textureFile, MEMORY_PROPERTY_HOST_VISIBLE_BIT, a.linearMemory);
      } else if path == StagingPath {
        o, tex := PrepareStagedTexture(a);
      } else {
        o, tex := Abort("Q_ASSERT: No support for R8G8B8A8_UNORM as texture image format"), ZERO_TEXTURE;
      }
    }

    /** prepare_textures: each of the DEMO_TEXTURE_COUNT textures in turn. */
    method PrepareTextures(a: PrepareAnswers) returns (o: Outcome)
      requires Valid()
      modifies this`textures, this`cmd, gpu`log, gpu`next, gpu`live
      ensures Valid() && old(gpu.log) <= gpu.log
      ensures o.Done? <==> TextureSucceeds(a, device.memoryProperties, useStagingBuffer)
      ensures o.Done? ==> forall k :: 0 <= k < |textures| ==> textures[k].imageLayout == ShaderReadOnlyOptimal
      ensures o.Done? ==> Adds(old(gpu.live), old(gpu.next), old(cmd), TextureHandles(textures), gpu.live, gpu.next, cmd)
    {
      ghost var live0, next0 := gpu.live, gpu.next;
      LiveBelowNext(gpu);
      AddsNothing(live0, next0, cmd);
      o := Done;
      for i := 0 to DEMO_TEXTURE_COUNT
        invariant Valid() && o == Done && old(gpu.log) <= gpu.log
        invariant 0 < i ==> TextureSucceeds(a, device.memoryProperties, useStagingBuffer)
        invariant forall k :: 0 <= k < i ==> textures[k].imageLayout == ShaderReadOnlyOptimal
        invariant Adds(live0, next0, old(cmd), TextureHandles(textures[..i]), gpu.live, gpu.next, cmd)
      {
        ghost var live1, next1, cmd1, ts := gpu.live, gpu.next, cmd, textures;
        o := PrepareTexture(i, a);
        if o.Abort? {
          return;
        }
        AddsChain(live0, next0, old(cmd), TextureHandles(ts[..i]), live1, next1, cmd1, TextureHandleSet(textures[i]),
                  gpu.live, gpu.next, cmd);
        assert textures[..i + 1][..i] == ts[..i];
      }
      assert textures[..DEMO_TEXTURE_COUNT] == textures;
    }

    /** prepare_descriptor_layout: the descriptor set layout and the pipeline layout over it. */
    method PrepareDescriptorLayout()
      requires Valid()
      modifies this`descLayout, this`pipelineLayout, gpu`log, gpu`next, gpu`live
      ensures Valid() && old(gpu.live) <= gpu.live && old(gpu.next) <= gpu.next
      ensures gpu.log == old(gpu.log) + [Created(Kind.DescriptorSetLayout, descLayout), Created(Kind.PipelineLayout, pipelineLayout)]
      ensures Adds(old(gpu.live), old(gpu.next), cmd, {descLayout, pipelineLayout}, gpu.live, gpu.next, cmd)
    {
      LiveBelowNext(gpu);
      AddsCreatedPair(gpu.live, gpu.next, cmd, gpu.next, gpu.next + 1);
      descLayout := gpu.Create(Kind.DescriptorSetLayout);
      pipelineLayout := gpu.Create(Kind.PipelineLayout);
    }

    /** prepare_render_pass: one render pass. */
    method PrepareRenderPass()
      requires Valid()
      modifies this`renderPass, gpu`log, gpu`next, gpu`live
      ensures Valid() && old(gpu.live) <= gpu.live && old(gpu.next) <= gpu.next
      ensures gpu.log == old(gpu.log) + [Created(Kind.RenderPass, renderPass)]
      ensures Adds(old(gpu.live), old(gpu.next), cmd, {renderPass}, gpu.live, gpu.next, cmd)
    {
      LiveBelowNext(gpu);
      AddsCreated(gpu.live, gpu.next, cmd, gpu.next);
      renderPass := gpu.Create(Kind.RenderPass);
    }

    /** createShaderModule: a shader module over the file's bytes; a file that cannot be
        opened is fatal. */
    method CreateShaderModule(code: Option<seq<bv8>>) returns (o: Outcome, shader: Handle)
      requires Valid()
      modifies gpu`log, gpu`next, gpu`live
      ensures Valid() && old(gpu.next) <= gpu.next
      ensures o.Done? <==> code.Some?
      ensures o.Done? ==>
        shader !in old(gpu.live) && gpu.live == old(gpu.live) + {shader} &&
        gpu.log == old(gpu.log) + [Created(Kind.ShaderModule, shader)]
      ensures o.Done? ==> shader == old(gpu.next) && gpu.next == old(gpu.next) + 1
      ensures o.Abort? ==> gpu.live == old(gpu.live) && gpu.log == old(gpu.log)
    {
      if code.None? {
        return Abort("qFatal: could not read shader file!"), NullHandle;
      }
      shader := gpu.Create(Kind.ShaderModule);
      o := Done;
    }

    /** prepare_pipeline: the vertex and fragment shader modules, the pipeline cache and
        the graphics pipeline, and the two shader modules destroyed once the pipeline
        holds them. */
    method PreparePipeline(a: PrepareAnswers) returns (o: Outcome)
      requires Valid()
      modifies this`pipelineCache, this`pipeline, gpu`log, gpu`next, gpu`live
      ensures Valid() && old(gpu.live) <= gpu.live && old(gpu.next) <= gpu.next
      ensures old(gpu.log) <= gpu.log
      ensures o.Done? <==> a.vertexShader.Some? && a.fragmentShader.Some?
      ensures o.Done? ==> Adds(old(gpu.live), old(gpu.next), cmd, {pipelineCache, pipeline}, gpu.live, gpu.next, cmd)
    {
      ghost var live0, next0 := gpu.live, gpu.next;
      LiveBelowNext(gpu);
      var vertex, fragment;
      o, vertex := CreateShaderModule(a.vertexShader);
      if o.Abort? {
        return;
      }
      o, fragment := CreateShaderModule(a.fragmentShader);
      if o.Abort? {
        return;
      }
      pipelineCache := gpu.Create(Kind.PipelineCache);
      pipeline := gpu.Create(Kind.Pipeline);
      gpu.Destroy(Kind.ShaderModule, vertex);
      gpu.Destroy(Kind.ShaderModule, fragment);
      assert gpu.live == live0 + {pipelineCache, pipeline};
    }

    /** The loop of prepare() that gives each swapchain buffer its own primary command
        buffer from the pool. */
    method AllocateDrawBuffers()
      requires Valid()
      modifies this`buffers, gpu`log, gpu`next, gpu`live
      ensures Valid() && old(gpu.live) <= gpu.live && old(gpu.next) <= gpu.next
      ensures old(gpu.log) <= gpu.log
      ensures |buffers| == |old(buffers)|
      ensures forall i :: 0 <= i < |buffers| ==>
        buffers[i] == old(buffers[i]).(cmd := buffers[i].cmd) &&
        old(gpu.next) <= buffers[i].cmd < gpu.next && buffers[i].cmd in gpu.live && buffers[i].cmd != cmd
      ensures forall i, j :: 0 <= i < j < |buffers| ==> buffers[i].cmd < buffers[j].cmd
      ensures Adds(old(gpu.live), old(gpu.next), cmd, DrawCmdsOf(buffers), gpu.live, gpu.next, cmd)
      ensures ViewsOf(buffers) == ViewsOf(old(buffers))
    {
      ghost var live0, next0, bs0 := gpu.live, gpu.next, buffers;
      LiveBelowNext(gpu);
      AddsNothing(live0, next0, cmd);
      for i := 0 to |buffers|
        invariant Valid() && old(gpu.live) <= gpu.live && old(gpu.next) <= gpu.next && old(gpu.log) <= gpu.log
        invariant CmdsAllocated(bs0, buffers, i, next0, gpu.next, gpu.live, cmd)
        invariant Adds(live0, next0, cmd, DrawCmdsOf(buffers[..i]), gpu.live, gpu.next, cmd)
      {
        ghost var live1, next1, bs := gpu.live, gpu.next, buffers;
        AllocateDrawBuffer(i, bs0, next0);
        AddsOneMore(live0, next0, cmd, DrawCmdsOf(bs[..i]), live1, next1, next1);
      }
      assert buffers[..|buffers|] == buffers;
      ViewsKept(old(buffers), buffers);
    }

    /** One pass of that loop. */
    method AllocateDrawBuffer(i: nat, ghost bs0: seq<SwapchainBuffers>, ghost next0: Handle)
      requires Valid() && i < |buffers|
      requires CmdsAllocated(bs0, buffers, i, next0, gpu.next, gpu.live, cmd) && next0 <= gpu.next
      modifies this`buffers, gpu`log, gpu`next, gpu`live
      ensures Valid() && old(gpu.log) <= gpu.log
      ensures buffers == old(buffers)[i := old(buffers)[i].(cmd := old(gpu.next))]
      ensures gpu.next == old(gpu.next) + 1 && gpu.live == old(gpu.live) + {old(gpu.next)}
      ensures DrawCmdsOf(buffers[..i + 1]) == DrawCmdsOf(old(buffers)[..i]) + {old(gpu.next)}
      ensures CmdsAllocated(bs0, buffers, i + 1, next0, gpu.next, gpu.live, cmd)
    {
      LiveBelowNext(gpu);
      CmdsAllocatedStep(bs0, buffers, i, next0, gpu.next, gpu.live, cmd);
      var cb := gpu.Create(Kind.CommandBuffer);
      buffers := buffers[i := buffers[i].(cmd := cb)];
      assert buffers[..i] == old(buffers)[..i];
      BuffersPrefix(buffers, i);
    }

    /** prepare_framebuffers: one framebuffer per swapchain buffer. */
    method PrepareFramebuffers()
      requires Valid()
      modifies this`framebuffers, gpu`log, gpu`next, gpu`live
      ensures Valid() && old(gpu.live) <= gpu.live && old(gpu.next) <= gpu.next
      ensures old(gpu.log) <= gpu.log
      ensures |framebuffers| == |buffers|
      ensures forall i :: 0 <= i < |framebuffers| ==>
        old(gpu.next) <= framebuffers[i] < gpu.next && framebuffers[i] in gpu.live && framebuffers[i] != cmd
      ensures forall i, j :: 0 <= i < j < |framebuffers| ==> framebuffers[i] < framebuffers[j]
      ensures Adds(old(gpu.live), old(gpu.next), cmd, FramebufferSet(framebuffers), gpu.live, gpu.next, cmd)
    {
      ghost var live0, next0 := gpu.live, gpu.next;
      LiveBelowNext(gpu);
      AddsNothing(live0, next0, cmd);
      framebuffers := Resized(framebuffers, |buffers|, NullHandle);
      assert FramebufferSet(framebuffers[..0]) == {};
      for i := 0 to |buffers|
        invariant Valid() && old(gpu.live) <= gpu.live && old(gpu.next) <= gpu.next && old(gpu.log) <= gpu.log
        invariant |framebuffers| == |buffers|
        invariant FramebuffersMade(framebuffers, i, next0, gpu.next, gpu.live, cmd)
        invariant Adds(live0, next0, cmd, FramebufferSet(framebuffers[..i]), gpu.live, gpu.next, cmd)
      {
        ghost var live1, next1, fbs := gpu.live, gpu.next, framebuffers;
        LiveBelowNext(gpu);
        FramebuffersMadeStep(fbs, i, next0, next1, live1, cmd);
        var fb := gpu.Create(Kind.Framebuffer);
        framebuffers := framebuffers[i := fb];
        AddsOneMore(live0, next0, cmd, FramebufferSet(fbs[..i]), live1, next1, fb);
        assert framebuffers[..i] == fbs[..i];
        FramebufferPrefix(framebuffers, i);
      }
      assert framebuffers[..|buffers|] == framebuffers;
    }

    /** The first half of prepare(): the command pool, the swapchain buffers, the depth
        buffer and the textures. */
    method PrepareResources(a: PrepareAnswers) returns (o: Outcome)
      requires Valid() && cmd == NullHandle && a.InRange()
      modifies this`cmdPool, this`swapchain, this`buffers, this`depth, this`textures, this`cmd,
               gpu`log, gpu`next, gpu`live
      ensures Valid() && swapchain != null && fresh(swapchain) && old(gpu.log) <= gpu.log
      ensures swapchain.createInfo ==
        Swapchain.SwapchainCreateInfoFor(surface, DesiredImageCount(a.capabilities), format, colorSpace,
                                         SwapchainExtent(a.capabilities).extent, PreferredPresentMode(a.presentModes),
                                         PreTransform(a.capabilities),
                                         if old(swapchain) == null then None else Some(old(swapchain).handle))
      ensures o.Done? <==>
        |a.swapchainImages| > 0 &&
        MemoryTypes.LowestQualifying(device.memoryProperties, a.depthMemory.memoryTypeBits, 0) >= 0 &&
        TextureSucceeds(a, device.memoryProperties, useStagingBuffer)
      ensures o.Done? ==> BuffersViewing(a.swapchainImages)
      ensures o.Done? ==>
        Adds(old(gpu.live) - SwapchainSet(old(swapchain)), old(gpu.next), NullHandle,
             {cmdPool, swapchain.handle} + ViewsOf(buffers) + DepthHandles(depth) + TextureHandles(textures),
             gpu.live, gpu.next, cmd)
    {
      ghost var live0, next0, old0 := gpu.live - SwapchainSet(swapchain), gpu.next, swapchain;
      LiveBelowNext(gpu);
      cmdPool := gpu.Create(Kind.CommandPool);
      AddsCreated(live0, next0, NullHandle, cmdPool);
      assert gpu.live - SwapchainSet(old0) == live0 + {cmdPool};
      ghost var live1, next1 := gpu.live, gpu.next;
      o := PrepareBuffers(a);
      if o.Abort? {
        return;
      }
      AddsChain(live0, next0, NullHandle, {cmdPool}, live1 - SwapchainSet(old0), next1, NullHandle,
                {swapchain.handle} + ViewsOf(buffers), gpu.live, gpu.next, cmd);
      ghost var added := {cmdPool} + ({swapchain.handle} + ViewsOf(buffers));
      o := PrepareImages(a, live0, next0, added);
      if o.Abort? {
        return;
      }
      assert added + (DepthHandles(depth) + TextureHandles(textures)) ==
        {cmdPool, swapchain.handle} + ViewsOf(buffers) + DepthHandles(depth) + TextureHandles(textures);
    }

    /** The depth buffer and then the textures, extending a stretch of prepare() that
        began with the live set `live0` and the counter `next0` and has so far added
        `added`. */
    method PrepareImages(a: PrepareAnswers, ghost live0: set<Handle>, ghost next0: nat, ghost added: set<Handle>)
      returns (o: Outcome)
      requires Valid() && (forall h :: h in live0 ==> h < next0)
      requires Adds(live0, next0, NullHandle, added, gpu.live, gpu.next, cmd)
      modifies this`depth, this`textures, this`cmd, gpu`log, gpu`next, gpu`live
      ensures Valid() && old(gpu.log) <= gpu.log
      ensures o.Done? <==>
        MemoryTypes.LowestQualifying(device.memoryProperties, a.depthMemory.memoryTypeBits, 0) >= 0 &&
        TextureSucceeds(a, device.memoryProperties, useStagingBuffer)
      ensures o.Done? ==>
        Adds(live0, next0, NullHandle, added + (DepthHandles(depth) + TextureHandles(textures)), gpu.live, gpu.next, cmd)
    {
      ghost var live1, next1, cmd1 := gpu.live, gpu.next, cmd;
      o := PrepareDepth(a);
      if o.Abort? {
        return;
      }
      ghost var live2, next2, cmd2 := gpu.live, gpu.next, cmd;
      o := PrepareTextures(a);
      if o.Abort? {
        return;
      }
      AddsChain(live0, next0, NullHandle, added, live1, next1, cmd1, DepthHandles(depth), live2, next2, cmd2);
      AddsChain(live0, next0, NullHandle, added + DepthHandles(depth), live2, next2, cmd2,
                TextureHandles(textures), gpu.live, gpu.next, cmd);
      assert added + DepthHandles(depth) + TextureHandles(textures) == added + (DepthHandles(depth) + TextureHandles(textures));
    }

    /** The middle of prepare(): prepare_descriptor_layout, prepare_render_pass and
        prepare_pipeline. */
    method PreparePipelineState(a: PrepareAnswers) returns (o: Outcome)
      requires Valid()
      modifies this`descLayout, this`pipelineLayout, this`renderPass, this`pipelineCache, this`pipeline,
               gpu`log, gpu`next, gpu`live
      ensures Valid() && old(gpu.live) <= gpu.live && old(gpu.log) <= gpu.log
      ensures o.Done? <==> a.vertexShader.Some? && a.fragmentShader.Some?
      ensures o.Done? ==>
        Adds(old(gpu.live), old(gpu.next), cmd, {descLayout, pipelineLayout, renderPass, pipelineCache, pipeline},
             gpu.live, gpu.next, cmd)
    {
      ghost var live0, next0 := gpu.live, gpu.next;
      LiveBelowNext(gpu);
      PrepareDescriptorLayout();
      ghost var live1, next1 := gpu.live, gpu.next;
      PrepareRenderPass();
      AddsChain(live0, next0, cmd, {descLayout, pipelineLayout}, live1, next1, cmd, {renderPass}, gpu.live, gpu.next, cmd);
      ghost var live2, next2 := gpu.live, gpu.next;
      o := PreparePipeline(a);
      if o.Abort? {
        return;
      }
      AddsChain(live0, next0, cmd, {descLayout, pipelineLayout} + {renderPass}, live2, next2, cmd,
                {pipelineCache, pipeline}, gpu.live, gpu.next, cmd);
      assert {descLayout, pipelineLayout} + {renderPass} + {pipelineCache, pipeline} ==
        {descLayout, pipelineLayout, renderPass, pipelineCache, pipeline};
    }

    /** The end of prepare(): the draw targets and the descriptor pool; then the init
        commands are flushed and the view is marked prepared. */
    method PrepareDrawing(ghost images: seq<Handle>)
      requires Valid() && swapchain != null && |images| > 0 && BuffersViewing(images)
      modifies this`buffers, this`framebuffers, this`descPool, this`cmd, this`currentBuffer, this`prepared,
               gpu`log, gpu`next, gpu`live
      ensures Valid() && old(gpu.log) <= gpu.log
      ensures Prepared(images) && currentBuffer == 0
      ensures Adds(old(gpu.live), old(gpu.next), old(cmd), DrawCmdsOf(buffers) + FramebufferSet(framebuffers) + {descPool},
                   gpu.live, gpu.next, cmd)
      ensures ViewsOf(buffers) == ViewsOf(old(buffers))
    {
      ghost var live0, next0 := gpu.live, gpu.next;
      LiveBelowNext(gpu);
      CreateDrawTargets(images);
      ghost var live2, next2 := gpu.live, gpu.next;
      FlushInitCmd();
      AddsChain(live0, next0, old(cmd), DrawCmdsOf(buffers) + FramebufferSet(framebuffers) + {descPool}, live2, next2, old(cmd),
                {}, gpu.live, gpu.next, cmd);
      assert DrawCmdsOf(buffers) + FramebufferSet(framebuffers) + {descPool} + {} ==
        DrawCmdsOf(buffers) + FramebufferSet(framebuffers) + {descPool};
      currentBuffer := 0;
      prepared := true;
    }

    /** prepare_descriptor_pool. */
    method PrepareDescriptorPool()
      requires Valid()
      modifies this`descPool, gpu`log, gpu`next, gpu`live
      ensures Valid() && old(gpu.live) <= gpu.live && old(gpu.log) <= gpu.log
      ensures descPool == old(gpu.next) && gpu.log == old(gpu.log) + [Created(Kind.DescriptorPool, descPool)]
      ensures Adds(old(gpu.live), old(gpu.next), cmd, {descPool}, gpu.live, gpu.next, cmd)
    {
      LiveBelowNext(gpu);
      AddsCreated(gpu.live, gpu.next, cmd, gpu.next);
      descPool := gpu.Create(Kind.DescriptorPool);
    }

    /** The command buffers of prepare(), prepare_framebuffers and
        prepare_descriptor_pool, none of the command buffers and framebuffers the init
        command buffer. */
    method CreateDrawTargets(ghost images: seq<Handle>)
      requires Valid() && BuffersViewing(images)
      modifies this`buffers, this`framebuffers, this`descPool, gpu`log, gpu`next, gpu`live
      ensures Valid() && old(gpu.log) <= gpu.log && DrawTargets(images, buffers, framebuffers, gpu.live)
      ensures forall i :: 0 <= i < |buffers| ==> buffers[i].cmd != cmd && framebuffers[i] != cmd
      ensures Adds(old(gpu.live), old(gpu.next), cmd, DrawCmdsOf(buffers) + FramebufferSet(framebuffers) + {descPool},
                   gpu.live, gpu.next, cmd)
      ensures ViewsOf(buffers) == ViewsOf(old(buffers))
    {
      ghost var live0, next0, bs0 := gpu.live, gpu.next, buffers;
      LiveBelowNext(gpu);
      AllocateDrawBuffers();
      ViewsKept(bs0, buffers);
      CmdsIncreasing(buffers);
      ghost var live1, next1 := gpu.live, gpu.next;
      PrepareFramebuffers();
      AddsChain(live0, next0, cmd, DrawCmdsOf(buffers), live1, next1, cmd, FramebufferSet(framebuffers),
                gpu.live, gpu.next, cmd);
      ghost var live2, next2 := gpu.live, gpu.next;
      PrepareDescriptorPool();
      AddsChain(live0, next0, cmd, DrawCmdsOf(buffers) + FramebufferSet(framebuffers), live2, next2, cmd,
                {descPool}, gpu.live, gpu.next, cmd);
    }

    /** prepare(). */
    method Prepare(a: PrepareAnswers) returns (o: Outcome)
      requires Valid() && cmd == NullHandle && a.InRange()
      modifies this`cmdPool, this`swapchain, this`buffers, this`depth, this`textures, this`cmd,
               this`descLayout, this`pipelineLayout, this`renderPass, this`pipelineCache, this`pipeline,
               this`framebuffers, this`descPool, this`currentBuffer, this`prepared,
               gpu`log, gpu`next, gpu`live
      ensures Valid() && swapchain != null && fresh(swapchain) && old(gpu.log) <= gpu.log
      ensures swapchain.createInfo ==
        Swapchain.SwapchainCreateInfoFor(surface, DesiredImageCount(a.capabilities), format, colorSpace,
                                         SwapchainExtent(a.capabilities).extent, PreferredPresentMode(a.presentModes),
                                         PreTransform(a.capabilities),
                                         if old(swapchain) == null then None else Some(old(swapchain).handle))
      ensures o.Done? <==> PrepareSucceeds(a, device.memoryProperties, useStagingBuffer)
      ensures o.Done? ==> Prepared(a.swapchainImages) && currentBuffer == 0
      ensures o.Done? ==>
        gpu.live == (old(gpu.live) - SwapchainSet(old(swapchain))) + (HeldHandles(Held()) + {swapchain.handle}) &&
        HandedOut(HeldHandles(Held()) + {swapchain.handle}, old(gpu.next), gpu.next)
    {
      ghost var live0, next0 := gpu.live - SwapchainSet(swapchain), gpu.next;
      LiveBelowNext(gpu);
      o := PrepareResources(a);
      if o.Abort? {
        return;
      }
      ghost var A := {cmdPool, swapchain.handle} + ViewsOf(buffers) + DepthHandles(depth) + TextureHandles(textures);
      assert A == {cmdPool} + DepthHandles(depth) + TextureHandles(textures) + ViewsOf(buffers) + {swapchain.handle};
      o := PreparePipelineAndDrawing(a, live0, next0, A);
    }

    /** The rest of prepare() once the resources are made: the pipeline state, then the
        draw targets. `A`, the resources, the buffers' views and the swapchain, is what
        prepare() has added to `live0` since it began with the counter at `next0`. */
    method PreparePipelineAndDrawing(a: PrepareAnswers, ghost live0: set<Handle>, ghost next0: nat, ghost A: set<Handle>)
      returns (o: Outcome)
      requires Valid() && swapchain != null && |a.swapchainImages| > 0 && BuffersViewing(a.swapchainImages)
      requires (forall h :: h in live0 ==> h < next0) && Adds(live0, next0, NullHandle, A, gpu.live, gpu.next, cmd)
      requires A == {cmdPool} + DepthHandles(depth) + TextureHandles(textures) + ViewsOf(buffers) + {swapchain.handle}
      modifies this`descLayout, this`pipelineLayout, this`renderPass, this`pipelineCache, this`pipeline,
               this`buffers, this`framebuffers, this`descPool, this`cmd, this`currentBuffer, this`prepared,
               gpu`log, gpu`next, gpu`live
      ensures Valid() && old(gpu.log) <= gpu.log
      ensures o.Done? <==> a.vertexShader.Some? && a.fragmentShader.Some?
      ensures o.Done? ==> Prepared(a.swapchainImages) && currentBuffer == 0
      ensures o.Done? ==>
        gpu.live == live0 + (HeldHandles(Held()) + {swapchain.handle}) &&
        HandedOut(HeldHandles(Held()) + {swapchain.handle}, next0, gpu.next)
    {
      ghost var live1, next1, cmd1 := gpu.live, gpu.next, cmd;
      o := PreparePipelineState(a);
      if o.Abort? {
        return;
      }
      AddsChain(live0, next0, NullHandle, A, live1, next1, cmd1,
                {descLayout, pipelineLayout, renderPass, pipelineCache, pipeline}, gpu.live, gpu.next, cmd);
      ghost var B := {cmdPool} + DepthHandles(depth) + TextureHandles(textures) + ViewsOf(buffers) +
                     {descLayout, pipelineLayout, renderPass, pipelineCache, pipeline};
      assert A + {descLayout, pipelineLayout, renderPass, pipelineCache, pipeline} == B + {swapchain.handle};
      FinishPrepare(a.swapchainImages, live0, next0, B);
    }

    /** The draw targets, closing prepare(): `B + {swapchain.handle}`, everything but the
        draw targets, is what prepare() has added to `live0` so far. */
    method FinishPrepare(ghost images: seq<Handle>, ghost live0: set<Handle>, ghost next0: nat, ghost B: set<Handle>)
      requires Valid() && swapchain != null && |images| > 0 && BuffersViewing(images)
      requires (forall h :: h in live0 ==> h < next0) && Adds(live0, next0, NullHandle, B + {swapchain.handle}, gpu.live, gpu.next, cmd)
      requires B == {cmdPool} + DepthHandles(depth) + TextureHandles(textures) + ViewsOf(buffers) +
                    {descLayout, pipelineLayout, renderPass, pipelineCache, pipeline}
      modifies this`buffers, this`framebuffers, this`descPool, this`cmd, this`currentBuffer, this`prepared,
               gpu`log, gpu`next, gpu`live
      ensures Valid() && old(gpu.log) <= gpu.log
      ensures Prepared(images) && currentBuffer == 0
      ensures gpu.live == live0 + (HeldHandles(Held()) + {swapchain.handle}) &&
              HandedOut(HeldHandles(Held()) + {swapchain.handle}, next0, gpu.next)
    {
      ghost var live1, next1, cmd1 := gpu.live, gpu.next, cmd;
      PrepareDrawing(images);
      assert B == {cmdPool} + DepthHandles(depth) + TextureHandles(textures) + ViewsOf(buffers) +
                  {descLayout, pipelineLayout, renderPass, pipelineCache, pipeline};
      ghost var C := DrawCmdsOf(buffers) + FramebufferSet(framebuffers) + {descPool};
      PrepareStretches(live0, next0, B, swapchain.handle, live1, next1, cmd1, C, gpu.live, gpu.next);
      HeldByStretch();
    }

    /** The subclass hooks resize_vk calls once prepare() is done: each buffer's draw
        command is built with the current buffer pointing at it. */
    method RebuildDrawCommands()
      modifies this`currentBuffer, gpu`log
      ensures |buffers| > 0 ==> currentBuffer == |buffers| - 1
      ensures gpu.log == old(gpu.log) + RebuildEvents(buffers)
    {
      for i := 0 to |buffers|
        invariant 0 < i ==> currentBuffer == i - 1
        invariant gpu.log == old(gpu.log) + RebuildEvents(buffers[..i])
      {
        assert buffers[..i + 1][..i] == buffers[..i];
        currentBuffer := i;
        gpu.Call(Hook("buildDrawCommand", buffers[i].cmd));
      }
      assert buffers[..|buffers|] == buffers;
    }

    /** resize_vk: nothing before the first prepare(); afterwards everything prepare()
        made is destroyed (the swapchain excepted: prepare_buffers hands it on as the old
        swapchain), prepared again, and the subclass rebuilds the descriptor set and
        every draw command. `prepareEvents` is what the second prepare() logs. */
    method ResizeVk(a: PrepareAnswers) returns (o: Outcome, ghost prepareEvents: seq<Event>)
      requires Valid() && cmd == NullHandle && a.InRange()
      modifies this`cmdPool, this`swapchain, this`buffers, this`depth, this`textures, this`cmd,
               this`descLayout, this`pipelineLayout, this`renderPass, this`pipelineCache, this`pipeline,
               this`framebuffers, this`descPool, this`currentBuffer, this`prepared,
               gpu`log, gpu`next, gpu`live
      ensures Valid()
      ensures !old(prepared) ==> o == Done && unchanged(this) && unchanged(gpu)
      ensures old(prepared) ==> (o.Done? <==> PrepareSucceeds(a, device.memoryProperties, useStagingBuffer))
      ensures old(prepared) ==>
        gpu.log == old(gpu.log) + TeardownEvents(old(Held())) + prepareEvents + RebuildTail(o, buffers)
      ensures old(prepared) && o.Done? ==> Prepared(a.swapchainImages) && currentBuffer == |buffers| - 1
      ensures old(prepared) && o.Done? ==>
        gpu.live == (old(gpu.live) - HeldHandles(old(Held())) - SwapchainSet(old(swapchain))) +
                    (HeldHandles(Held()) + {swapchain.handle}) &&
        HandedOut(HeldHandles(Held()) + {swapchain.handle}, old(gpu.next), gpu.next)
      ensures old(gpu.log) <= gpu.log
      ensures o.Done? <==> !old(prepared) || PrepareSucceeds(a, device.memoryProperties, useStagingBuffer)
      ensures o.Done? ==>
        gpu.log == old(gpu.log) + ResizeLog(true, old(prepared), old(Held()), prepareEvents, buffers) &&
        cmd == NullHandle && (old(swapchain) != null ==> swapchain != null) && prepared == old(prepared) &&
        |buffers| == if old(prepared) then |a.swapchainImages| else |old(buffers)|
    {
      if !prepared {
        return Done, [];
      }
      o, prepareEvents := ResizePrepared(a);
    }

    /** resize_vk on a prepared view: teardown, then prepare() and the subclass hooks. */
    method ResizePrepared(a: PrepareAnswers) returns (o: Outcome, ghost prepareEvents: seq<Event>)
      requires Valid() && cmd == NullHandle && a.InRange() && prepared
      modifies this`cmdPool, this`swapchain, this`buffers, this`depth, this`textures, this`cmd,
               this`descLayout, this`pipelineLayout, this`renderPass, this`pipelineCache, this`pipeline,
               this`framebuffers, this`descPool, this`currentBuffer, this`prepared,
               gpu`log, gpu`next, gpu`live
      ensures Valid()
      ensures o.Done? <==> PrepareSucceeds(a, device.memoryProperties, useStagingBuffer)
      ensures gpu.log == old(gpu.log) + TeardownEvents(old(Held())) + prepareEvents + RebuildTail(o, buffers)
      ensures o.Done? ==> Prepared(a.swapchainImages) && currentBuffer == |buffers| - 1
      ensures o.Done? ==>
        gpu.live == (old(gpu.live) - HeldHandles(old(Held())) - SwapchainSet(old(swapchain))) +
                    (HeldHandles(Held()) + {swapchain.handle}) &&
        HandedOut(HeldHandles(Held()) + {swapchain.handle}, old(gpu.next), gpu.next)
      ensures o.Done? ==>
        gpu.log == old(gpu.log) + ResizeLog(true, true, old(Held()), prepareEvents, buffers) &&
        cmd == NullHandle && swapchain != null && prepared && |buffers| == |a.swapchainImages|
    {
      ghost var log0, held := gpu.log, Held();
      TeardownForResize();
      o, prepareEvents := PrepareAndRebuild(a);
      if o.Done? {
        ResizeLogAfter(log0, held, prepareEvents, buffers);
      }
    }

    /** The second part of resize_vk: prepare() again, then, when it got through, the
        subclass hooks. */
    method PrepareAndRebuild(a: PrepareAnswers) returns (o: Outcome, ghost prepareEvents: seq<Event>)
      requires Valid() && cmd == NullHandle && a.InRange()
      modifies this`cmdPool, this`swapchain, this`buffers, this`depth, this`textures, this`cmd,
               this`descLayout, this`pipelineLayout, this`renderPass, this`pipelineCache, this`pipeline,
               this`framebuffers, this`descPool, this`currentBuffer, this`prepared,
               gpu`log, gpu`next, gpu`live
      ensures Valid()
      ensures o.Done? <==> PrepareSucceeds(a, device.memoryProperties, useStagingBuffer)
      ensures gpu.log == old(gpu.log) + prepareEvents + RebuildTail(o, buffers)
      ensures o.Done? ==> Prepared(a.swapchainImages) && currentBuffer == |buffers| - 1
      ensures o.Done? ==>
        gpu.live == (old(gpu.live) - SwapchainSet(old(swapchain))) + (HeldHandles(Held()) + {swapchain.handle}) &&
        HandedOut(HeldHandles(Held()) + {swapchain.handle}, old(gpu.next), gpu.next)
    {
      ghost var before := gpu.log;
      o := Prepare(a);
      prepareEvents := gpu.log[|before|..];
      assert gpu.log == before + prepareEvents;
      if o.Abort? {
        return;
      }
      Rebuild(a.swapchainImages);
    }

    /** The first part of resize_vk: the view is no longer prepared, everything the
        destructor would destroy but the surface is destroyed, and the buffers are cleared. */
    method TeardownForResize()
      requires Valid() && cmd == NullHandle
      modifies this`prepared, this`buffers, gpu`log, gpu`live
      ensures Valid() && cmd == NullHandle && !prepared && buffers == []
      ensures gpu.log == old(gpu.log) + TeardownEvents(old(Held()))
      ensures gpu.live == old(gpu.live) - HeldHandles(old(Held()))
    {
      prepared := false;
      Teardown();
      buffers := [];
    }

    /** The last part of resize_vk: prepareDescriptorSet, then buildDrawCommand for each
        buffer with the current buffer pointing at it; what prepare() made stays as it is. */
    method Rebuild(ghost images: seq<Handle>)
      requires |buffers| > 0
      modifies this`currentBuffer, gpu`log
      ensures currentBuffer == |buffers| - 1
      ensures gpu.log == old(gpu.log) + RebuildTail(Done, buffers)
      ensures Held() == old(Held()) && (Prepared(images) <==> old(Prepared(images)))
    {
      gpu.Call(Hook("prepareDescriptorSet", NullHandle));
      RebuildDrawCommands();
      assert gpu.log == old(gpu.log) + ([Hook("prepareDescriptorSet", NullHandle)] + RebuildEvents(buffers));
    }

    // -------------------------------------------------------------- draw

    /** draw(): acquire an image with a fresh semaphore; when the swapchain is out of
        date, resize and draw again (each retry takes the next of `attempts`, and running
        out of them is RetriesExhausted); otherwise return the image to the colour
        attachment layout, submit its draw commands to wait on the semaphore, present it,
        resize when presenting finds the swapchain out of date, wait for the queue and
        destroy the semaphore. `prepareEvents` is what a resize's prepare() logs,
        `resized` the buffers it leaves and `retryEvents` what the retry logs. */
    method Draw(attempts: seq<FrameAnswers>)
      returns (d: DrawOutcome, ghost prepareEvents: seq<Event>, ghost resized: seq<SwapchainBuffers>,
               ghost retryEvents: seq<Event>)
      requires Valid() && cmd == NullHandle && swapchain != null
      requires ResizesInRange(attempts)
      modifies this`cmdPool, this`swapchain, this`buffers, this`depth, this`textures, this`cmd,
               this`descLayout, this`pipelineLayout, this`renderPass, this`pipelineCache, this`pipeline,
               this`framebuffers, this`descPool, this`currentBuffer, this`prepared,
               gpu`log, gpu`next, gpu`live, gpu`semaphores
      ensures Valid()
      ensures !d.Aborted? ==> cmd == NullHandle && swapchain != null && gpu.semaphores == old(gpu.semaphores)
      ensures VerdictOf(d) == ExpectedDraw(attempts, old(prepared), |old(buffers)|, device.memoryProperties, useStagingBuffer)
      ensures d == RetriesExhausted ==> OutOfDateBefore(attempts, |attempts|)
      ensures d.Drawn? ==> DrawnOnAttempt(attempts, d.retries)
      ensures |attempts| > 0 && FrameResultAction(attempts[0].acquireResult) == Stop ==> d.Aborted?
      ensures old(gpu.log) <= gpu.log
      ensures attempts == [] ==> gpu.log == old(gpu.log)
      ensures attempts != [] ==>
        old(gpu.log) + AcquireEvents(old(swapchain).handle, old(gpu.next), attempts[0].acquireResult) <= gpu.log
      ensures attempts != [] && FrameResultAction(attempts[0].acquireResult) == Proceed && d.Drawn? ==>
        attempts[0].imageIndex as int < |old(buffers)| &&
        gpu.log == old(gpu.log) + AcquireEvents(old(swapchain).handle, old(gpu.next), attempts[0].acquireResult) +
          FrameStartEvents(old(gpu.next) + 1, old(buffers)[attempts[0].imageIndex], old(gpu.next), old(swapchain).handle,
                           attempts[0].imageIndex as nat, attempts[0].presentResult) +
          ResizeLog(FrameResultAction(attempts[0].presentResult) == Recreate, old(prepared), old(Held()), prepareEvents, buffers) +
          FrameEndEvents(old(gpu.next), old(gpu.next) + 1)
      ensures attempts != [] && FrameResultAction(attempts[0].acquireResult) == Recreate && !d.Aborted? ==>
        gpu.log == old(gpu.log) + AcquireEvents(old(swapchain).handle, old(gpu.next), attempts[0].acquireResult) +
          ResizeLog(true, old(prepared), old(Held()), prepareEvents, resized) + retryEvents + [SemaphoreDestroyed(old(gpu.next))]
      ensures !d.Aborted? ==> prepared == old(prepared)
      ensures attempts != [] && FrameResultAction(attempts[0].acquireResult) == Proceed && d.Drawn? ==>
        if PresentResizes(attempts[0], old(prepared)) then Rebuilt(attempts[0].resize.swapchainImages)
        else Kept(old(Held()), old(swapchain), attempts[0].imageIndex as nat, old(gpu.live))
      decreases |attempts|, 2
    {
      prepareEvents, resized, retryEvents := [], [], [];
      if |attempts| == 0 {
        return RetriesExhausted, [], [], [];
      }
      ghost var prepared0, buffers0, semaphores0 := prepared, |buffers|, gpu.semaphores;
      var semaphore := AcquireImage(attempts[0]);
      d, prepareEvents, resized, retryEvents := AfterAcquire(attempts, semaphore);
      DrawVerdictMeans(d, attempts, prepared0, buffers0, device.memoryProperties, useStagingBuffer);
      HandleGone(semaphores0, semaphore);
    }

    /** The start of draw(): a fresh semaphore, and the acquire of the next image. */
    method AcquireImage(f: FrameAnswers) returns (semaphore: Handle)
      requires Valid() && swapchain != null
      modifies gpu`log, gpu`next, gpu`semaphores
      ensures Valid()
      ensures semaphore == old(gpu.next) && semaphore !in old(gpu.semaphores) && gpu.next == old(gpu.next) + 1
      ensures gpu.semaphores == old(gpu.semaphores) + {semaphore}
      ensures gpu.log == old(gpu.log) + AcquireEvents(swapchain.handle, semaphore, f.acquireResult)
    {
      semaphore := gpu.CreateSemaphore();
      var r, index := swapchain.AcquireNextImage(semaphore, f.acquireResult, f.imageIndex);
    }

    /** What draw() does once the driver has answered the acquire of the first of
        `attempts`: the image index it returned becomes the current buffer; then resize
        and retry when the swapchain is out of date, fail on any other error, and
        otherwise draw and present the image. */
    method AfterAcquire(attempts: seq<FrameAnswers>, semaphore: Handle)
      returns (d: DrawOutcome, ghost prepareEvents: seq<Event>, ghost resized: seq<SwapchainBuffers>,
               ghost retryEvents: seq<Event>)
      requires Valid() && cmd == NullHandle && swapchain != null && |attempts| > 0
      requires ResizesInRange(attempts)
      requires semaphore in gpu.semaphores
      modifies this`cmdPool, this`swapchain, this`buffers, this`depth, this`textures, this`cmd,
               this`descLayout, this`pipelineLayout, this`renderPass, this`pipelineCache, this`pipeline,
               this`framebuffers, this`descPool, this`currentBuffer, this`prepared,
               gpu`log, gpu`next, gpu`live, gpu`semaphores
      ensures Valid()
      ensures !d.Aborted? ==> cmd == NullHandle && swapchain != null && gpu.semaphores == old(gpu.semaphores) - {semaphore}
      ensures VerdictOf(d) == ExpectedDraw(attempts, old(prepared), |old(buffers)|, device.memoryProperties, useStagingBuffer)
      ensures old(gpu.log) <= gpu.log
      ensures FrameResultAction(attempts[0].acquireResult) == Proceed && d.Drawn? ==>
        attempts[0].imageIndex as int < |old(buffers)| &&
        gpu.log == old(gpu.log) +
          FrameStartEvents(old(gpu.next), old(buffers)[attempts[0].imageIndex], semaphore, old(swapchain).handle,
                           attempts[0].imageIndex as nat, attempts[0].presentResult) +
          ResizeLog(FrameResultAction(attempts[0].presentResult) == Recreate, old(prepared), old(Held()), prepareEvents, buffers) +
          FrameEndEvents(semaphore, old(gpu.next))
      ensures FrameResultAction(attempts[0].acquireResult) == Recreate && !d.Aborted? ==>
        gpu.log == old(gpu.log) + ResizeLog(true, old(prepared), old(Held()), prepareEvents, resized) + retryEvents +
                   [SemaphoreDestroyed(semaphore)]
      ensures !d.Aborted? ==> prepared == old(prepared)
      ensures FrameResultAction(attempts[0].acquireResult) == Proceed && d.Drawn? ==>
        if PresentResizes(attempts[0], old(prepared)) then Rebuilt(attempts[0].resize.swapchainImages)
        else Kept(old(Held()), old(swapchain), attempts[0].imageIndex as nat, old(gpu.live))
      decreases |attempts|, 1
    {
      prepareEvents, resized, retryEvents := [], [], [];
      var f := attempts[0];
      ResizesInRangeSplit(attempts);
      currentBuffer := f.imageIndex;
      var action := FrameResultAction(f.acquireResult);
      if action == Recreate {
        d, prepareEvents, resized, retryEvents := RetryFrame(attempts, semaphore);
      } else if action == Stop {
        d := Aborted("Q_ASSERT(!err)");
      } else {
        d, prepareEvents := PresentFrame(f, semaphore, f.imageIndex);
      }
    }

    /** The out-of-date branch of draw(): resize_vk, then draw() again with the next
        attempt. */
    method RetryFrame(attempts: seq<FrameAnswers>, semaphore: Handle)
      returns (d: DrawOutcome, ghost prepareEvents: seq<Event>, ghost resized: seq<SwapchainBuffers>,
               ghost retryEvents: seq<Event>)
      requires Valid() && cmd == NullHandle && swapchain != null && |attempts| > 0
      requires ResizesInRange(attempts)
      modifies this`cmdPool, this`swapchain, this`buffers, this`depth, this`textures, this`cmd,
               this`descLayout, this`pipelineLayout, this`renderPass, this`pipelineCache, this`pipeline,
               this`framebuffers, this`descPool, this`currentBuffer, this`prepared,
               gpu`log, gpu`next, gpu`live, gpu`semaphores
      ensures Valid()
      ensures old(gpu.log) <= gpu.log
      ensures !d.Aborted? ==> cmd == NullHandle && swapchain != null && gpu.semaphores == old(gpu.semaphores) - {semaphore}
      ensures VerdictOf(d) ==
        if !old(prepared) then
          Retried(ExpectedDraw(attempts[1..], false, |old(buffers)|, device.memoryProperties, useStagingBuffer))
        else if PrepareSucceeds(attempts[0].resize, device.memoryProperties, useStagingBuffer) then
          Retried(ExpectedDraw(attempts[1..], true, |attempts[0].resize.swapchainImages|, device.memoryProperties, useStagingBuffer))
        else WouldAbort
      ensures !d.Aborted? ==>
        gpu.log == old(gpu.log) + ResizeLog(true, old(prepared), old(Held()), prepareEvents, resized) + retryEvents +
                   [SemaphoreDestroyed(semaphore)]
      ensures !d.Aborted? ==> prepared == old(prepared)
      decreases |attempts|, 0
    {
      var o;
      ResizesInRangeSplit(attempts);
      o, prepareEvents := ResizeVk(attempts[0].resize);
      resized, retryEvents := buffers, [];
      if o.Abort? {
        return Aborted(o.reason), prepareEvents, resized, retryEvents;
      }
      d, retryEvents := DrawAgain(attempts[1..], semaphore);
    }

    /** draw() called again after a resize, then the semaphore of the attempt that
        found the swapchain out of date destroyed; `retryEvents` is what the inner
        draw() logs. */
    method DrawAgain(attempts: seq<FrameAnswers>, semaphore: Handle) returns (d: DrawOutcome, ghost retryEvents: seq<Event>)
      requires Valid() && cmd == NullHandle && swapchain != null
      requires ResizesInRange(attempts)
      modifies this`cmdPool, this`swapchain, this`buffers, this`depth, this`textures, this`cmd,
               this`descLayout, this`pipelineLayout, this`renderPass, this`pipelineCache, this`pipeline,
               this`framebuffers, this`descPool, this`currentBuffer, this`prepared,
               gpu`log, gpu`next, gpu`live, gpu`semaphores
      ensures Valid()
      ensures old(gpu.log) <= gpu.log
      ensures !d.Aborted? ==> cmd == NullHandle && swapchain != null && gpu.semaphores == old(gpu.semaphores) - {semaphore}
      ensures VerdictOf(d) == Retried(ExpectedDraw(attempts, old(prepared), |old(buffers)|, device.memoryProperties, useStagingBuffer))
      ensures !d.Aborted? ==> gpu.log == old(gpu.log) + retryEvents + [SemaphoreDestroyed(semaphore)]
      ensures !d.Aborted? ==> prepared == old(prepared)
      decreases |attempts|, 3
    {
      ghost var log0 := gpu.log;
      ghost var pe, rs, re;
      d, pe, rs, re := Draw(attempts);
      retryEvents := gpu.log[|log0|..];
      if d.Aborted? {
        return;
      }
      LogExtends(log0, gpu.log);
      gpu.DestroySemaphore(semaphore);
      if d.Drawn? {
        d := Drawn(d.retries + 1);
      }
    }

    /** The rest of draw() once an image is acquired: the image back to
        COLOR_ATTACHMENT_OPTIMAL on a one-off command buffer, the buffer's draw commands
        submitted to wait on the semaphore, and the present; then the end of the frame. */
    method PresentFrame(f: FrameAnswers, semaphore: Handle, index: U32) returns (d: DrawOutcome, ghost prepareEvents: seq<Event>)
      requires Valid() && cmd == NullHandle && swapchain != null && f.resize.InRange()
      requires semaphore in gpu.semaphores
      modifies this`cmdPool, this`swapchain, this`buffers, this`depth, this`textures, this`cmd,
               this`descLayout, this`pipelineLayout, this`renderPass, this`pipelineCache, this`pipeline,
               this`framebuffers, this`descPool, this`currentBuffer, this`prepared,
               gpu`log, gpu`next, gpu`live, gpu`semaphores
      ensures Valid()
      ensures !d.Aborted? ==>
        d == Drawn(0) && cmd == NullHandle && swapchain != null && gpu.semaphores == old(gpu.semaphores) - {semaphore}
      ensures FrameResultAction(f.presentResult) == Stop ==> d.Aborted?
      ensures old(gpu.log) <= gpu.log
      ensures d.Drawn? <==>
        index as int < |old(buffers)| && PresentGoesThrough(f, old(prepared), device.memoryProperties, useStagingBuffer)
      ensures index as int >= |old(buffers)| ==> gpu.log == old(gpu.log)
      ensures index as int < |old(buffers)| ==>
        old(gpu.log) + FrameStartEvents(old(gpu.next), old(buffers)[index], semaphore, old(swapchain).handle, index as nat,
                                        f.presentResult) <= gpu.log
      ensures d.Drawn? ==>
        index as int < |old(buffers)| &&
        gpu.log == old(gpu.log) +
          FrameStartEvents(old(gpu.next), old(buffers)[index], semaphore, old(swapchain).handle, index as nat, f.presentResult) +
          ResizeLog(FrameResultAction(f.presentResult) == Recreate, old(prepared), old(Held()), prepareEvents, buffers) +
          FrameEndEvents(semaphore, old(gpu.next))
      ensures !d.Aborted? ==> prepared == old(prepared)
      ensures d.Drawn? ==>
        if PresentResizes(f, old(prepared)) then Rebuilt(f.resize.swapchainImages)
        else
          unchanged(this) && gpu.live == old(gpu.live)
    {
      if index as int >= |buffers| {
        return Aborted("m_buffers[m_current_buffer] out of range"), [];
      }
      ghost var live0 := gpu.live;
      var local := StartFrame(buffers[index], semaphore, index as nat, f.presentResult);
      d, prepareEvents := FinishFrame(f, semaphore, local);
      if d.Drawn? && !PresentResizes(f, old(prepared)) {
        HandleGone(live0, local.handle);
      }
    }

    /** The image of buffer `b` back to COLOR_ATTACHMENT_OPTIMAL on a one-off command
        buffer `local`, the buffer's draw commands submitted to wait on the semaphore,
        and image `index` presented with the driver's `result`. */
    method StartFrame(b: SwapchainBuffers, semaphore: Handle, index: nat, result: VkResult)
      returns (local: Recorder.CommandBuffer)
      requires Valid() && swapchain != null
      modifies gpu`log, gpu`next, gpu`live
      ensures Valid() && local.gpu == gpu && local.handle == old(gpu.next)
      ensures local.handle !in old(gpu.live) && gpu.live == old(gpu.live) + {local.handle}
      ensures gpu.log == old(gpu.log) + FrameStartEvents(local.handle, b, semaphore, swapchain.handle, index, result)
    {
      local := ReturnImage(b.image);
      gpu.Call(Submitted(b.cmd, semaphore));
      gpu.Call(Presented(swapchain.handle, index, result));
    }

    /** The end of draw(): resize_vk when the present found the swapchain out of date,
        then the wait for the queue, the semaphore destroyed and the one-off buffer
        `local` freed as it goes out of scope. */
    method FinishFrame(f: FrameAnswers, semaphore: Handle, local: Recorder.CommandBuffer)
      returns (d: DrawOutcome, ghost prepareEvents: seq<Event>)
      requires Valid() && cmd == NullHandle && swapchain != null && f.resize.InRange()
      requires semaphore in gpu.semaphores && local.gpu == gpu
      modifies this`cmdPool, this`swapchain, this`buffers, this`depth, this`textures, this`cmd,
               this`descLayout, this`pipelineLayout, this`renderPass, this`pipelineCache, this`pipeline,
               this`framebuffers, this`descPool, this`currentBuffer, this`prepared,
               gpu`log, gpu`next, gpu`live, gpu`semaphores
      ensures Valid()
      ensures !d.Aborted? ==>
        d == Drawn(0) && cmd == NullHandle && swapchain != null && gpu.semaphores == old(gpu.semaphores) - {semaphore}
      ensures old(gpu.log) <= gpu.log
      ensures d.Drawn? <==> PresentGoesThrough(f, old(prepared), device.memoryProperties, useStagingBuffer)
      ensures d.Drawn? ==>
        gpu.log == old(gpu.log) +
          ResizeLog(FrameResultAction(f.presentResult) == Recreate, old(prepared), old(Held()), prepareEvents, buffers) +
          FrameEndEvents(semaphore, local.handle)
      ensures !d.Aborted? ==> prepared == old(prepared)
      ensures d.Drawn? ==>
        if PresentResizes(f, old(prepared)) then Rebuilt(f.resize.swapchainImages)
        else
          unchanged(this) && gpu.live == old(gpu.live) - {local.handle}
    {
      prepareEvents := [];
      var action := FrameResultAction(f.presentResult);
      if action == Recreate {
        var o;
        o, prepareEvents := ResizeVk(f.resize);
        if o.Abort? {
          return Aborted(o.reason), prepareEvents;
        }
      } else if action == Stop {
        return Aborted("Q_ASSERT(!err)"), [];
      }
      EndFrame(semaphore, local);
      d := Drawn(0);
    }

    /** The last lines of draw(): the wait for the queue, the semaphore destroyed, and
        the one-off buffer `local` freed as it goes out of scope. */
    method EndFrame(semaphore: Handle, local: Recorder.CommandBuffer)
      requires Valid() && cmd == NullHandle && local.gpu == gpu
      modifies gpu`log, gpu`live, gpu`semaphores
      ensures Valid()
      ensures gpu.semaphores == old(gpu.semaphores) - {semaphore} && gpu.live == old(gpu.live) - {local.handle}
      ensures gpu.log == old(gpu.log) + FrameEndEvents(semaphore, local.handle)
    {
      queue.WaitIdle();
      gpu.DestroySemaphore(semaphore);
      local.Release();
    }

    /** The one-off command buffer of draw(), allocated from the current pool, recording
        the PRESENT_SRC -> COLOR_ATTACHMENT_OPTIMAL transition of `image`; the recording
        is ended, submitted and waited for, and the buffer handed back for the caller to
        free. */
    method ReturnImage(image: Handle) returns (local: Recorder.CommandBuffer)
      requires Valid()
      modifies gpu`log, gpu`next, gpu`live
      ensures Valid() && fresh(local) && local.gpu == gpu && local.pool == cmdPool
      ensures local.handle == old(gpu.next) && gpu.next == old(gpu.next) + 1
      ensures local.handle !in old(gpu.live) && gpu.live == old(gpu.live) + {local.handle}
      ensures gpu.log == old(gpu.log) + [Created(Kind.CommandBuffer, local.handle)] +
        Recorder.Recording(local.handle, 0, [LayoutTransition(image, IMAGE_ASPECT_COLOR_BIT, PresentSrc, ColorAttachmentOptimal, 0)]) +
        [Submitted(local.handle, NullHandle), QueueWaitedIdle]
    {
      local := new Recorder.CommandBuffer(gpu, cmdPool);
      var rec := local.Record();
      rec := rec.TransformImage(image, PresentSrc, ColorAttachmentOptimal);
      rec.Finish();
      queue.Submit(local.handle);
      queue.WaitIdle();
    }

    /** ~QVulkanView: not prepared any more, the shared destroy sequence, the surface,
        and then (as a member's destructor, after the body) the swapchain. */
    method Destroy()
      requires Valid() && cmd == NullHandle
      modifies this`prepared, this`buffers, gpu`log, gpu`live
      ensures !prepared && |buffers| == |old(buffers)|
      ensures gpu.live == old(gpu.live) - HeldHandles(old(Held())) - {surface} - SwapchainSet(swapchain)
      ensures swapchain == null ==>
        gpu.log == old(gpu.log) + TeardownEvents(old(Held())) + [Destroyed(Kind.Surface, surface)]
      ensures swapchain != null ==>
        gpu.log == old(gpu.log) + TeardownEvents(old(Held())) + [Destroyed(Kind.Surface, surface), Destroyed(Kind.Swapchain, swapchain.handle)]
    {
      prepared := false;
      Teardown();
      gpu.Destroy(Kind.Surface, surface);
      if swapchain != null {
        swapchain.Release();
      }
    }
  }
}

=== FILE: device.dfy ===
/** QVkDevice: the logical device, created with a single queue, and its memory-type
    search over the physical device's memory properties. */
module Device {
  import opened VkTypes
  import opened MemoryTypes

  datatype QueueCreateInfo = QueueCreateInfo(queueFamilyIndex: nat, queueCount: nat)

  datatype DeviceCreateInfo = DeviceCreateInfo(
    queueCreateInfos: seq<QueueCreateInfo>,
    enabledLayerNames: seq<string>,
    enabledExtensionNames: seq<string>)

  /** The create-info of the constructor: one queue of the graphics family, and the
      caller's layers and extensions. */
  function DeviceCreateInfoFor(graphicsQueueIndex: U32, layers: seq<string>, extensions: seq<string>): (ci: DeviceCreateInfo)
    ensures |ci.queueCreateInfos| == 1
    ensures forall q <- ci.queueCreateInfos :: q.queueFamilyIndex == graphicsQueueIndex && q.queueCount == 1
    ensures ci.enabledLayerNames == layers && ci.enabledExtensionNames == extensions
  {
    DeviceCreateInfo([QueueCreateInfo(graphicsQueueIndex, 1)], layers, extensions)
  }

  class Device {
    const handle: Handle
    const createInfo: DeviceCreateInfo
    /** Read once, at construction, and never written again. */
    const memoryProperties: MemoryTypeTable

    /** `device` and `memoryProperties` are what vkCreateDevice and
        vkGetPhysicalDeviceMemoryProperties hand back. */
    constructor (physicalDevice: Handle, graphicsQueueIndex: U32, layers: seq<string>, extensions: seq<string>,
                 device: Handle, memoryProperties: MemoryTypeTable)
      requires physicalDevice != NullHandle
      ensures createInfo == DeviceCreateInfoFor(graphicsQueueIndex, layers, extensions)
      ensures handle == device && this.memoryProperties == memoryProperties
    {
      createInfo := DeviceCreateInfoFor(graphicsQueueIndex, layers, extensions);
      handle := device;
      this.memoryProperties := memoryProperties;
    }

    /** Walks i = 0..31, testing the low bit of `typeBits` and shifting it right after
        each index; returns the first allowed index whose flags include `requirements`. */
    method MemoryType(typeBits: U32, requirements: Flags) returns (index: int)
      ensures index == LowestQualifying(memoryProperties, typeBits, requirements)
    {
      var bits: nat := typeBits;
      var i: nat := 0;
      while i < MAX_MEMORY_TYPES
        invariant i <= MAX_MEMORY_TYPES
        invariant bits == Shifted(typeBits, i)
        invariant LowestQualifying(memoryProperties, typeBits, requirements)
               == FirstQualifyingFrom(memoryProperties, typeBits, requirements, i)
      {
        if bits % 2 == 1 {
          if memoryProperties[i] & requirements == requirements {
            return i;
          }
        }
        bits := bits / 2;
        i := i + 1;
      }
      return -1;
    }
  }
}

=== FILE: gpu.dfy ===
/** The driver, as the demo sees it: a source of fresh opaque handles and a log of the
    calls made on it. Nothing of what the GPU does with a call is modelled; each
    create or allocate call hands out a handle never seen before, each destroy or free call
    retires one, and every other call is appended to the log in program order. */
module Gpu {
  import opened VkTypes

  /** The kind of object a handle names. */
  datatype Kind =
    | CommandPool | CommandBuffer | Swapchain | Image | ImageView | DeviceMemory
    | Sampler | Framebuffer | DescriptorPool | DescriptorSetLayout | PipelineLayout
    | RenderPass | Pipeline | PipelineCache | Buffer | Surface | ShaderModule

  datatype SubresourceRange = SubresourceRange(
    aspectMask: Flags, baseMipLevel: nat, levelCount: nat, baseArrayLayer: nat, layerCount: nat)

  /** VkImageMemoryBarrier; the queue family fields are those of a zero-initialised struct. */
  datatype ImageBarrier = ImageBarrier(
    srcAccessMask: Flags,
    dstAccessMask: Flags,
    oldLayout: ImageLayout,
    newLayout: ImageLayout,
    srcQueueFamilyIndex: nat,
    dstQueueFamilyIndex: nat,
    image: Handle,
    subresourceRange: SubresourceRange)

  datatype Color = Rgba(red: real, green: real, blue: real, alpha: real)

  datatype ClearValue = ClearColor(color: Color) | ClearDepthStencil(depth: real, stencil: nat)

  datatype SubpassContents = Inline | SecondaryCommandBuffers

  datatype BindPoint = Graphics | Compute

  /** The vkCmd* calls a recorder can make. Viewports carry floats and are kept by count. */
  datatype Command =
    | SetViewport(firstViewport: nat, viewportCount: nat)
    | SetScissor(firstScissor: nat, scissors: seq<Rect2D>)
    | Draw(vertexCount: nat, instanceCount: nat, firstVertex: nat, firstInstance: nat)
    | BeginRenderPass(renderPass: Handle, framebuffer: Handle, renderArea: Rect2D,
                      clearValues: seq<ClearValue>, contents: SubpassContents)
    | EndRenderPass
    | BindPipeline(bindPoint: BindPoint, pipeline: Handle)
    | BindDescriptorSets(bindPoint: BindPoint, layout: Handle, firstSet: nat,
                         sets: seq<Handle>, dynamicOffsets: seq<nat>)
    | PipelineBarrier(srcStageMask: Flags, dstStageMask: Flags, dependencyFlags: Flags,
                      memoryBarrierCount: nat, bufferMemoryBarrierCount: nat,
                      imageBarriers: seq<ImageBarrier>)
    | CopyImage(srcImage: Handle, srcLayout: ImageLayout, dstImage: Handle, dstLayout: ImageLayout)

  /** One driver call, or one call into code outside the model (a Hook). */
  datatype Event =
    | Created(kind: Kind, handle: Handle)
    | Destroyed(kind: Kind, handle: Handle)
    | SemaphoreCreated(semaphore: Handle)
    | SemaphoreDestroyed(semaphore: Handle)
    | Begun(cb: Handle, usage: Flags)
    | Ended(cb: Handle)
    | Recorded(cb: Handle, command: Command)
    | Submitted(cb: Handle, waitSemaphore: Handle)
    | QueueWaitedIdle
    | ImagesQueried(swapchain: Handle)
    | Acquired(swapchain: Handle, semaphore: Handle, result: VkResult)
    | Presented(swapchain: Handle, imageIndex: nat, result: VkResult)
    | MemoryBound(target: Handle, memory: Handle)
    | Mapped(memory: Handle, size: nat)
    | CopiedToMapping(memory: Handle, bytes: seq<bv8>)
    | Unmapped(memory: Handle)
    | Hook(name: string, argument: Handle)

  /** Holds of every handle. The handle invariant below quantifies over it, so that
      the invariant is unfolded only where a proof names a handle through it (the
      driver's own methods) and stays folded in every caller. */
  ghost predicate Issued(h: Handle) { true }

  class Gpu {
    /** Every call made so far, oldest first. */
    var log: seq<Event>
    /** The next handle the driver will hand out. */
    var next: nat
    /** Handles created and not yet destroyed (semaphores are kept apart). */
    var live: set<Handle>
    var semaphores: set<Handle>

    ghost predicate Valid()
      reads this`next, this`live, this`semaphores
    {
      0 < next && NullHandle !in live && NullHandle !in semaphores &&
      forall h: Handle {:trigger Issued(h)} :: Issued(h) ==>
        (h in live || h in semaphores ==> h < next) && !(h in live && h in semaphores)
    }

    constructor ()
      ensures Valid() && log == [] && live == {} && semaphores == {}
    {
      log, next, live, semaphores := [], 1, {}, {};
    }

    /** A vkCreate or vkAllocate call: a handle nobody holds yet. */
    method Create(kind: Kind) returns (h: Handle)
      requires Valid()
      modifies this`log, this`next, this`live
      ensures Valid()
      ensures h == old(next) && h != NullHandle && h !in old(live) && h !in semaphores
      ensures next == old(next) + 1 && live == old(live) + {h}
      ensures log == old(log) + [Created(kind, h)]
    {
      h := next;
      assert Issued(h);
      next := next + 1;
      live := live + {h};
      log := log + [Created(kind, h)];
    }

    /** A vkDestroy or vkFree call (Vulkan accepts VK_NULL_HANDLE here). */
    method Destroy(kind: Kind, h: Handle)
      requires Valid()
      modifies this`log, this`live
      ensures Valid()
      ensures live == old(live) - {h}
      ensures log == old(log) + [Destroyed(kind, h)]
    {
      live := live - {h};
      log := log + [Destroyed(kind, h)];
    }

    method CreateSemaphore() returns (s: Handle)
      requires Valid()
      modifies this`log, this`next, this`semaphores
      ensures Valid()
      ensures s == old(next) && s != NullHandle && s !in old(semaphores) && s !in live
      ensures next == old(next) + 1 && semaphores == old(semaphores) + {s}
      ensures log == old(log) + [SemaphoreCreated(s)]
    {
      s := next;
      assert Issued(s);
      next := next + 1;
      semaphores := semaphores + {s};
      log := log + [SemaphoreCreated(s)];
    }

    method DestroySemaphore(s: Handle)
      requires Valid()
      modifies this`log, this`semaphores
      ensures Valid()
      ensures semaphores == old(semaphores) - {s}
      ensures log == old(log) + [SemaphoreDestroyed(s)]
    {
      semaphores := semaphores - {s};
      log := log + [SemaphoreDestroyed(s)];
    }

    /** Any call that neither creates nor destroys an object. */
    method Call(e: Event)
      modifies this`log
      ensures log == old(log) + [e]
    {
      log := log + [e];
    }
  }

  /** Every live handle was handed out before the driver's next one, so a handle
      created later is none of them. */
  lemma LiveBelowNext(g: Gpu)
    requires g.Valid()
    ensures forall h :: h in g.live ==> h < g.next
  {
    forall h | h in g.live
      ensures h < g.next
    {
      assert Issued(h);
    }
  }
}

=== FILE: image.dfy ===
/** QVkImage, QVkDepthImage and QVkImageView: thin owners of one VkImage or VkImageView
    built from a create-info record. */
module Image {
  import opened VkTypes
  import opened Gpu

  datatype ImageType = Type1D | Type2D | Type3D
  datatype ImageViewType = View1D | View2D | View3D | ViewCube

  datatype Extent3D = Extent3D(width: nat, height: nat, depth: nat)

  /** VkImageCreateInfo */
  datatype ImageCreateInfo = ImageCreateInfo(
    imageType: ImageType,
    format: Format,
    extent: Extent3D,
    mipLevels: nat,
    arrayLayers: nat,
    samples: Flags,
    tiling: ImageTiling,
    usage: Flags,
    flags: Flags,
    initialLayout: ImageLayout)

  /** A 2D image of depth 1 with no creation flags; everything else from the arguments. */
  function ImageCreateInfoFor(format: Format, width: U32, height: U32, usage: Flags, mipLevels: U32,
                              arrayLayers: U32, samples: Flags, tiling: ImageTiling, initialLayout: ImageLayout)
    : (ci: ImageCreateInfo)
    ensures ci.imageType == Type2D && ci.extent == Extent3D(width, height, 1) && ci.flags == 0
    ensures ci.format == format && ci.usage == usage && ci.tiling == tiling && ci.samples == samples
    ensures ci.mipLevels == mipLevels && ci.arrayLayers == arrayLayers && ci.initialLayout == initialLayout
  {
    ImageCreateInfo(Type2D, format, Extent3D(width, height, 1), mipLevels, arrayLayers, samples, tiling, usage, 0, initialLayout)
  }

  /** The create-info of QVkDepthImage: the image constructor's defaults with D16_UNORM
      and depth-stencil-attachment usage. */
  function DepthImageCreateInfo(width: U32, height: U32): (ci: ImageCreateInfo)
    ensures ci.format == D16Unorm && ci.usage == IMAGE_USAGE_DEPTH_STENCIL_ATTACHMENT_BIT
    ensures ci.imageType == Type2D && ci.extent == Extent3D(width, height, 1)
    ensures ci.mipLevels == 1 && ci.arrayLayers == 1 && ci.samples == SAMPLE_COUNT_1_BIT
    ensures ci.tiling == TilingOptimal && ci.initialLayout == Undefined
  {
    ImageCreateInfoFor(D16Unorm, width, height, IMAGE_USAGE_DEPTH_STENCIL_ATTACHMENT_BIT, 1, 1, SAMPLE_COUNT_1_BIT,
                       TilingOptimal, Undefined)
  }

  /** VkImageViewCreateInfo */
  datatype ImageViewCreateInfo = ImageViewCreateInfo(
    image: Handle,
    viewType: ImageViewType,
    format: Format,
    subresourceRange: SubresourceRange,
    flags: Flags)

  /** QVkImageView always views the depth aspect of one mip level and one layer, as a 2D
      view in the image's own format. */
  function ImageViewCreateInfoFor(image: Handle, format: Format): (ci: ImageViewCreateInfo)
    ensures ci.image == image && ci.format == format && ci.viewType == View2D && ci.flags == 0
    ensures ci.subresourceRange == SubresourceRange(IMAGE_ASPECT_DEPTH_BIT, 0, 1, 0, 1)
  {
    ImageViewCreateInfo(image, View2D, format, SubresourceRange(IMAGE_ASPECT_DEPTH_BIT, 0, 1, 0, 1), 0)
  }

  class Image {
    const gpu: Gpu
    /** m_image */
    const handle: Handle
    /** m_format and m_layout: set by the constructor and never written again. */
    const format: Format
    const layout: ImageLayout
    const createInfo: ImageCreateInfo

    /** The fields the getters read agree with what the image was created from. */
    predicate Valid()
    {
      format == createInfo.format && layout == createInfo.initialLayout
    }

    constructor (gpu: Gpu, format: Format, width: U32, height: U32, usage: Flags, mipLevels: U32 := 1,
                 arrayLayers: U32 := 1, samples: Flags := SAMPLE_COUNT_1_BIT, tiling: ImageTiling := TilingOptimal,
                 initialLayout: ImageLayout := Undefined)
      requires gpu.Valid()
      modifies gpu`log, gpu`next, gpu`live
      ensures gpu.Valid() && this.gpu == gpu && Valid()
      ensures createInfo == ImageCreateInfoFor(format, width, height, usage, mipLevels, arrayLayers, samples, tiling, initialLayout)
      ensures this.format == format && layout == initialLayout
      ensures handle != NullHandle && handle !in old(gpu.live) && handle !in gpu.semaphores
      ensures gpu.live == old(gpu.live) + {handle}
      ensures gpu.log == old(gpu.log) + [Created(Kind.Image, handle)]
    {
      this.gpu := gpu;
      this.format := format;
      this.layout := initialLayout;
      this.createInfo := ImageCreateInfoFor(format, width, height, usage, mipLevels, arrayLayers, samples, tiling, initialLayout);
      var h := gpu.Create(Kind.Image);
      this.handle := h;
    }

    /** layout(): the layout the image was created in. */
    function Layout(): (l: ImageLayout)
      requires Valid()
      ensures l == createInfo.initialLayout
    {
      layout
    }

    /** format(): the format the image was created with. */
    function Format(): (f: Format)
      requires Valid()
      ensures f == createInfo.format
    {
      format
    }
  }

  /** QVkDepthImage(dev, width, height). */
  method NewDepthImage(gpu: Gpu, width: U32, height: U32) returns (image: Image)
    requires gpu.Valid()
    modifies gpu`log, gpu`next, gpu`live
    ensures fresh(image) && image.gpu == gpu && gpu.Valid() && image.Valid()
    ensures image.createInfo == DepthImageCreateInfo(width, height)
    ensures image.Format() == D16Unorm && image.Layout() == Undefined
    ensures gpu.live == old(gpu.live) + {image.handle} && image.handle !in old(gpu.live)
    ensures gpu.log == old(gpu.log) + [Created(Kind.Image, image.handle)]
  {
    image := new Image(gpu, D16Unorm, width, height, IMAGE_USAGE_DEPTH_STENCIL_ATTACHMENT_BIT);
  }

  /** A view made by QVkImageView of a depth image views exactly what that image holds:
      the aspect is depth, the format is D16_UNORM and the image is usable as a
      depth-stencil attachment. */
  lemma DepthViewMatchesDepthImage(image: Handle, width: U32, height: U32)
    ensures var ci := DepthImageCreateInfo(width, height);
            var vi := ImageViewCreateInfoFor(image, ci.format);
            vi.format == D16Unorm && vi.subresourceRange.aspectMask == IMAGE_ASPECT_DEPTH_BIT &&
            HasBits(ci.usage, IMAGE_USAGE_DEPTH_STENCIL_ATTACHMENT_BIT) &&
            vi.subresourceRange.levelCount == ci.mipLevels && vi.subresourceRange.layerCount == ci.arrayLayers
  {
  }

  class ImageView {
    const gpu: Gpu
    /** m_view */
    const handle: Handle
    const createInfo: ImageViewCreateInfo

    constructor (gpu: Gpu, image: Image)
      requires gpu.Valid() && image.Valid()
      modifies gpu`log, gpu`next, gpu`live
      ensures gpu.Valid() && this.gpu == gpu
      ensures createInfo == ImageViewCreateInfoFor(image.handle, image.Format())
      ensures handle != NullHandle && handle !in old(gpu.live) && handle !in gpu.semaphores
      ensures gpu.live == old(gpu.live) + {handle}
      ensures gpu.log == old(gpu.log) + [Created(Kind.ImageView, handle)]
    {
      this.gpu := gpu;
      this.createInfo := ImageViewCreateInfoFor(image.handle, image.Format());
      var h := gpu.Create(Kind.ImageView);
      this.handle := h;
    }

    /** The destructor destroys this view and nothing else. */
    method Release()
      requires gpu.Valid()
      modifies gpu`log, gpu`live
      ensures gpu.Valid()
      ensures gpu.live == old(gpu.live) - {handle}
      ensures gpu.log == old(gpu.log) + [Destroyed(Kind.ImageView, handle)]
    {
      gpu.Destroy(Kind.ImageView, handle);
    }
  }
}

=== FILE: info_model.dfy ===
/** The tree behind QVulkanInfoModel (cube/qvulkaninfomodel.cpp): TreeItem nodes that
    own an ordered child list and point back at their parent, the five-group tree
    setupModelData builds from what the instance reports, and the rowCount, columnCount
    and parent rules the Qt view asks the model. */
module InfoModel {
  import opened VkTypes
  import opened Wrappers
  import InstanceCube

  /** The QVariant cells of an item: an invalid QVariant, a string or a number. */
  datatype Value = Null | Text(text: string) | Number(number: int)

  /** QList::indexOf: the first position of `x` in `s`, or -1 when it is absent. */
  function IndexOf<T(==)>(s: seq<T>, x: T): (r: int)
    ensures -1 <= r < |s|
    ensures r == -1 <==> x !in s
    ensures 0 <= r ==> s[r] == x && forall k :: 0 <= k < r ==> s[k] != x
  {
    if |s| == 0 then -1
    else if s[0] == x then 0
    else
      var r := IndexOf(s[1..], x);
      if r == -1 then -1 else r + 1
  }

  class TreeItem {
    var children: seq<TreeItem>
    const itemData: seq<Value>
    var parent: TreeItem?

    constructor (data: seq<Value>, parentItem: TreeItem?)
      ensures itemData == data && parent == parentItem && children == []
    {
      itemData := data;
      parent := parentItem;
      children := [];
    }

    /** appendChild: the child now names this item as its parent and comes last. */
    method AppendChild(child: TreeItem)
      modifies this`children, child`parent
      ensures child.parent == this
      ensures children == old(children) + [child]
      ensures ChildCount() == old(ChildCount()) + 1 && Child(old(ChildCount())) == child
    {
      child.parent := this;
      children := children + [child];
    }

    /** child(row): QList::value, so null for a row outside the list. */
    function Child(row: int): (c: TreeItem?)
      reads this`children
      ensures c == null <==> !(0 <= row < |children|)
      ensures c != null ==> c == children[row]
    {
      if 0 <= row < |children| then children[row] else null
    }

    function ChildCount(): nat
      reads this`children
    {
      |children|
    }

    function ColumnCount(): nat
    {
      |itemData|
    }

    /** data(column): QList::value, so an invalid QVariant for a column outside the list. */
    function Data(column: int): (v: Value)
      ensures 0 <= column < ColumnCount() ==> v == itemData[column]
      ensures !(0 <= column < ColumnCount()) ==> v == Null
    {
      if 0 <= column < |itemData| then itemData[column] else Null
    }

    /** row(): where this item sits in its parent's child list (-1 when the parent does
        not list it), and 0 for an item without a parent. */
    function Row(): (r: int)
      reads this`parent, parent
      ensures parent == null ==> r == 0
      ensures parent != null ==> (r == -1 <==> this !in parent.children)
      ensures parent != null && 0 <= r ==>
        r < |parent.children| && parent.children[r] == this &&
        forall k :: 0 <= k < r ==> parent.children[k] != this
    {
      if parent != null then IndexOf(parent.children, this) else 0
    }
  }

  /** Holds of every item. Tree below quantifies over it, so that Tree is unfolded only
      where a proof names an item through it (Graft and Linked) and stays folded in the
      methods that build the tree. */
  ghost predicate Item(t: TreeItem) { true }

  /** `S` is the set of items of a tree rooted at `r`: closed under children, every
      item other than `r` listed by its parent, every child pointing back at the item
      that lists it, and no child listed twice. */
  ghost predicate Tree(r: TreeItem, S: set<TreeItem>)
    reads S
  {
    r in S &&
    forall t {:trigger Item(t)} :: Item(t) && t in S ==>
      (t != r ==> t.parent != null && t.parent in S && t in t.parent.children) &&
      (forall i :: 0 <= i < |t.children| ==> t.children[i] in S && t.children[i].parent == t) &&
      (forall i, j :: 0 <= i < j < |t.children| ==> t.children[i] != t.children[j])
  }

  /** What Tree says about one of its items. */
  lemma Linked(r: TreeItem, S: set<TreeItem>, t: TreeItem)
    requires Tree(r, S) && t in S
    ensures t != r ==> t.parent != null && t.parent in S && t in t.parent.children
    ensures forall i :: 0 <= i < |t.children| ==> t.children[i] in S && t.children[i].parent == t
    ensures forall i, j :: 0 <= i < j < |t.children| ==> t.children[i] != t.children[j]
  {
    assert Item(t);
  }

  /** Appends the tree `B` rooted at `c` under the item `p` of the tree `A` rooted at `r`. */
  method Graft(r: TreeItem, ghost A: set<TreeItem>, p: TreeItem, c: TreeItem, ghost B: set<TreeItem>)
    requires Tree(r, A) && p in A && Tree(c, B) && A !! B && c.parent == null
    modifies p`children, c`parent
    ensures Tree(r, A + B)
    ensures p.children == old(p.children) + [c] && c.parent == p
  {
    p.AppendChild(c);
  }

  /** A fresh item without children or parent. */
  method Leaf(data: seq<Value>) returns (t: TreeItem, ghost S: set<TreeItem>)
    ensures fresh(t) && S == {t} && Tree(t, S)
    ensures t.parent == null && t.itemData == data && t.children == []
  {
    t := new TreeItem(data, null);
    S := {t};
  }

  // ---------------------------------------------------------------- device nodes

  /** What DeviceNode reads from VkPhysicalDeviceProperties. */
  datatype DeviceProperties = DeviceProperties(
    deviceName: string, deviceType: nat, deviceID: U32, apiVersion: U32, vendorID: U32,
    bufferImageGranularity: nat)

  /** The rows under a device node, in the order the node appends them; the limits row
      is the last. */
  function DeviceRows(p: DeviceProperties): (rows: seq<seq<Value>>)
    ensures |rows| == 5 && rows[4] == [Text("limits"), Text("value")]
  {
    [[Text("deviceType"), Number(p.deviceType)],
     [Text("deviceID"), Number(p.deviceID)],
     [Text("apiVersion"), Number(p.apiVersion)],
     [Text("vendorID"), Number(p.vendorID)],
     [Text("limits"), Text("value")]]
  }

  /** The one row under the limits node; the 64-bit VkDeviceSize is cast to a 32-bit
      unsigned int, which keeps its low 32 bits. */
  function LimitsRow(p: DeviceProperties): (row: seq<Value>)
    ensures |row| == 2 && row[0] == Text("bufferImageGranularity")
    ensures row[1].Number? && 0 <= row[1].number <= UINT32_MAX
    ensures p.bufferImageGranularity <= UINT32_MAX ==> row[1] == Number(p.bufferImageGranularity)
  {
    [Text("bufferImageGranularity"), Number(p.bufferImageGranularity % (UINT32_MAX + 1))]
  }

  /** LimitsNode: a "limits" item holding the granularity row. */
  method LimitsNode(p: DeviceProperties) returns (n: TreeItem, ghost S: set<TreeItem>)
    ensures fresh(S) && Tree(n, S) && n.parent == null
    ensures n.itemData == [Text("limits"), Text("value")]
    ensures |n.children| == 1 && n.children[0].itemData == LimitsRow(p)
  {
    n := new TreeItem([Text("limits"), Text("value")], null);
    S := {n};
    var leaf, L := Leaf(LimitsRow(p));
    Graft(n, S, n, leaf, L);
    S := S + L;
  }

  /** DeviceNode: an item named after the device with its four property rows and the
      limits node below it. */
  method DeviceNode(p: DeviceProperties) returns (n: TreeItem, ghost S: set<TreeItem>)
    ensures fresh(S) && Tree(n, S) && n.parent == null
    ensures n.itemData == [Text(p.deviceName), Text("value")]
    ensures |n.children| == 5 && forall i :: 0 <= i < 5 ==> n.children[i].itemData == DeviceRows(p)[i]
    ensures |n.children[4].children| == 1 && n.children[4].children[0].itemData == LimitsRow(p)
  {
    var rows := DeviceRows(p);
    n := new TreeItem([Text(p.deviceName), Text("value")], null);
    S := {n};
    for i := 0 to 4
      invariant fresh(S) && Tree(n, S) && n.parent == null
      invariant n.itemData == [Text(p.deviceName), Text("value")]
      invariant |n.children| == i && forall k :: 0 <= k < i ==> n.children[k].itemData == rows[k]
    {
      var leaf, L := Leaf(rows[i]);
      Graft(n, S, n, leaf, L);
      S := S + L;
    }
    var limits, L := LimitsNode(p);
    Graft(n, S, n, limits, L);
    S := S + L;
  }

  // ---------------------------------------------------------------- setupModelData

  /** What setupModelData asks the instance for, one field per accessor it calls:
      enabledLayerNames, enabledExtensionNames, availableLayers, availableExtensions, and
      `devices[j]` the properties of whatever `device(j)` answers for each j below
      numDevices. cube/qvkinstance.h declares none of the first four accessors nor
      numDevices, so their answers are parameters; DevicesShown gives what the cube's
      own `device(j)` answers. */
  datatype InstanceInfo = InstanceInfo(
    enabledLayers: seq<string>,
    enabledExtensions: seq<string>,
    availableLayers: seq<LayerProperties>,
    availableExtensions: seq<ExtensionProperties>,
    devices: seq<DeviceProperties>)

  const GROUP_COUNT := 5

  /** The cells of the k-th top-level item. */
  function GroupData(k: nat): (d: seq<Value>)
    requires k < GROUP_COUNT
    ensures |d| == 2 && d[0].Text?
  {
    [[Text("enabled layers"), Text("")],
     [Text("enabled extensions"), Text("")],
     [Text("available layers"), Text("")],
     [Text("available extensions"), Text("")],
     [Text("devices"), Text("available physical devices")]][k]
  }

  /** One row per name, the name in the first column and an empty string in the second. */
  function NameRows(names: seq<string>): (rows: seq<seq<Value>>)
    ensures |rows| == |names|
    ensures forall i :: 0 <= i < |names| ==> rows[i] == [Text(names[i]), Text("")]
  {
    seq(|names|, i requires 0 <= i < |names| => [Text(names[i]), Text("")])
  }

  function LayerNames(layers: seq<LayerProperties>): (names: seq<string>)
    ensures |names| == |layers| && forall i :: 0 <= i < |layers| ==> names[i] == layers[i].layerName
  {
    seq(|layers|, i requires 0 <= i < |layers| => layers[i].layerName)
  }

  function ExtensionNames(extensions: seq<ExtensionProperties>): (names: seq<string>)
    ensures |names| == |extensions| && forall i :: 0 <= i < |extensions| ==> names[i] == extensions[i].extensionName
  {
    seq(|extensions|, i requires 0 <= i < |extensions| => extensions[i].extensionName)
  }

  /** The cells of each child of the k-th top-level item, one per element of the list
      that group shows. */
  function GroupRows(info: InstanceInfo, k: nat): (rows: seq<seq<Value>>)
    requires k < GROUP_COUNT
    ensures k == 4 ==>
      |rows| == |info.devices| &&
      forall i :: 0 <= i < |rows| ==> rows[i] == [Text(info.devices[i].deviceName), Text("value")]
  {
    if k == 0 then NameRows(info.enabledLayers)
    else if k == 1 then NameRows(info.enabledExtensions)
    else if k == 2 then NameRows(LayerNames(info.availableLayers))
    else if k == 3 then NameRows(ExtensionNames(info.availableExtensions))
    else seq(|info.devices|, i requires 0 <= i < |info.devices| => [Text(info.devices[i].deviceName), Text("value")])
  }

  /** `g` carries the cells `data` and has one child per row of `rows`, carrying it. */
  ghost predicate Lists(g: TreeItem, data: seq<Value>, rows: seq<seq<Value>>)
    reads g`children
  {
    g.itemData == data && |g.children| == |rows| &&
    forall i :: 0 <= i < |rows| ==> g.children[i].itemData == rows[i]
  }

  /** One of the four list groups: a group item with one child per name. */
  method ListGroup(data: seq<Value>, names: seq<string>, ghost existing: set<TreeItem>)
    returns (g: TreeItem, ghost S: set<TreeItem>)
    ensures fresh(S) && S !! existing && Tree(g, S) && g.parent == null
    ensures Lists(g, data, NameRows(names))
  {
    g, S := Leaf(data);
    var rows := NameRows(names);
    for i := 0 to |names|
      invariant fresh(S) && Tree(g, S) && g.parent == null
      invariant g.itemData == data && |g.children| == i
      invariant forall k :: 0 <= k < i ==> g.children[k].itemData == rows[k]
    {
      var leaf, L := Leaf(rows[i]);
      Graft(g, S, g, leaf, L);
      S := S + L;
    }
  }

  /** The devices group: a group item with one device node per entry of `devices`, in
      order, the j-th showing what `device(j)` answered. */
  method DeviceGroup(devices: seq<DeviceProperties>, ghost existing: set<TreeItem>)
    returns (g: TreeItem, ghost S: set<TreeItem>)
    ensures fresh(S) && S !! existing && Tree(g, S) && g.parent == null
    ensures Lists(g, GroupData(4), seq(|devices|, i requires 0 <= i < |devices| => [Text(devices[i].deviceName), Text("value")]))
    ensures forall i :: 0 <= i < |devices| ==> |g.children[i].children| == 5
  {
    g, S := Leaf(GroupData(4));
    for j := 0 to |devices|
      invariant fresh(S) && Tree(g, S) && g.parent == null
      invariant g.itemData == GroupData(4) && |g.children| == j
      invariant forall k :: 0 <= k < j ==>
        g.children[k].itemData == [Text(devices[k].deviceName), Text("value")] &&
        |g.children[k].children| == 5
    {
      var node, D := DeviceNode(devices[j]);
      Graft(g, S, g, node, D);
      S := S + D;
    }
  }

  /** A list group built by ListGroup and appended to `root`. */
  method AppendListGroup(root: TreeItem, ghost S: set<TreeItem>, data: seq<Value>, names: seq<string>)
    returns (ghost S': set<TreeItem>)
    requires Tree(root, S)
    modifies root`children
    ensures Tree(root, S') && |root.children| == |old(root.children)| + 1
    ensures root.children[|old(root.children)|] != root
    ensures root.children[..|old(root.children)|] == old(root.children)
    ensures Lists(root.children[|old(root.children)|], data, NameRows(names))
  {
    var g, G := ListGroup(data, names, S);
    Graft(root, S, root, g, G);
    S' := S + G;
  }

  /** The devices group built by DeviceGroup and appended to `root`. */
  method AppendDeviceGroup(root: TreeItem, ghost S: set<TreeItem>, devices: seq<DeviceProperties>)
    returns (ghost S': set<TreeItem>)
    requires Tree(root, S)
    modifies root`children
    ensures Tree(root, S') && |root.children| == |old(root.children)| + 1
    ensures root.children[|old(root.children)|] != root
    ensures root.children[..|old(root.children)|] == old(root.children)
    ensures Lists(root.children[|old(root.children)|], GroupData(4), seq(|devices|, i requires 0 <= i < |devices| => [Text(devices[i].deviceName), Text("value")]))
  {
    var g, G := DeviceGroup(devices, S);
    Graft(root, S, root, g, G);
    S' := S + G;
  }

  /** The `devices` setupModelData reads when `device(j)` is the cube's
      QVkInstance::device over the enumeration `handles`, and `props` gives a handle's
      properties: None when a call stops the program on an empty enumeration. Since
      device(j) ignores j, every node shows the first enumerated device. */
  function DevicesShown(numDevices: nat, handles: seq<Handle>, props: Handle -> DeviceProperties)
    : (r: Option<seq<DeviceProperties>>)
    ensures r.None? <==> numDevices > 0 && |handles| == 0
    ensures r.Some? ==> |r.value| == numDevices
    ensures r.Some? ==> forall j :: 0 <= j < numDevices ==> r.value[j] == props(handles[0])
  {
    if numDevices > 0 && |handles| == 0 then None
    else
      var ds := seq(numDevices, j requires 0 <= j < numDevices =>
        props(InstanceCube.PhysicalDeviceAt(ToU32(j), handles).value));
      assert forall j :: 0 <= j < numDevices ==>
        InstanceCube.PhysicalDeviceAt(ToU32(j), handles).value == handles[0];
      Some(ds)
  }

  /** With the cube's instance, the devices group repeats the first enumerated device's
      name on every one of its numDevices rows. */
  lemma DeviceGroupRepeatsFirst(info: InstanceInfo, numDevices: nat, handles: seq<Handle>,
                                props: Handle -> DeviceProperties)
    requires DevicesShown(numDevices, handles, props) == Some(info.devices)
    ensures numDevices > 0 ==> |handles| > 0
    ensures |GroupRows(info, 4)| == numDevices
    ensures forall j :: 0 <= j < numDevices ==>
      GroupRows(info, 4)[j] == [Text(props(handles[0]).deviceName), Text("value")]
  {
  }

  /** So a second device whose name differs from the first's never appears in the
      devices group, although numDevices may count it. */
  lemma SecondDeviceNeverShown(info: InstanceInfo, numDevices: nat, handles: seq<Handle>,
                               props: Handle -> DeviceProperties)
    requires DevicesShown(numDevices, handles, props) == Some(info.devices)
    requires |handles| >= 2 && props(handles[1]).deviceName != props(handles[0]).deviceName
    ensures forall j :: 0 <= j < |GroupRows(info, 4)| ==>
      GroupRows(info, 4)[j][0] != Text(props(handles[1]).deviceName)
  {
    DeviceGroupRepeatsFirst(info, numDevices, handles, props);
  }

  /** setupModelData: the five groups appended to `root` in their fixed order, each with
      one child per element of the list it shows. */
  method SetupModelData(info: InstanceInfo, root: TreeItem, ghost S: set<TreeItem>)
    returns (ghost S': set<TreeItem>)
    requires Tree(root, S)
    modifies root`children
    ensures Tree(root, S')
    ensures |root.children| == |old(root.children)| + GROUP_COUNT
    ensures root.children[..|old(root.children)|] == old(root.children)
    ensures forall k :: 0 <= k < GROUP_COUNT ==>
      Lists(root.children[|old(root.children)| + k], GroupData(k), GroupRows(info, k))
  {
    var n := |root.children|;
    S' := AppendListGroup(root, S, GroupData(0), info.enabledLayers);
    S' := AppendListGroup(root, S', GroupData(1), info.enabledExtensions);
    S' := AppendListGroup(root, S', GroupData(2), LayerNames(info.availableLayers));
    S' := AppendListGroup(root, S', GroupData(3), ExtensionNames(info.availableExtensions));
    S' := AppendDeviceGroup(root, S', info.devices);
  }

  // ---------------------------------------------------------------- the Qt model

  /** A QModelIndex: invalid, or a row and column naming an item. */
  datatype ModelIndex = Invalid | Index(row: int, column: int, item: TreeItem) {
    /** QModelIndex::column, -1 for an invalid index. */
    function Column(): int {
      if Invalid? then -1 else column
    }
  }

  class QVulkanInfoModel {
    var root: TreeItem
    ghost var Repr: set<TreeItem>

    ghost predicate Valid()
      reads this, Repr
    {
      Tree(root, Repr) && root.parent == null
    }

    /** The five groups, each listing exactly the elements of what the instance
        reported, under a header item with "Element" and "Summary". */
    ghost predicate Shows(info: InstanceInfo)
      reads this, Repr
      requires Valid()
    {
      root.itemData == [Text("Element"), Text("Summary")] &&
      |root.children| == GROUP_COUNT &&
      forall k :: 0 <= k < GROUP_COUNT ==>
        root.children[k] in Repr &&
        Lists(root.children[k], GroupData(k), GroupRows(info, k)) &&
        forall i :: 0 <= i < |root.children[k].children| ==> root.children[k].children[i] in Repr
    }

    constructor (info: InstanceInfo)
      ensures Valid() && Shows(info)
    {
      var r := new TreeItem([Text("Element"), Text("Summary")], null);
      root := r;
      new;
      Repr := SetupModelData(info, r, {r});
      Linked(r, Repr, r);
      forall k | 0 <= k < GROUP_COUNT {
        Linked(r, Repr, r.children[k]);
      }
    }

    /** columnCount: the cells of the item the index names, or of the header item. */
    function ColumnCount(parent: ModelIndex): (n: nat)
      reads this, Repr
      requires Valid() && (parent.Index? ==> parent.item in Repr)
      ensures parent.Invalid? ==> n == |root.itemData|
      ensures parent.Index? ==> n == |parent.item.itemData|
    {
      if parent.Index? then parent.item.ColumnCount() else root.ColumnCount()
    }

    /** rowCount: no rows under a cell past the first column; the top-level items under
        the invalid index; otherwise the children of the item the index names. */
    function RowCount(parent: ModelIndex): (n: nat)
      reads this, Repr
      requires Valid() && (parent.Index? ==> parent.item in Repr)
      ensures parent.Column() > 0 ==> n == 0
      ensures parent.Invalid? ==> n == |root.children|
      ensures parent.Index? && parent.column <= 0 ==> n == |parent.item.children|
    {
      if parent.Column() > 0 then 0
      else if parent.Invalid? then root.ChildCount()
      else parent.item.ChildCount()
    }

    /** parent(): invalid for the invalid index and for a top-level item; otherwise an
        index in column 0 naming the parent item at its row in the grandparent. */
    function Parent(index: ModelIndex): (p: ModelIndex)
      reads this, Repr
      requires Valid() && (index.Index? ==> index.item in Repr && index.item != root)
      ensures index.Invalid? ==> p.Invalid?
      ensures index.Index? ==>
        (p.Invalid? <==> index.item.parent == root) &&
        (p.Index? ==>
          p.item == index.item.parent && p.column == 0 && p.item in Repr && p.item != root &&
          p.item.parent != null && 0 <= p.row < |p.item.parent.children| && p.item.parent.children[p.row] == p.item)
    {
      if index.Invalid? then Invalid
      else
        Linked(root, Repr, index.item);
        var parentItem := index.item.parent;
        if parentItem == root then Invalid
        else
          Linked(root, Repr, parentItem);
          Index(parentItem.Row(), 0, parentItem)
    }

    /** In a model built from `info`, the invalid index has the five groups as rows, a
        group has one row per element of its list and no parent, and each element names
        its group, at the group's position, as its parent. */
    lemma ShapeOfModel(info: InstanceInfo, k: nat, i: nat)
      requires Valid() && Shows(info) && k < GROUP_COUNT
      ensures RowCount(Invalid) == GROUP_COUNT
      ensures RowCount(Index(k, 0, root.children[k])) == |GroupRows(info, k)|
      ensures Parent(Index(k, 0, root.children[k])) == Invalid
      ensures i < |GroupRows(info, k)| ==>
        Parent(Index(i, 0, root.children[k].children[i])) == Index(k, 0, root.children[k])
    {
      var g := root.children[k];
      Linked(root, Repr, root);
      Linked(root, Repr, g);
      if i < |GroupRows(info, k)| {
        var p := Parent(Index(i, 0, g.children[i]));
        assert root.children[p.row] == g;
      }
    }
  }
}

=== FILE: instance_cube.dfy ===
/** QVkInstance (cube/qvkinstance.cpp): the choice of validation-layer bundle, the
    filtering of instance and device extensions, the debug-report callback and the
    physical-device lookup. Every enumeration the constructor makes is given as the list
    the driver reports; a qFatal or ERR_EXIT ends construction with a `Fatal` outcome. */
module InstanceCube {
  import opened VkTypes
  import opened Wrappers

  const STANDARD_VALIDATION: seq<string> := ["VK_LAYER_LUNARG_standard_validation"]

  const DEFAULT_VALIDATION_LAYERS: seq<string> := [
    "VK_LAYER_GOOGLE_threading",     "VK_LAYER_LUNARG_parameter_validation",
    "VK_LAYER_LUNARG_device_limits", "VK_LAYER_LUNARG_object_tracker",
    "VK_LAYER_LUNARG_image",         "VK_LAYER_LUNARG_core_validation",
    "VK_LAYER_LUNARG_swapchain",     "VK_LAYER_GOOGLE_unique_objects"
  ]

  // ---------------------------------------------------------------- containsAllLayers

  /** What containsAllLayers answers. Its `found` flag is set by the first needle and
      never cleared, so only the first needle is looked up: the answer is true for an
      empty list and otherwise whether the first needle is present. */
  predicate ContainsAllLayersAsWritten(haystack: seq<LayerProperties>, needles: seq<string>) {
    |needles| == 0 || LayerPresent(haystack, needles[0])
  }

  /** containsAllLayers: for each needle, scan the haystack and set `found` on a match;
      give up when `found` is still false after the scan. */
  method ContainsAllLayers(haystack: seq<LayerProperties>, needles: seq<string>) returns (r: bool)
    ensures r == ContainsAllLayersAsWritten(haystack, needles)
  {
    var found := false;
    for j := 0 to |needles|
      invariant found ==> |needles| > 0 && LayerPresent(haystack, needles[0])
      invariant j > 0 ==> found
    {
      for k := 0 to |haystack|
        invariant found ==> |needles| > 0 && LayerPresent(haystack, needles[0])
        invariant j > 0 ==> found
        invariant !found ==> forall i :: 0 <= i < k ==> haystack[i].layerName != needles[j]
      {
        if haystack[k].layerName == needles[j] {
          found := true;
          break;
        }
      }
      if !found {
        return false;
      }
    }
    return true;
  }

  /** The answer agrees with a real subset test on the first needle, and a real subset
      test implies it; the converse fails (see `ContainsAllLayersMissesLaterNeedles`). */
  lemma ContainsAllLayersChecksOnlyFirstNeedle(haystack: seq<LayerProperties>, needles: seq<string>)
    ensures AllLayersPresent(haystack, needles) ==> ContainsAllLayersAsWritten(haystack, needles)
    ensures |needles| > 0 ==>
      (ContainsAllLayersAsWritten(haystack, needles) <==> AllLayersPresent(haystack, needles[..1]))
    ensures |needles| > 0 && !LayerPresent(haystack, needles[0]) ==> !ContainsAllLayersAsWritten(haystack, needles)
    ensures ContainsAllLayersAsWritten(haystack, [])
  {
    if |needles| > 0 {
      assert needles[..1][0] == needles[0];
    }
  }

  /** A haystack holding only the threading layer passes as containing the whole default
      bundle, although seven of its eight layers are missing. */
  lemma ContainsAllLayersMissesLaterNeedles()
    ensures ContainsAllLayersAsWritten([LayerProperties("VK_LAYER_GOOGLE_threading", "")], DEFAULT_VALIDATION_LAYERS)
    ensures !AllLayersPresent([LayerProperties("VK_LAYER_GOOGLE_threading", "")], DEFAULT_VALIDATION_LAYERS)
  {
    var haystack := [LayerProperties("VK_LAYER_GOOGLE_threading", "")];
    assert haystack[0].layerName == DEFAULT_VALIDATION_LAYERS[0];
    assert !LayerPresent(haystack, DEFAULT_VALIDATION_LAYERS[1]) by {
      assert haystack[0].layerName != DEFAULT_VALIDATION_LAYERS[1];
    }
  }

  // ---------------------------------------------------------------- bundle choice

  /** The validation bundle the constructor enables: none at all is fatal, then the
      standard-validation bundle if containsAllLayers accepts it, then the default one. */
  function ChooseValidationLayers(layers: seq<LayerProperties>): (r: Result<seq<string>, string>)
    ensures |layers| == 0 ==> r.Err?
    ensures r.Ok? <==> (|layers| > 0 &&
      (LayerPresent(layers, STANDARD_VALIDATION[0]) || LayerPresent(layers, DEFAULT_VALIDATION_LAYERS[0])))
    ensures r == Ok(STANDARD_VALIDATION) <==> |layers| > 0 && LayerPresent(layers, STANDARD_VALIDATION[0])
    ensures r.Ok? ==> r.value == STANDARD_VALIDATION || r.value == DEFAULT_VALIDATION_LAYERS
  {
    if |layers| == 0 then Err("could not find any layers")
    else if ContainsAllLayersAsWritten(layers, STANDARD_VALIDATION) then Ok(STANDARD_VALIDATION)
    else if ContainsAllLayersAsWritten(layers, DEFAULT_VALIDATION_LAYERS) then Ok(DEFAULT_VALIDATION_LAYERS)
    else Err("validation layers requested, but could not find validation layers")
  }

  /** The bundle choice as the constructor makes it, through containsAllLayers. */
  method SelectValidationLayers(layers: seq<LayerProperties>) returns (r: Result<seq<string>, string>)
    ensures r == ChooseValidationLayers(layers)
  {
    if |layers| == 0 {
      return Err("could not find any layers");
    }
    var standard := ContainsAllLayers(layers, STANDARD_VALIDATION);
    if standard {
      return Ok(STANDARD_VALIDATION);
    }
    var fallback := ContainsAllLayers(layers, DEFAULT_VALIDATION_LAYERS);
    if fallback {
      return Ok(DEFAULT_VALIDATION_LAYERS);
    }
    return Err("validation layers requested, but could not find validation layers");
  }

  // ---------------------------------------------------------------- extension filters

  /** The names among `wanted` carried by `extensions`, one per matching entry, in
      enumeration order. */
  function NamesAmong(extensions: seq<ExtensionProperties>, wanted: set<string>): (r: seq<string>)
    ensures |r| <= |extensions|
  {
    if |extensions| == 0 then []
    else
      var last := extensions[|extensions| - 1];
      NamesAmong(extensions[..|extensions| - 1], wanted) +
        (if last.extensionName in wanted then [last.extensionName] else [])
  }

  /** The filtered list holds only wanted names, and holds each wanted name that some
      entry carries. */
  lemma {:induction false} NamesAmongMembers(extensions: seq<ExtensionProperties>, wanted: set<string>)
    ensures forall k :: 0 <= k < |NamesAmong(extensions, wanted)| ==> NamesAmong(extensions, wanted)[k] in wanted
    ensures forall n :: n in NamesAmong(extensions, wanted) <==> n in wanted && HasExtension(extensions, n)
    decreases |extensions|
  {
    if |extensions| > 0 {
      var i := |extensions| - 1;
      NamesAmongMembers(extensions[..i], wanted);
      PrefixExtension(extensions, i);
      assert extensions[..i + 1] == extensions;
    }
  }

  /** The instance extensions the constructor enables: the surface and XCB-surface
      extensions always, the debug-report extension only with validation. */
  function InstanceExtensionsWanted(validate: bool): (w: set<string>)
    ensures KHR_SURFACE_EXTENSION_NAME in w && KHR_XCB_SURFACE_EXTENSION_NAME in w
    ensures EXT_DEBUG_REPORT_EXTENSION_NAME in w <==> validate
    ensures |w| <= 3
  {
    {KHR_SURFACE_EXTENSION_NAME, KHR_XCB_SURFACE_EXTENSION_NAME} +
      (if validate then {EXT_DEBUG_REPORT_EXTENSION_NAME} else {})
  }

  /** The three instance-extension names are pairwise different. */
  lemma InstanceExtensionNamesDistinct()
    ensures KHR_SURFACE_EXTENSION_NAME != KHR_XCB_SURFACE_EXTENSION_NAME
    ensures KHR_SURFACE_EXTENSION_NAME != EXT_DEBUG_REPORT_EXTENSION_NAME
    ensures KHR_XCB_SURFACE_EXTENSION_NAME != EXT_DEBUG_REPORT_EXTENSION_NAME
  {
    assert |KHR_SURFACE_EXTENSION_NAME| == 14;
    assert |KHR_XCB_SURFACE_EXTENSION_NAME| == 18;
    assert |EXT_DEBUG_REPORT_EXTENSION_NAME| == 19;
  }

  const DEVICE_EXTENSIONS_WANTED: set<string> := {KHR_SWAPCHAIN_EXTENSION_NAME}

  // ---------------------------------------------------------------- debugMessage

  /** What the debug-report callback does with a message: return to the layer with the
      given answer, or abort the process. */
  datatype DebugVerdict = Returned(bail: bool) | Aborted

  /** debugMessage: a message with neither the error nor the warning bit is logged as
      INFO and answered with false; an error or a warning is logged and aborts. */
  function DebugMessage(msgFlags: Flags): (v: DebugVerdict)
    ensures v == Aborted <==> msgFlags & (DEBUG_REPORT_ERROR_BIT | DEBUG_REPORT_WARNING_BIT) != 0
    ensures v != Aborted ==> v == Returned(false)
  {
    if msgFlags & DEBUG_REPORT_ERROR_BIT != 0 then Aborted
    else if msgFlags & DEBUG_REPORT_WARNING_BIT != 0 then Aborted
    else Returned(false)
  }

  // ---------------------------------------------------------------- device(index)

  /** device(index): the first enumerated physical device, whatever `index` is; an empty
      enumeration is fatal. */
  function PhysicalDeviceAt(index: U32, devices: seq<Handle>): (r: Result<Handle, string>)
    ensures r.Ok? <==> |devices| > 0
    ensures r.Ok? ==> r.value == devices[0]
  {
    if |devices| == 0 then Err("vkEnumeratePhysicalDevices reported zero accessible devices")
    else Ok(devices[0])
  }

  // ---------------------------------------------------------------- the constructor

  /** What the driver reports to the constructor, call by call. `debugEntryPoints` says
      whether vkGetInstanceProcAddr finds the three debug-report entry points. */
  datatype InstanceAnswers = InstanceAnswers(
    layers: seq<LayerProperties>,
    extensions: seq<ExtensionProperties>,
    createResult: VkResult,
    deviceLayers: seq<LayerProperties>,
    deviceExtensions: seq<ExtensionProperties>,
    debugEntryPoints: bool,
    callbackResult: VkResult)

  datatype Outcome = Ready | Fatal(reason: string)

  /** The checks up to and including vkCreateInstance: the validation bundle, then the
      instance extensions. */
  function InstancePhase(validate: bool, a: InstanceAnswers): Outcome {
    if validate && ChooseValidationLayers(a.layers).Err? then Fatal(ChooseValidationLayers(a.layers).error)
    else if |a.extensions| == 0 then Fatal("could not find any instance extensions")
    else if !HasExtension(a.extensions, KHR_SURFACE_EXTENSION_NAME) then Fatal("failed to find the surface extension")
    else if !HasExtension(a.extensions, KHR_XCB_SURFACE_EXTENSION_NAME) then Fatal("failed to find the xcb surface extension")
    else if a.createResult != Success then Fatal("vkCreateInstance failed")
    else Ready
  }

  /** The checks after vkCreateInstance. The device-layer check compares against
      `m_deviceValidationLayers`, which nothing fills, so it fails only on an empty
      device-layer list. */
  function DevicePhase(validate: bool, a: InstanceAnswers): Outcome {
    if validate && |a.deviceLayers| == 0 then Fatal("validation requested, but no device validation layers found!")
    else if validate && !ContainsAllLayersAsWritten(a.deviceLayers, []) then Fatal("validation requested, but not all device validation layers found!")
    else if |a.deviceExtensions| == 0 then Fatal("no device extensions found!")
    else if !HasExtension(a.deviceExtensions, KHR_SWAPCHAIN_EXTENSION_NAME) then Fatal("failed to find the swapchain extension")
    else if validate && !a.debugEntryPoints then Fatal("vkGetProcAddr Failure")
    else if validate && a.callbackResult != Success then Fatal("CreateDebugReportCallback Failure")
    else Ready
  }

  /** The outcome of construction: the first failing check, in the constructor's order. */
  function InstanceOutcome(validate: bool, a: InstanceAnswers): Outcome {
    if InstancePhase(validate, a).Fatal? then InstancePhase(validate, a) else DevicePhase(validate, a)
  }

  /** Construction succeeds exactly when validation (if on) finds a bundle, both surface
      extensions and the swapchain extension are reported, and the driver calls succeed. */
  lemma InstanceReadyIff(validate: bool, a: InstanceAnswers)
    ensures InstanceOutcome(validate, a) == Ready <==>
      (validate ==> |a.layers| > 0 && |a.deviceLayers| > 0 && a.debugEntryPoints && a.callbackResult == Success &&
                    (LayerPresent(a.layers, STANDARD_VALIDATION[0]) || LayerPresent(a.layers, DEFAULT_VALIDATION_LAYERS[0]))) &&
      HasExtension(a.extensions, KHR_SURFACE_EXTENSION_NAME) &&
      HasExtension(a.extensions, KHR_XCB_SURFACE_EXTENSION_NAME) &&
      HasExtension(a.deviceExtensions, KHR_SWAPCHAIN_EXTENSION_NAME) &&
      a.createResult == Success
  {
  }

  /** A constructed instance enabled both surface extensions, enabled the debug-report
      extension exactly when validating and available, and kept only the swapchain
      extension for the device. */
  lemma ReadyInstanceExtensions(validate: bool, a: InstanceAnswers)
    requires InstanceOutcome(validate, a) == Ready
    ensures KHR_SURFACE_EXTENSION_NAME in NamesAmong(a.extensions, InstanceExtensionsWanted(validate))
    ensures KHR_XCB_SURFACE_EXTENSION_NAME in NamesAmong(a.extensions, InstanceExtensionsWanted(validate))
    ensures EXT_DEBUG_REPORT_EXTENSION_NAME in NamesAmong(a.extensions, InstanceExtensionsWanted(validate)) <==>
            validate && HasExtension(a.extensions, EXT_DEBUG_REPORT_EXTENSION_NAME)
    ensures |NamesAmong(a.deviceExtensions, DEVICE_EXTENSIONS_WANTED)| > 0
    ensures forall k :: 0 <= k < |NamesAmong(a.deviceExtensions, DEVICE_EXTENSIONS_WANTED)| ==>
              NamesAmong(a.deviceExtensions, DEVICE_EXTENSIONS_WANTED)[k] == KHR_SWAPCHAIN_EXTENSION_NAME
  {
    NamesAmongMembers(a.extensions, InstanceExtensionsWanted(validate));
    NamesAmongMembers(a.deviceExtensions, DEVICE_EXTENSIONS_WANTED);
    assert KHR_SWAPCHAIN_EXTENSION_NAME in NamesAmong(a.deviceExtensions, DEVICE_EXTENSIONS_WANTED);
  }

  /** Without validation the layer lists are never looked at. */
  lemma NoValidationIgnoresLayers(a: InstanceAnswers, layers: seq<LayerProperties>, deviceLayers: seq<LayerProperties>)
    ensures InstanceOutcome(false, a) == InstanceOutcome(false, a.(layers := layers, deviceLayers := deviceLayers))
  {
  }

  class Instance {
    const validate: bool
    /** m_extensionNames: the instance extensions while the instance is created, then
        cleared and refilled with the device extensions. */
    var extensionNames: seq<string>
    /** m_deviceValidationLayers: declared and checked against, never filled. */
    var deviceValidationLayers: seq<string>
    /** The layer and extension lists handed to vkCreateInstance. */
    var enabledLayers: seq<string>
    var enabledExtensions: seq<string>
    var outcome: Outcome

    /** The constructor; `validate` is the value of `m_validate`, which the header
        initialises to true. */
    constructor (validate: bool, answers: InstanceAnswers)
      ensures this.validate == validate
      ensures outcome == InstanceOutcome(validate, answers)
      ensures deviceValidationLayers == []
      ensures outcome.Ready? ==>
        enabledLayers == (if validate then ChooseValidationLayers(answers.layers).value else []) &&
        enabledExtensions == NamesAmong(answers.extensions, InstanceExtensionsWanted(validate)) &&
        extensionNames == NamesAmong(answers.deviceExtensions, DEVICE_EXTENSIONS_WANTED)
    {
      this.validate := validate;
      extensionNames := [];
      deviceValidationLayers := [];
      enabledLayers := [];
      enabledExtensions := [];
      outcome := Ready;
      new;
      outcome := Setup(answers);
    }

    /** The constructor's body: the instance checks, then the device checks. */
    method Setup(answers: InstanceAnswers) returns (o: Outcome)
      requires extensionNames == [] && deviceValidationLayers == [] && enabledLayers == []
      modifies this`extensionNames, this`enabledLayers, this`enabledExtensions
      ensures o == InstanceOutcome(validate, answers)
      ensures o.Ready? ==>
        enabledLayers == (if validate then ChooseValidationLayers(answers.layers).value else []) &&
        enabledExtensions == NamesAmong(answers.extensions, InstanceExtensionsWanted(validate)) &&
        extensionNames == NamesAmong(answers.deviceExtensions, DEVICE_EXTENSIONS_WANTED)
    {
      o := CreateInstance(answers);
      if o.Fatal? {
        return;
      }
      o := CheckDevice(answers);
    }

    /** Validation layers, instance extensions and vkCreateInstance. */
    method CreateInstance(answers: InstanceAnswers) returns (o: Outcome)
      requires extensionNames == [] && enabledLayers == []
      modifies this`extensionNames, this`enabledLayers, this`enabledExtensions
      ensures o == InstancePhase(validate, answers)
      ensures o.Ready? ==>
        enabledLayers == (if validate then ChooseValidationLayers(answers.layers).value else []) &&
        enabledExtensions == NamesAmong(answers.extensions, InstanceExtensionsWanted(validate))
    {
      if validate {
        var chosen := SelectValidationLayers(answers.layers);
        if chosen.Err? {
          return Fatal(chosen.error);
        }
        enabledLayers := enabledLayers + chosen.value;
      }

      if |answers.extensions| == 0 {
        return Fatal("could not find any instance extensions");
      }
      var surfaceFound, platformFound := CollectInstanceExtensions(answers.extensions);
      if !surfaceFound {
        return Fatal("failed to find the surface extension");
      }
      if !platformFound {
        return Fatal("failed to find the xcb surface extension");
      }
      enabledExtensions := extensionNames;
      if answers.createResult != Success {
        return Fatal("vkCreateInstance failed");
      }
      return Ready;
    }

    /** Device layers, device extensions and the debug-report callback. */
    method CheckDevice(answers: InstanceAnswers) returns (o: Outcome)
      requires deviceValidationLayers == []
      modifies this`extensionNames
      ensures o == DevicePhase(validate, answers)
      ensures o.Ready? ==> extensionNames == NamesAmong(answers.deviceExtensions, DEVICE_EXTENSIONS_WANTED)
    {
      if validate {
        if |answers.deviceLayers| == 0 {
          return Fatal("validation requested, but no device validation layers found!");
        }
        var all := ContainsAllLayers(answers.deviceLayers, deviceValidationLayers);
        if !all {
          return Fatal("validation requested, but not all device validation layers found!");
        }
      }

      extensionNames := [];
      if |answers.deviceExtensions| == 0 {
        return Fatal("no device extensions found!");
      }
      var swapchainFound := CollectDeviceExtensions(answers.deviceExtensions);
      if !swapchainFound {
        return Fatal("failed to find the swapchain extension");
      }

      if validate {
        if !answers.debugEntryPoints {
          return Fatal("vkGetProcAddr Failure");
        }
        if answers.callbackResult != Success {
          return Fatal("CreateDebugReportCallback Failure");
        }
      }
      return Ready;
    }

    /** The instance-extension loop: append each enumerated surface, XCB-surface or (with
        validation) debug-report name, and note whether the two surface names were seen. */
    method CollectInstanceExtensions(extensions: seq<ExtensionProperties>) returns (surfaceFound: bool, platformFound: bool)
      modifies this`extensionNames
      ensures extensionNames == old(extensionNames) + NamesAmong(extensions, InstanceExtensionsWanted(validate))
      ensures surfaceFound <==> HasExtension(extensions, KHR_SURFACE_EXTENSION_NAME)
      ensures platformFound <==> HasExtension(extensions, KHR_XCB_SURFACE_EXTENSION_NAME)
    {
      surfaceFound, platformFound := false, false;
      InstanceExtensionNamesDistinct();
      for i := 0 to |extensions|
        invariant extensionNames == old(extensionNames) + NamesAmong(extensions[..i], InstanceExtensionsWanted(validate))
        invariant surfaceFound <==> HasExtension(extensions[..i], KHR_SURFACE_EXTENSION_NAME)
        invariant platformFound <==> HasExtension(extensions[..i], KHR_XCB_SURFACE_EXTENSION_NAME)
      {
        var name := extensions[i].extensionName;
        ghost var before := extensionNames;
        ghost var wasSurface, wasPlatform := surfaceFound, platformFound;
        if name == KHR_SURFACE_EXTENSION_NAME {
          surfaceFound := true;
          extensionNames := extensionNames + [KHR_SURFACE_EXTENSION_NAME];
        }
        if name == KHR_XCB_SURFACE_EXTENSION_NAME {
          platformFound := true;
          extensionNames := extensionNames + [KHR_XCB_SURFACE_EXTENSION_NAME];
        }
        if name == EXT_DEBUG_REPORT_EXTENSION_NAME {
          if validate {
            extensionNames := extensionNames + [EXT_DEBUG_REPORT_EXTENSION_NAME];
          }
        }
        assert extensionNames == before + (if name in InstanceExtensionsWanted(validate) then [name] else []) by {
          assert name in InstanceExtensionsWanted(validate) <==>
            name == KHR_SURFACE_EXTENSION_NAME || name == KHR_XCB_SURFACE_EXTENSION_NAME ||
            (validate && name == EXT_DEBUG_REPORT_EXTENSION_NAME);
        }
        assert surfaceFound == (wasSurface || name == KHR_SURFACE_EXTENSION_NAME);
        assert platformFound == (wasPlatform || name == KHR_XCB_SURFACE_EXTENSION_NAME);
        NamesAmongStep(extensions, i, InstanceExtensionsWanted(validate));
        PrefixExtension(extensions, i);
      }
      assert extensions[..|extensions|] == extensions;
    }

    /** The device-extension loop: append the swapchain name for each entry carrying it. */
    method CollectDeviceExtensions(extensions: seq<ExtensionProperties>) returns (swapchainFound: bool)
      modifies this`extensionNames
      ensures extensionNames == old(extensionNames) + NamesAmong(extensions, DEVICE_EXTENSIONS_WANTED)
      ensures swapchainFound <==> HasExtension(extensions, KHR_SWAPCHAIN_EXTENSION_NAME)
    {
      swapchainFound := false;
      for i := 0 to |extensions|
        invariant extensionNames == old(extensionNames) + NamesAmong(extensions[..i], DEVICE_EXTENSIONS_WANTED)
        invariant swapchainFound <==> HasExtension(extensions[..i], KHR_SWAPCHAIN_EXTENSION_NAME)
      {
        NamesAmongStep(extensions, i, DEVICE_EXTENSIONS_WANTED);
        PrefixExtension(extensions, i);
        if extensions[i].extensionName == KHR_SWAPCHAIN_EXTENSION_NAME {
          swapchainFound := true;
          extensionNames := extensionNames + [KHR_SWAPCHAIN_EXTENSION_NAME];
        }
      }
      assert extensions[..|extensions|] == extensions;
    }
  }

  /** One more entry of the enumeration adds its own name to the filtered list when it
      is wanted, and nothing otherwise. */
  lemma NamesAmongStep(extensions: seq<ExtensionProperties>, i: nat, wanted: set<string>)
    requires i < |extensions|
    ensures NamesAmong(extensions[..i + 1], wanted) ==
            NamesAmong(extensions[..i], wanted) +
            (if extensions[i].extensionName in wanted then [extensions[i].extensionName] else [])
  {
    assert extensions[..i + 1][..i] == extensions[..i];
  }

  /** One more entry of the enumeration adds exactly its own name to what is present. */
  lemma PrefixExtension(extensions: seq<ExtensionProperties>, i: nat)
    requires i < |extensions|
    ensures forall n :: HasExtension(extensions[..i + 1], n) <==>
                        HasExtension(extensions[..i], n) || extensions[i].extensionName == n
  {
    forall n ensures HasExtension(extensions[..i + 1], n) <==>
                     HasExtension(extensions[..i], n) || extensions[i].extensionName == n {
      if HasExtension(extensions[..i + 1], n) && extensions[i].extensionName != n {
        var k :| 0 <= k < i + 1 && extensions[..i + 1][k].extensionName == n;
        assert extensions[..i][k].extensionName == n;
      }
      if HasExtension(extensions[..i], n) {
        var k :| 0 <= k < i && extensions[..i][k].extensionName == n;
        assert extensions[..i + 1][k].extensionName == n;
      }
      if extensions[i].extensionName == n {
        assert extensions[..i + 1][i].extensionName == n;
      }
    }
  }
}

=== FILE: lib_instance.dfy ===
/** QVulkanInstance and QVulkanPhysicalDevice of lib/qvulkaninstance.cpp: the layer
    check, the two-call enumerations with their assertions, the name lists, the
    debug-report callback and the graphics-family count. A failed Q_ASSERT or a
    qFatal is an `Err` result or a `Fatal` outcome. */
module LibInstance {
  import opened VkTypes
  import opened Wrappers
  import opened VkUtil
  import InstanceCube

  // ---------------------------------------------------------------- checkLayers

  /** checkLayers: every requested name must match some layer; the scan of each name
      starts with `found` cleared, and the first name without a match answers 0. */
  method CheckLayers(checkNames: seq<string>, layers: seq<LayerProperties>) returns (found: bool)
    ensures found <==> AllLayersPresent(layers, checkNames)
    ensures !found ==> exists j :: 0 <= j < |checkNames| && !LayerPresent(layers, checkNames[j])
  {
    for j := 0 to |checkNames|
      invariant AllLayersPresent(layers, checkNames[..j])
    {
      var present := false;
      for k := 0 to |layers|
        invariant !present ==> forall i :: 0 <= i < k ==> layers[i].layerName != checkNames[j]
        invariant present ==> LayerPresent(layers, checkNames[j])
      {
        if checkNames[j] == layers[k].layerName {
          present := true;
          break;
        }
      }
      if !present {
        return false;
      }
      assert forall i :: 0 <= i < j + 1 ==> checkNames[..j + 1][i] == checkNames[i];
    }
    assert checkNames[..|checkNames|] == checkNames;
    return true;
  }

  /** Unlike the cube's containsAllLayers, checkLayers turns down the threading layer
      alone as the default validation bundle. */
  lemma CheckLayersRejectsThreadingAlone()
    ensures !AllLayersPresent([LayerProperties("VK_LAYER_GOOGLE_threading", "")], VALIDATION_LAYERS)
    ensures InstanceCube.ContainsAllLayersAsWritten([LayerProperties("VK_LAYER_GOOGLE_threading", "")], VALIDATION_LAYERS)
  {
    InstanceCube.ContainsAllLayersMissesLaterNeedles();
  }

  /** The bundle the constructor checks; the same eight layers as the cube's default. */
  const VALIDATION_LAYERS: seq<string> := InstanceCube.DEFAULT_VALIDATION_LAYERS

  // ---------------------------------------------------------------- enumerations

  /** Whether the assertions of an enumeration hold: the first call succeeds and, when
      it counted items, so does the second, writing back at least that many. */
  predicate EnumerationSucceeds<T(==)>(getter: Getter<T>)
  {
    getter.firstResult == Success &&
    (|getter.firstItems| > 0 ==> getter.secondResult == Success && |getter.secondItems| >= |getter.firstItems|)
  }

  /** The list an enumeration that gets through leaves: as many items as the first call
      counted, taken from what the second call wrote. */
  function Enumerated<T(==)>(getter: Getter<T>): (r: seq<T>)
    requires EnumerationSucceeds(getter)
    ensures |r| == |getter.firstItems|
    ensures getter.Steady() ==> r == getter.firstItems
  {
    if |getter.firstItems| > 0 then getter.secondItems[..|getter.firstItems|] else []
  }

  /** initLayers/initExtensions/initDevices: ask for the count; when it is non-zero,
      resize to it and call again, then assert that the call succeeded and that the
      count it wrote back equals the size. A driver with fewer items at the second call
      writes back the smaller count, so the list must hold at least `count` items. */
  method Enumerate<T(==)>(getter: Getter<T>) returns (r: Result<seq<T>, string>)
    requires |getter.firstItems| <= UINT32_MAX
    ensures r.Ok? <==> EnumerationSucceeds(getter)
    ensures r.Ok? ==> r.value == Enumerated(getter)
    ensures getter.firstResult != Success ==> r.Err?
    ensures getter.firstResult == Success && |getter.firstItems| == 0 ==> r == Ok([])
    ensures getter.firstResult == Success && |getter.firstItems| > 0 ==>
      (r.Ok? <==> getter.secondResult == Success && |getter.secondItems| >= |getter.firstItems|)
    ensures r.Ok? && |getter.firstItems| > 0 ==> r.value == getter.secondItems[..|getter.firstItems|]
    ensures getter.Steady() ==> r == Ok(getter.firstItems)
  {
    var count := |getter.firstItems|;
    if getter.firstResult != Success {
      return Err("Q_ASSERT(!err) failed");
    }
    var items: seq<T> := [];
    if count > 0 {
      if getter.secondResult != Success {
        return Err("Q_ASSERT(!err) failed");
      }
      var written := if |getter.secondItems| < count then |getter.secondItems| else count;
      if written != count {
        return Err("Q_ASSERT(count == size) failed");
      }
      items := getter.secondItems[..count];
      assert getter.Steady() ==> items == getter.firstItems;
    }
    return Ok(items);
  }

  // ---------------------------------------------------------------- names

  /** extensionNames (of the instance and of the physical device): the name of each
      extension, in order. */
  method ExtensionNames(extensions: seq<ExtensionProperties>) returns (names: seq<string>)
    ensures |names| == |extensions|
    ensures forall i :: 0 <= i < |extensions| ==> names[i] == extensions[i].extensionName
  {
    names := [];
    for i := 0 to |extensions|
      invariant |names| == i
      invariant forall k :: 0 <= k < i ==> names[k] == extensions[k].extensionName
    {
      names := names + [extensions[i].extensionName];
    }
  }

  // ---------------------------------------------------------------- dbgFunc

  /** What dbgFunc does with a message: the line it logs, if any, and its answer. */
  datatype DebugReport = DebugReport(line: Option<string>, bail: bool)

  /** dbgFunc: log an error as ERROR, otherwise a warning as WARNING, otherwise nothing;
      always answer false, so the layer never bails out. */
  function DbgFunc(msgFlags: Flags): (r: DebugReport)
    ensures !r.bail
    ensures r.line == Some("ERROR") <==> msgFlags & DEBUG_REPORT_ERROR_BIT != 0
    ensures r.line == Some("WARNING") <==>
              msgFlags & DEBUG_REPORT_ERROR_BIT == 0 && msgFlags & DEBUG_REPORT_WARNING_BIT != 0
    ensures r.line == None <==> msgFlags & (DEBUG_REPORT_ERROR_BIT | DEBUG_REPORT_WARNING_BIT) == 0
  {
    if msgFlags & DEBUG_REPORT_ERROR_BIT != 0 then DebugReport(Some("ERROR"), false)
    else if msgFlags & DEBUG_REPORT_WARNING_BIT != 0 then DebugReport(Some("WARNING"), false)
    else DebugReport(None, false)
  }

  /** The two callbacks single out the same messages: the lib one logs exactly those the
      cube one aborts on, and both answer false to the rest. */
  lemma DebugCallbacksAgree(msgFlags: Flags)
    ensures DbgFunc(msgFlags).line.Some? <==> InstanceCube.DebugMessage(msgFlags) == InstanceCube.Aborted
    ensures InstanceCube.DebugMessage(msgFlags) != InstanceCube.Aborted ==>
              InstanceCube.DebugMessage(msgFlags) == InstanceCube.Returned(DbgFunc(msgFlags).bail)
  {
  }

  // ---------------------------------------------------------------- QVulkanInstance

  datatype Outcome = Ready | Fatal(reason: string)

  class Instance {
    const validate: bool
    var layers: seq<LayerProperties>
    var extensions: seq<ExtensionProperties>
    var devices: seq<Handle>
    var outcome: Outcome

    /** The constructor: initLayers, initExtensions, then, with validation, checkLayers
        on the eight validation layers; a missing one is fatal. */
    constructor (validate: bool, layerGetter: Getter<LayerProperties>, extensionGetter: Getter<ExtensionProperties>)
      requires |layerGetter.firstItems| <= UINT32_MAX && |extensionGetter.firstItems| <= UINT32_MAX
      ensures this.validate == validate
      ensures devices == []
      ensures layerGetter.Steady() && extensionGetter.Steady() ==>
        layers == layerGetter.firstItems && extensions == extensionGetter.firstItems &&
        (outcome == Ready <==> !validate || AllLayersPresent(layerGetter.firstItems, VALIDATION_LAYERS))
      ensures outcome == Ready <==>
        EnumerationSucceeds(layerGetter) && EnumerationSucceeds(extensionGetter) &&
        (!validate || AllLayersPresent(Enumerated(layerGetter), VALIDATION_LAYERS))
      ensures outcome == Ready ==> layers == Enumerated(layerGetter) && extensions == Enumerated(extensionGetter)
    {
      this.validate := validate;
      layers := [];
      extensions := [];
      devices := [];
      outcome := Ready;
      new;
      var o := InitLayers(layerGetter);
      if o.Fatal? {
        outcome := o;
        return;
      }
      o := InitExtensions(extensionGetter);
      if o.Fatal? {
        outcome := o;
        return;
      }
      var found := false;
      if validate {
        found := CheckLayers(VALIDATION_LAYERS, layers);
      }
      if validate && !found {
        outcome := Fatal("validation layers not found");
      }
    }

    /** initLayers: fill `layers` from the instance-layer enumeration. */
    method InitLayers(getter: Getter<LayerProperties>) returns (o: Outcome)
      requires |getter.firstItems| <= UINT32_MAX
      modifies this`layers
      ensures getter.Steady() ==> o == Ready
      ensures o.Ready? <==> EnumerationSucceeds(getter)
      ensures o.Ready? ==> layers == if |getter.firstItems| > 0 then Enumerated(getter) else old(layers)
      ensures getter.firstResult == Success && |getter.firstItems| == 0 ==> o == Ready && layers == old(layers)
      ensures o.Ready? && |getter.firstItems| > 0 ==>
        |getter.secondItems| >= |getter.firstItems| && layers == getter.secondItems[..|getter.firstItems|]
    {
      var r := Enumerate(getter);
      if r.Err? {
        return Fatal(r.error);
      }
      if |r.value| > 0 {
        layers := r.value;
      }
      return Ready;
    }

    /** initExtensions: fill `extensions` from the instance-extension enumeration. */
    method InitExtensions(getter: Getter<ExtensionProperties>) returns (o: Outcome)
      requires |getter.firstItems| <= UINT32_MAX
      modifies this`extensions
      ensures getter.Steady() ==> o == Ready
      ensures o.Ready? <==> EnumerationSucceeds(getter)
      ensures o.Ready? ==> extensions == if |getter.firstItems| > 0 then Enumerated(getter) else old(extensions)
      ensures getter.firstResult == Success && |getter.firstItems| == 0 ==> o == Ready && extensions == old(extensions)
      ensures o.Ready? && |getter.firstItems| > 0 ==>
        |getter.secondItems| >= |getter.firstItems| && extensions == getter.secondItems[..|getter.firstItems|]
    {
      var r := Enumerate(getter);
      if r.Err? {
        return Fatal(r.error);
      }
      if |r.value| > 0 {
        extensions := r.value;
      }
      return Ready;
    }

    /** initDevices: fill `devices` from the physical-device enumeration. */
    method InitDevices(getter: Getter<Handle>) returns (o: Outcome)
      requires |getter.firstItems| <= UINT32_MAX
      modifies this`devices
      ensures getter.Steady() ==> o == Ready
      ensures o.Ready? <==> EnumerationSucceeds(getter)
      ensures o.Ready? ==> devices == if |getter.firstItems| > 0 then Enumerated(getter) else old(devices)
      ensures getter.firstResult == Success && |getter.firstItems| == 0 ==> o == Ready && devices == old(devices)
      ensures o.Ready? && |getter.firstItems| > 0 ==>
        |getter.secondItems| >= |getter.firstItems| && devices == getter.secondItems[..|getter.firstItems|]
    {
      var r := Enumerate(getter);
      if r.Err? {
        return Fatal(r.error);
      }
      if |r.value| > 0 {
        devices := r.value;
      }
      return Ready;
    }
  }

  // ---------------------------------------------------------------- QVulkanPhysicalDevice

  /** The number of families whose flags include the graphics bit. */
  function CountGraphics(families: seq<QueueFamilyProperties>): (n: nat)
    ensures n <= |families|
  {
    if |families| == 0 then 0
    else CountGraphics(families[..|families| - 1]) + (if IsGraphics(families[|families| - 1]) then 1 else 0)
  }

  /** The count is non-zero exactly when some family can draw. */
  lemma {:induction false} CountGraphicsPositive(families: seq<QueueFamilyProperties>)
    ensures CountGraphics(families) > 0 <==> exists i :: 0 <= i < |families| && IsGraphics(families[i])
    decreases |families|
  {
    if |families| > 0 {
      var front := families[..|families| - 1];
      CountGraphicsPositive(front);
      if exists i :: 0 <= i < |front| && IsGraphics(front[i]) {
        var i :| 0 <= i < |front| && IsGraphics(front[i]);
        assert families[i] == front[i];
      }
      if exists i :: 0 <= i < |families| && IsGraphics(families[i]) {
        var i :| 0 <= i < |families| && IsGraphics(families[i]);
        if i < |front| {
          assert front[i] == families[i];
        }
      }
    }
  }

  class PhysicalDevice {
    const handle: Handle
    const extensions: seq<ExtensionProperties>
    const queueProperties: seq<QueueFamilyProperties>

    constructor (device: Handle, extensions: seq<ExtensionProperties>, queueProperties: seq<QueueFamilyProperties>)
      ensures handle == device && this.extensions == extensions && this.queueProperties == queueProperties
    {
      handle := device;
      this.extensions := extensions;
      this.queueProperties := queueProperties;
    }

    /** hasGraphicsQueue: count the families with the graphics bit. */
    method HasGraphicsQueue() returns (count: U32)
      requires |queueProperties| <= UINT32_MAX
      ensures count == CountGraphics(queueProperties)
    {
      count := 0;
      for i := 0 to |queueProperties|
        invariant count == CountGraphics(queueProperties[..i])
      {
        assert queueProperties[..i + 1][..i] == queueProperties[..i];
        if queueProperties[i].queueFlags & QUEUE_GRAPHICS_BIT != 0 {
          count := count + 1;
        }
      }
      assert queueProperties[..|queueProperties|] == queueProperties;
    }
  }

  /** QVulkanPhysicalDevice's constructor: the device-extension enumeration with its
      assertions, then the queue families, whose count must be non-zero. The second
      queue-family call writes at most `count` entries into a list of `count`
      value-initialised entries. */
  method OpenPhysicalDevice(device: Handle, extensionGetter: Getter<ExtensionProperties>,
                            firstFamilies: seq<QueueFamilyProperties>, secondFamilies: seq<QueueFamilyProperties>)
    returns (r: Result<PhysicalDevice, string>)
    requires |extensionGetter.firstItems| <= UINT32_MAX
    ensures r.Ok? ==> (fresh(r.value) && r.value.handle == device &&
      r.value.queueProperties == Filled(secondFamilies, |firstFamilies|, QueueFamilyProperties(0, 0)))
    ensures extensionGetter.Steady() && firstFamilies == secondFamilies ==>
      (r.Ok? <==> |firstFamilies| > 0) &&
      (r.Ok? ==> r.value.extensions == extensionGetter.firstItems && r.value.queueProperties == firstFamilies)
    ensures r.Ok? <==> EnumerationSucceeds(extensionGetter) && |firstFamilies| > 0
    ensures r.Ok? ==> r.value.extensions == Enumerated(extensionGetter)
  {
    var exts := Enumerate(extensionGetter);
    if exts.Err? {
      return Err(exts.error);
    }
    if |firstFamilies| == 0 {
      return Err("Q_ASSERT(count > 0) failed");
    }
    var families := Filled(secondFamilies, |firstFamilies|, QueueFamilyProperties(0, 0));
    assert firstFamilies == secondFamilies ==> families == firstFamilies;
    var pd := new PhysicalDevice(device, exts.value, families);
    return Ok(pd);
  }
}

=== FILE: lib_view.dfy ===
/** The constructor of QVulkanView in lib/qvulkanview.cpp (and its copy in the root
    qvulkanview.cpp): which instance extensions to enable, the checks on the first
    physical device, the queue-family search and the surface-format choice. Window and
    surface creation are left out; a Q_ASSERT or qFatal ends it with an error. */
module LibView {
  import opened VkTypes
  import opened Wrappers
  import opened SwapchainChoice
  import InstanceCube
  import LibInstance

  // ---------------------------------------------------------------- instance extensions

  /** The position of each extension the constructor may enable in the order it
      appends them; 3 for any other name. */
  function ExtensionRank(name: string): (k: nat)
    ensures k <= 3
    ensures k < 3 <==> name in {KHR_SURFACE_EXTENSION_NAME, KHR_XCB_SURFACE_EXTENSION_NAME, EXT_DEBUG_REPORT_EXTENSION_NAME}
  {
    if name == KHR_SURFACE_EXTENSION_NAME then 0
    else if name == KHR_XCB_SURFACE_EXTENSION_NAME then 1
    else if name == EXT_DEBUG_REPORT_EXTENSION_NAME then 2
    else 3
  }

  /** The surface, XCB-surface and debug-report extensions, each appended when the
      instance lists it, in that fixed order. */
  method EnabledInstanceExtensions(available: seq<string>) returns (enabled: seq<string>)
    ensures forall n :: n in enabled <==>
      n in available && ExtensionRank(n) < 3
    ensures forall i, j :: 0 <= i < j < |enabled| ==> ExtensionRank(enabled[i]) < ExtensionRank(enabled[j])
    ensures |enabled| <= 3
  {
    InstanceCube.InstanceExtensionNamesDistinct();
    enabled := [];
    if KHR_SURFACE_EXTENSION_NAME in available {
      enabled := enabled + [KHR_SURFACE_EXTENSION_NAME];
    }
    if KHR_XCB_SURFACE_EXTENSION_NAME in available {
      enabled := enabled + [KHR_XCB_SURFACE_EXTENSION_NAME];
    }
    if EXT_DEBUG_REPORT_EXTENSION_NAME in available {
      enabled := enabled + [EXT_DEBUG_REPORT_EXTENSION_NAME];
    }
  }

  // ---------------------------------------------------------------- the constructor

  /** What the constructor settles on: the instance extensions, the queue family, the
      device extensions and the surface format. */
  datatype ViewConfig = ViewConfig(
    instanceExtensions: seq<string>,
    queueFamilyIndex: nat,
    deviceExtensions: seq<string>,
    surfaceFormat: SurfaceFormat)

  /** The constructor, from the extension filter to the surface format. `devices` is what
      the instance enumerated and `physDevice` the physical device opened on the first
      of them; `supportsPresent[i]` is what queueSupportsPresent answers for family i,
      and `formats` what surfaceFormats reports. */
  method ConfigureView(instanceExtensions: seq<string>, devices: seq<Handle>,
                       physDevice: LibInstance.PhysicalDevice, supportsPresent: seq<bool>,
                       formats: seq<SurfaceFormat>)
    returns (r: Result<ViewConfig, string>)
    requires |supportsPresent| == |physDevice.queueProperties| <= UINT32_MAX
    requires |devices| > 0 ==> physDevice.handle == devices[0]
    ensures r.Ok? <==>
      |devices| > 0 &&
      HasExtension(physDevice.extensions, KHR_SWAPCHAIN_EXTENSION_NAME) &&
      (exists i :: GraphicsAndPresent(physDevice.queueProperties, supportsPresent, i)) &&
      |formats| > 0
    ensures r.Ok? ==>
      var c := r.value;
      (forall n :: n in c.instanceExtensions <==> n in instanceExtensions && ExtensionRank(n) < 3) &&
      GraphicsAndPresent(physDevice.queueProperties, supportsPresent, c.queueFamilyIndex) &&
      (forall j :: 0 <= j < c.queueFamilyIndex ==> !GraphicsAndPresent(physDevice.queueProperties, supportsPresent, j)) &&
      |c.deviceExtensions| == |physDevice.extensions| &&
      (forall i :: 0 <= i < |c.deviceExtensions| ==> c.deviceExtensions[i] == physDevice.extensions[i].extensionName) &&
      c.surfaceFormat == ChooseSurfaceFormat(formats).value
  {
    var enabled := EnabledInstanceExtensions(instanceExtensions);
    if |devices| == 0 {
      return Err("Q_ASSERT(devices().size() > 0) failed");
    }
    var deviceExtensionNames := LibInstance.ExtensionNames(physDevice.extensions);
    if KHR_SWAPCHAIN_EXTENSION_NAME !in deviceExtensionNames {
      assert !HasExtension(physDevice.extensions, KHR_SWAPCHAIN_EXTENSION_NAME);
      return Err("vkEnumerateDeviceExtensionProperties failed to find the swapchain extension");
    }
    assert HasExtension(physDevice.extensions, KHR_SWAPCHAIN_EXTENSION_NAME) by {
      var k :| 0 <= k < |deviceExtensionNames| && deviceExtensionNames[k] == KHR_SWAPCHAIN_EXTENSION_NAME;
      assert physDevice.extensions[k].extensionName == KHR_SWAPCHAIN_EXTENSION_NAME;
    }
    var graphicsFamilies := physDevice.HasGraphicsQueue();
    LibInstance.CountGraphicsPositive(physDevice.queueProperties);
    if graphicsFamilies == 0 {
      assert forall i :: !GraphicsAndPresent(physDevice.queueProperties, supportsPresent, i);
      return Err("Q_ASSERT(hasGraphicsQueue() > 0) failed");
    }
    var family := SelectQueueFamily(physDevice.queueProperties, supportsPresent);
    if family.Err? {
      return Err(family.error);
    }
    var extensions := LibInstance.ExtensionNames(physDevice.extensions);
    var surfaceFormat := ChooseSurfaceFormat(formats);
    if surfaceFormat.Err? {
      return Err(surfaceFormat.error);
    }
    r := Ok(ViewConfig(enabled, family.value, extensions, surfaceFormat.value));
  }
}

=== FILE: live_sets.dfy ===
/** The bookkeeping the view's prepare and teardown proofs share: how a stretch of
    driver calls changes the set of live handles, when an init command buffer may be
    created and flushed on the way. */
module LiveSets {
  import opened VkTypes

  /** The init command buffer as a set: empty when there is none. */
  function CmdSet(c: Handle): set<Handle>
  {
    if c == NullHandle then {} else {c}
  }

  /** Every handle of `s` was handed out in [lo, hi). */
  ghost predicate HandedOut(s: set<Handle>, lo: nat, hi: nat)
  {
    forall h :: h in s ==> lo <= h < hi
  }

  /** The effect on the live set of a stretch of prepare that starts from `live0` with
      the driver's next handle `next0` and init command buffer `cmd0`, and ends at
      `live1`, `next1`, `cmd1`: the handles `added` were handed out on the way and
      stay live, the init command buffer is the only other change, and one created
      on the way is fresh too. Nothing else is created and kept, nothing else dies. */
  ghost predicate Adds(live0: set<Handle>, next0: nat, cmd0: Handle, added: set<Handle>,
                       live1: set<Handle>, next1: nat, cmd1: Handle)
  {
    0 < next0 <= next1 &&
    live1 == (live0 - CmdSet(cmd0)) + added + CmdSet(cmd1) &&
    HandedOut(added, next0, next1) && cmd1 !in added &&
    (cmd1 != cmd0 && cmd1 != NullHandle ==> next0 <= cmd1 < next1)
  }

  /** Two stretches of prepare, one after the other, add what each adds. */
  lemma AddsChain(live0: set<Handle>, next0: nat, cmd0: Handle, a: set<Handle>,
                  live1: set<Handle>, next1: nat, cmd1: Handle, b: set<Handle>,
                  live2: set<Handle>, next2: nat, cmd2: Handle)
    requires forall h :: h in live0 ==> h < next0
    requires Adds(live0, next0, cmd0, a, live1, next1, cmd1)
    requires Adds(live1, next1, cmd1, b, live2, next2, cmd2)
    ensures Adds(live0, next0, cmd0, a + b, live2, next2, cmd2)
  {
    AddsDropCmd(live0, next0, cmd0, a, live1, next1, cmd1);
    HandedOutUnion(a, b, next0, next1, next2);
    assert cmd2 !in a by {
      if cmd2 != cmd1 && cmd2 != NullHandle {
        assert next1 <= cmd2;
      }
    }
  }

  /** Removing the init command buffer again leaves what the stretch started from and added. */
  lemma AddsDropCmd(live0: set<Handle>, next0: nat, cmd0: Handle, a: set<Handle>,
                    live1: set<Handle>, next1: nat, cmd1: Handle)
    requires forall h :: h in live0 ==> h < next0
    requires Adds(live0, next0, cmd0, a, live1, next1, cmd1)
    ensures live1 - CmdSet(cmd1) == (live0 - CmdSet(cmd0)) + a
  {
    if cmd1 != cmd0 && cmd1 != NullHandle {
      assert cmd1 !in live0;
    }
  }

  lemma HandedOutUnion(a: set<Handle>, b: set<Handle>, lo: nat, mid: nat, hi: nat)
    requires lo <= mid <= hi && HandedOut(a, lo, mid) && HandedOut(b, mid, hi)
    ensures HandedOut(a + b, lo, hi) && a !! b
  {
    forall h | h in a + b
      ensures lo <= h < hi
    {
      if h in a {
        assert lo <= h < mid;
      } else {
        assert mid <= h < hi;
      }
    }
  }

  /** One create call in a stretch that leaves the init command buffer alone. */
  lemma AddsCreated(live0: set<Handle>, next0: nat, cmd: Handle, h: Handle)
    requires 0 < next0 && h == next0 && (cmd == NullHandle || cmd in live0)
    requires forall x :: x in live0 ==> x < next0
    ensures Adds(live0, next0, cmd, {h}, live0 + {h}, next0 + 1, cmd)
  {
  }

  /** Two create calls in a row in a stretch that leaves the init command buffer alone. */
  lemma AddsCreatedPair(live0: set<Handle>, next0: nat, cmd: Handle, h: Handle, k: Handle)
    requires 0 < next0 && h == next0 && k == next0 + 1 && (cmd == NullHandle || cmd in live0)
    requires forall x :: x in live0 ==> x < next0
    ensures Adds(live0, next0, cmd, {h, k}, live0 + {h, k}, next0 + 2, cmd)
  {
  }

  /** A stretch extended by one create call, the init command buffer left alone. */
  lemma AddsOneMore(live0: set<Handle>, next0: nat, cmd: Handle, a: set<Handle>,
                    live1: set<Handle>, next1: nat, h: Handle)
    requires (forall x :: x in live0 ==> x < next0) && (cmd == NullHandle || cmd in live0)
    requires Adds(live0, next0, cmd, a, live1, next1, cmd) && h == next1
    ensures Adds(live0, next0, cmd, a + {h}, live1 + {h}, next1 + 1, cmd)
  {
    assert forall x :: x in live1 ==> x < next1;
    AddsCreated(live1, next1, cmd, h);
    AddsChain(live0, next0, cmd, a, live1, next1, cmd, {h}, live1 + {h}, next1 + 1, cmd);
  }

  /** A stretch that creates and destroys nothing. */
  lemma AddsNothing(live0: set<Handle>, next0: nat, cmd: Handle)
    requires 0 < next0 && (cmd == NullHandle || cmd in live0)
    ensures Adds(live0, next0, cmd, {}, live0, next0, cmd)
  {
  }
}

=== FILE: memory_types.dfy ===
/** Choosing a memory type for an allocation: the lowest index below 32 that the
    resource allows (its bit is set in `memoryTypeBits`) and whose property flags
    include every requested flag. Shared by QVkDevice::memoryType and
    QVkUniformBuffer::memory_type_from_properties. */
module MemoryTypes {
  import opened VkTypes

  const MAX_MEMORY_TYPES: nat := 32

  /** VkPhysicalDeviceMemoryProperties::memoryTypes, reduced to the property flags:
      a fixed array of 32 entries, all of which the search reads. */
  type MemoryTypeTable = s: seq<Flags> | |s| == MAX_MEMORY_TYPES witness seq(32, _ => 0)

  /** `bits` shifted right k times, as `typeBits >>= 1` does once per index. */
  function Shifted(bits: nat, k: nat): nat
  {
    if k == 0 then bits else Shifted(bits, k - 1) / 2
  }

  /** Bit i of the resource's allowed-type mask. */
  predicate Allowed(typeBits: U32, i: nat)
  {
    Shifted(typeBits, i) % 2 == 1
  }

  predicate Qualifies(table: MemoryTypeTable, typeBits: U32, requirements: Flags, i: nat)
    requires i < MAX_MEMORY_TYPES
  {
    Allowed(typeBits, i) && HasBits(table[i], requirements)
  }

  /** The first qualifying index at or after `from`, or -1. */
  function FirstQualifyingFrom(table: MemoryTypeTable, typeBits: U32, requirements: Flags, from: nat): (r: int)
    requires from <= MAX_MEMORY_TYPES
    ensures r == -1 || from <= r < MAX_MEMORY_TYPES
    decreases MAX_MEMORY_TYPES - from
  {
    if from == MAX_MEMORY_TYPES then -1
    else if Qualifies(table, typeBits, requirements, from) then from
    else FirstQualifyingFrom(table, typeBits, requirements, from + 1)
  }

  /** The specification of the search: the lowest qualifying index, or -1 when none. */
  function LowestQualifying(table: MemoryTypeTable, typeBits: U32, requirements: Flags): (r: int)
    ensures r == -1 || 0 <= r < MAX_MEMORY_TYPES
  {
    FirstQualifyingFrom(table, typeBits, requirements, 0)
  }

  lemma {:induction false} FirstQualifyingFromIsFirst(table: MemoryTypeTable, typeBits: U32, requirements: Flags, from: nat)
    requires from <= MAX_MEMORY_TYPES
    ensures var r := FirstQualifyingFrom(table, typeBits, requirements, from);
      (r == -1 <==> forall j :: from <= j < MAX_MEMORY_TYPES ==> !Qualifies(table, typeBits, requirements, j)) &&
      (r != -1 ==> from <= r < MAX_MEMORY_TYPES && Qualifies(table, typeBits, requirements, r) &&
                   forall j :: from <= j < r ==> !Qualifies(table, typeBits, requirements, j))
    decreases MAX_MEMORY_TYPES - from
  {
    if from < MAX_MEMORY_TYPES && !Qualifies(table, typeBits, requirements, from) {
      FirstQualifyingFromIsFirst(table, typeBits, requirements, from + 1);
    }
  }

  /** The search yields -1 exactly when no index below 32 qualifies, and otherwise the
      lowest qualifying index. */
  lemma LowestQualifyingIsLowest(table: MemoryTypeTable, typeBits: U32, requirements: Flags)
    ensures var r := LowestQualifying(table, typeBits, requirements);
      (r == -1 <==> forall j :: 0 <= j < MAX_MEMORY_TYPES ==> !Qualifies(table, typeBits, requirements, j)) &&
      (r != -1 ==> 0 <= r < MAX_MEMORY_TYPES && Qualifies(table, typeBits, requirements, r) &&
                   forall j :: 0 <= j < r ==> !Qualifies(table, typeBits, requirements, j))
  {
    FirstQualifyingFromIsFirst(table, typeBits, requirements, 0);
  }

  lemma {:induction false} ShiftedZero(k: nat)
    ensures Shifted(0, k) == 0
  {
    if k > 0 { ShiftedZero(k - 1); }
  }

  /** A resource that allows no memory type at all gets -1. */
  lemma NoAllowedTypeGivesMinusOne(table: MemoryTypeTable, requirements: Flags)
    ensures LowestQualifying(table, 0, requirements) == -1
  {
    LowestQualifyingIsLowest(table, 0, requirements);
    forall j | 0 <= j < MAX_MEMORY_TYPES ensures !Allowed(0, j) {
      ShiftedZero(j);
    }
  }

  /** With no requirements every memory type's flags qualify, so the search returns the
      lowest set bit of `typeBits` (the depth image asks for this). */
  lemma NoRequirementsGivesLowestSetBit(table: MemoryTypeTable, typeBits: U32)
    ensures var r := LowestQualifying(table, typeBits, 0);
      (r == -1 <==> forall j :: 0 <= j < MAX_MEMORY_TYPES ==> !Allowed(typeBits, j)) &&
      (r != -1 ==> Allowed(typeBits, r) && forall j :: 0 <= j < r ==> !Allowed(typeBits, j))
  {
    LowestQualifyingIsLowest(table, typeBits, 0);
    forall j | 0 <= j < MAX_MEMORY_TYPES
      ensures Qualifies(table, typeBits, 0, j) == Allowed(typeBits, j)
    {
      assert HasBits(table[j], 0);
    }
  }
}

=== FILE: physical_device.dfy ===
/** QVkPhysicalDevice: the queue families of one physical device, read once at
    construction, and the search for the first graphics-capable family. */
module PhysicalDevice {
  import opened VkTypes
  import opened Wrappers
  import opened VkUtil

  class PhysicalDevice {
    const handle: Handle
    var queueFamilies: seq<QueueFamilyProperties>

    /** vkGetPhysicalDeviceQueueFamilyProperties returns nothing, so the getter that
        wraps it reports success on both calls; `firstItems` and `secondItems` are what
        the driver has to report at each call. */
    constructor (device: Handle, firstItems: seq<QueueFamilyProperties>, secondItems: seq<QueueFamilyProperties>)
      requires |firstItems| <= UINT32_MAX
      ensures handle == device
      ensures queueFamilies == Filled(secondItems, |firstItems|, QueueFamilyProperties(0, 0))
      ensures firstItems == secondItems ==> queueFamilies == firstItems
    {
      handle := device;
      var r, _ := GetVk(Getter(Success, firstItems, Success, secondItems), QueueFamilyProperties(0, 0));
      queueFamilies := r.value;
    }

    /** queueProperties(): the stored list, as it is. */
    function QueueProperties(): (r: seq<QueueFamilyProperties>)
      reads this
      ensures r == queueFamilies
    {
      queueFamilies
    }

    /** graphicsQueueIndex(): the lowest family with the graphics bit, or -1. */
    method GraphicsQueueIndex() returns (index: int)
      ensures -1 <= index < |queueFamilies|
      ensures index == -1 <==> forall i :: 0 <= i < |queueFamilies| ==> !IsGraphics(queueFamilies[i])
      ensures index >= 0 ==> IsGraphics(queueFamilies[index]) &&
                             forall i :: 0 <= i < index ==> !IsGraphics(queueFamilies[i])
    {
      var i := 0;
      while i < |queueFamilies|
        invariant 0 <= i <= |queueFamilies|
        invariant forall k :: 0 <= k < i ==> !IsGraphics(queueFamilies[k])
      {
        if queueFamilies[i].queueFlags & QUEUE_GRAPHICS_BIT != 0 {
          return i;
        }
        i := i + 1;
      }
      return -1;
    }
  }
}

=== FILE: recorder.dfy ===
/** QVkCommandBufferRecorder, QVkCommandBuffer and QVkQueue (three near-identical copies:
    cube/qvkcmdbuf.h, its out-of-line twin cube/qvkcmdbuf.cpp, and the older
    cube/QVkCmdBuf.h). One recorder class serves all three; the older header's
    beginRenderPass, which takes no colour, is the separate BeginRenderPassFixedColor. */
module Recorder {
  import opened VkTypes
  import opened Gpu
  import opened Barriers

  /** The log entries one command per element, in order. */
  function CommandEvents(cb: Handle, commands: seq<Command>): (r: seq<Event>)
    ensures |r| == |commands|
  {
    if commands == [] then [] else [Recorded(cb, commands[0])] + CommandEvents(cb, commands[1..])
  }

  /** A whole recording: what a recorder leaves in the log from its construction to its
      destruction when the given commands are chained on it. */
  function Recording(cb: Handle, usage: Flags, commands: seq<Command>): (r: seq<Event>)
    ensures |r| == |commands| + 2
  {
    [Begun(cb, usage)] + CommandEvents(cb, commands) + [Ended(cb)]
  }

  lemma {:induction false} CommandEventsAreRecorded(cb: Handle, commands: seq<Command>)
    ensures forall i :: 0 <= i < |commands| ==> CommandEvents(cb, commands)[i] == Recorded(cb, commands[i])
  {
    if commands != [] {
      CommandEventsAreRecorded(cb, commands[1..]);
    }
  }

  /** Every recording is bracketed by exactly one begin and one end of its own buffer,
      and in between holds one Recorded event per command, in call order. */
  lemma RecordingIsBracketed(cb: Handle, usage: Flags, commands: seq<Command>)
    ensures Recording(cb, usage, commands)[0] == Begun(cb, usage)
    ensures Recording(cb, usage, commands)[|commands| + 1] == Ended(cb)
    ensures forall i :: 1 <= i <= |commands| ==> Recording(cb, usage, commands)[i] == Recorded(cb, commands[i - 1])
  {
    CommandEventsAreRecorded(cb, commands);
  }

  /** The colour the older header's beginRenderPass always clears to. */
  const FIXED_CLEAR_COLOR := Rgba(0.2, 0.2, 0.4, 0.2)

  class Recorder {
    const gpu: Gpu
    /** m_cb: the command buffer being recorded. */
    const cb: Handle

    /** Begins the command buffer with the given usage flags. */
    constructor (gpu: Gpu, cb: Handle, flags: Flags := 0)
      modifies gpu`log
      ensures this.gpu == gpu && this.cb == cb
      ensures gpu.log == old(gpu.log) + [Begun(cb, flags)]
    {
      this.gpu := gpu;
      this.cb := cb;
      new;
      gpu.Call(Begun(cb, flags));
    }

    /** The destructor: ends the command buffer. */
    method Finish()
      modifies gpu`log
      ensures gpu.log == old(gpu.log) + [Ended(cb)]
    {
      gpu.Call(Ended(cb));
    }

    /** viewport(QVkViewport): one viewport at index 0. */
    method Viewport() returns (r: Recorder)
      modifies gpu`log
      ensures r == this
      ensures gpu.log == old(gpu.log) + [Recorded(cb, SetViewport(0, 1))]
    {
      gpu.Call(Recorded(cb, SetViewport(0, 1)));
      r := this;
    }

    /** viewport(QVector<QVkViewport>): all of them, from index 0. */
    method Viewports(count: nat) returns (r: Recorder)
      modifies gpu`log
      ensures r == this
      ensures gpu.log == old(gpu.log) + [Recorded(cb, SetViewport(0, count))]
    {
      gpu.Call(Recorded(cb, SetViewport(0, count)));
      r := this;
    }

    method Scissor(rect: Rect2D) returns (r: Recorder)
      modifies gpu`log
      ensures r == this
      ensures gpu.log == old(gpu.log) + [Recorded(cb, SetScissor(0, [rect]))]
    {
      gpu.Call(Recorded(cb, SetScissor(0, [rect])));
      r := this;
    }

    method Scissors(rects: seq<Rect2D>) returns (r: Recorder)
      modifies gpu`log
      ensures r == this
      ensures gpu.log == old(gpu.log) + [Recorded(cb, SetScissor(0, rects))]
    {
      gpu.Call(Recorded(cb, SetScissor(0, rects)));
      r := this;
    }

    /** draw(vertices, first_vertex, instances, first_instance) emits vkCmdDraw with the
        instance count second and the first vertex third. */
    method Draw(vertices: U32, firstVertex: U32 := 0, instances: U32 := 1, firstInstance: U32 := 0) returns (r: Recorder)
      modifies gpu`log
      ensures r == this
      ensures gpu.log == old(gpu.log) + [Recorded(cb, Command.Draw(vertexCount := vertices, instanceCount := instances,
                                                                  firstVertex := firstVertex, firstInstance := firstInstance))]
    {
      gpu.Call(Recorded(cb, Command.Draw(vertices, instances, firstVertex, firstInstance)));
      r := this;
    }

    /** Two clear values (the caller's colour, then depth 1.0 and stencil 0) and inline
        subpass contents. */
    method BeginRenderPass(renderPass: Handle, framebuffer: Handle, area: Rect2D, clearColor: Color) returns (r: Recorder)
      modifies gpu`log
      ensures r == this
      ensures gpu.log == old(gpu.log) + [Recorded(cb, Command.BeginRenderPass(renderPass, framebuffer, area,
                [ClearColor(clearColor), ClearDepthStencil(1.0, 0)], Inline))]
    {
      var clearValues := [ClearColor(clearColor), ClearDepthStencil(1.0, 0)];
      gpu.Call(Recorded(cb, Command.BeginRenderPass(renderPass, framebuffer, area, clearValues, Inline)));
      r := this;
    }

    /** The older header's beginRenderPass: the same, with a colour fixed in the code. */
    method BeginRenderPassFixedColor(renderPass: Handle, framebuffer: Handle, area: Rect2D) returns (r: Recorder)
      modifies gpu`log
      ensures r == this
      ensures gpu.log == old(gpu.log) + [Recorded(cb, Command.BeginRenderPass(renderPass, framebuffer, area,
                [ClearColor(FIXED_CLEAR_COLOR), ClearDepthStencil(1.0, 0)], Inline))]
    {
      r := BeginRenderPass(renderPass, framebuffer, area, FIXED_CLEAR_COLOR);
    }

    method EndRenderPass() returns (r: Recorder)
      modifies gpu`log
      ensures r == this
      ensures gpu.log == old(gpu.log) + [Recorded(cb, Command.EndRenderPass)]
    {
      gpu.Call(Recorded(cb, Command.EndRenderPass));
      r := this;
    }

    method BindPipeline(pipeline: Handle) returns (r: Recorder)
      modifies gpu`log
      ensures r == this
      ensures gpu.log == old(gpu.log) + [Recorded(cb, Command.BindPipeline(Graphics, pipeline))]
    {
      gpu.Call(Recorded(cb, Command.BindPipeline(Graphics, pipeline)));
      r := this;
    }

    /** Exactly one set, bound at set number 0; the first `dynamicOffsetCount` offsets
        are passed (the pointer must reach that many). */
    method BindDescriptorSet(layout: Handle, descriptorSet: Handle, dynamicOffsetCount: nat := 0, dynamicOffsets: seq<nat> := [])
      returns (r: Recorder)
      requires dynamicOffsetCount <= |dynamicOffsets|
      modifies gpu`log
      ensures r == this
      ensures gpu.log == old(gpu.log) + [Recorded(cb, Command.BindDescriptorSets(Graphics, layout, 0, [descriptorSet],
                dynamicOffsets[..dynamicOffsetCount]))]
    {
      gpu.Call(Recorded(cb, Command.BindDescriptorSets(Graphics, layout, 0, [descriptorSet], dynamicOffsets[..dynamicOffsetCount])));
      r := this;
    }

    /** The sets and the dynamic offsets go through whole, each with its own size. */
    method BindDescriptorSets(layout: Handle, firstSet: U32, sets: seq<Handle>, dynamicOffsets: seq<nat>) returns (r: Recorder)
      modifies gpu`log
      ensures r == this
      ensures gpu.log == old(gpu.log) + [Recorded(cb, Command.BindDescriptorSets(Graphics, layout, firstSet, sets, dynamicOffsets))]
    {
      gpu.Call(Recorded(cb, Command.BindDescriptorSets(Graphics, layout, firstSet, sets, dynamicOffsets)));
      r := this;
    }

    /** The full form: every argument is passed on; memory and buffer barriers are kept
        by count, the first `imageBarrierCount` image barriers by value. */
    method PipelineBarrier(srcStageMask: Flags, dstStageMask: Flags, dependencyFlags: Flags,
                           memoryBarrierCount: U32, bufferMemoryBarrierCount: U32,
                           imageBarrierCount: U32, imageBarriers: seq<ImageBarrier>) returns (r: Recorder)
      requires imageBarrierCount <= |imageBarriers|
      modifies gpu`log
      ensures r == this
      ensures gpu.log == old(gpu.log) + [Recorded(cb, Command.PipelineBarrier(srcStageMask, dstStageMask, dependencyFlags,
                memoryBarrierCount, bufferMemoryBarrierCount, imageBarriers[..imageBarrierCount]))]
    {
      gpu.Call(Recorded(cb, Command.PipelineBarrier(srcStageMask, dstStageMask, dependencyFlags,
                memoryBarrierCount, bufferMemoryBarrierCount, imageBarriers[..imageBarrierCount])));
      r := this;
    }

    /** The image-only form: no memory or buffer barriers and exactly one image barrier. */
    method PipelineBarrierImage(srcStageMask: Flags, dstStageMask: Flags, dependencyFlags: Flags, barrier: ImageBarrier)
      returns (r: Recorder)
      modifies gpu`log
      ensures r == this
      ensures gpu.log == old(gpu.log) + [Recorded(cb, Command.PipelineBarrier(srcStageMask, dstStageMask, dependencyFlags, 0, 0, [barrier]))]
    {
      assert [barrier][..1] == [barrier];
      r := PipelineBarrier(srcStageMask, dstStageMask, dependencyFlags, 0, 0, 1, [barrier]);
    }

    /** transformImage: the barrier carries `dstAccess` until the switch on `toLayout`
        overwrites it, so what is recorded is the common layout transition. */
    method TransformImage(image: Handle, fromLayout: ImageLayout, toLayout: ImageLayout,
                          aspectMask: Flags := IMAGE_ASPECT_COLOR_BIT, srcAccess: Flags := 0, dstAccess: Flags := 0)
      returns (r: Recorder)
      modifies gpu`log
      ensures r == this
      ensures gpu.log == old(gpu.log) + [Recorded(cb, LayoutTransition(image, aspectMask, fromLayout, toLayout, srcAccess))]
    {
      var barrier := ImageBarrier(srcAccess, dstAccess, fromLayout, toLayout, 0, 0, image,
                                  SubresourceRange(aspectMask, 0, 1, 0, 1));
      barrier := barrier.(dstAccessMask := TransformImageDstAccess(toLayout, dstAccess));
      AccessPoliciesAgree(toLayout, dstAccess);
      var stages := PIPELINE_STAGE_TOP_OF_PIPE_BIT;
      gpu.Call(Recorded(cb, Command.PipelineBarrier(stages, stages, 0, 0, 0, [barrier])));
      r := this;
    }
  }

  /** A primary command buffer: allocated from `pool` on construction, freed on
      destruction. (The older header also forbids copying it; a Dafny object is only
      ever shared by reference, never copied.) */
  class CommandBuffer {
    const gpu: Gpu
    const pool: Handle
    /** m_cmdbuf */
    const handle: Handle

    constructor (gpu: Gpu, pool: Handle)
      requires gpu.Valid()
      modifies gpu`log, gpu`next, gpu`live
      ensures gpu.Valid() && this.gpu == gpu && this.pool == pool
      ensures handle != NullHandle && handle !in old(gpu.live) && handle !in gpu.semaphores
      ensures handle == old(gpu.next) && gpu.next == old(gpu.next) + 1
      ensures gpu.live == old(gpu.live) + {handle}
      ensures gpu.log == old(gpu.log) + [Created(Kind.CommandBuffer, handle)]
    {
      this.gpu := gpu;
      this.pool := pool;
      var h := gpu.Create(Kind.CommandBuffer);
      this.handle := h;
    }

    /** record(flags): a recorder on this buffer, which begins it. */
    method Record(flags: Flags := 0) returns (r: Recorder)
      modifies gpu`log
      ensures fresh(r) && r.gpu == gpu && r.cb == handle
      ensures gpu.log == old(gpu.log) + [Begun(handle, flags)]
    {
      r := new Recorder(gpu, handle, flags);
    }

    /** The destructor frees the buffer the constructor allocated, and nothing else. */
    method Release()
      requires gpu.Valid()
      modifies gpu`log, gpu`live
      ensures gpu.Valid()
      ensures gpu.live == old(gpu.live) - {handle}
      ensures gpu.log == old(gpu.log) + [Destroyed(Kind.CommandBuffer, handle)]
    {
      gpu.Destroy(Kind.CommandBuffer, handle);
    }
  }

  /** How QVkQueue::present reacts to a result code. */
  datatype PresentVerdict = Accepted | WarnedOutOfDate | Aborted

  function QueuePresentVerdict(result: VkResult): (v: PresentVerdict)
    ensures v == WarnedOutOfDate <==> result == ErrorOutOfDate
    ensures v == Accepted <==> result == Success || result == Suboptimal
    ensures v == Aborted <==> result !in {Success, Suboptimal, ErrorOutOfDate}
  {
    if result == ErrorOutOfDate then WarnedOutOfDate
    else if result == Suboptimal then Accepted
    else if result == Success then Accepted
    else Aborted
  }

  class Queue {
    const gpu: Gpu
    const queue: Handle

    constructor (gpu: Gpu, queue: Handle)
      ensures this.gpu == gpu && this.queue == queue
    {
      this.gpu := gpu;
      this.queue := queue;
    }

    method WaitIdle()
      modifies gpu`log
      ensures gpu.log == old(gpu.log) + [QueueWaitedIdle]
    {
      gpu.Call(QueueWaitedIdle);
    }

    /** One command buffer, no semaphores, no fence. */
    method Submit(cb: Handle)
      modifies gpu`log
      ensures gpu.log == old(gpu.log) + [Submitted(cb, NullHandle)]
    {
      gpu.Call(Submitted(cb, NullHandle));
    }

    /** Presents one image; `result` is what the driver answers. Out-of-date only warns:
        nothing is recreated and nothing but the log changes. */
    method Present(swapchain: Handle, imageIndex: U32, result: VkResult) returns (v: PresentVerdict)
      modifies gpu`log
      ensures v == QueuePresentVerdict(result)
      ensures gpu.log == old(gpu.log) + [Presented(swapchain, imageIndex, result)]
    {
      gpu.Call(Presented(swapchain, imageIndex, result));
      v := QueuePresentVerdict(result);
    }
  }
}

=== FILE: swapchain.dfy ===
/** QVkSwapchain: owns one VkSwapchainKHR, created from the negotiated parameters and
    handed the previous swapchain (if any) so the driver can recycle its images. */
module Swapchain {
  import opened VkTypes
  import opened Gpu
  import opened Wrappers
  import SwapchainChoice

  datatype SharingMode = Exclusive | Concurrent

  /** VkSwapchainCreateInfoKHR */
  datatype SwapchainCreateInfo = SwapchainCreateInfo(
    surface: Handle,
    minImageCount: U32,
    imageFormat: Format,
    imageColorSpace: ColorSpace,
    imageExtent: Extent2D,
    imageUsage: Flags,
    preTransform: Flags,
    compositeAlpha: Flags,
    imageArrayLayers: nat,
    imageSharingMode: SharingMode,
    queueFamilyIndices: seq<nat>,
    presentMode: PresentMode,
    oldSwapchain: Handle,
    clipped: bool)

  /** The create-info of the constructor: the negotiated parameters as given, the
      previous swapchain's handle or VK_NULL_HANDLE, and fixed colour-attachment usage,
      opaque composition, one array layer, exclusive sharing and clipping. */
  function SwapchainCreateInfoFor(surface: Handle, minImages: U32, format: Format, colorSpace: ColorSpace,
                                  extent: Extent2D, presentMode: PresentMode, preTransform: Flags,
                                  oldSwapchain: Option<Handle>): (ci: SwapchainCreateInfo)
    ensures ci.surface == surface && ci.minImageCount == minImages
    ensures ci.imageFormat == format && ci.imageColorSpace == colorSpace && ci.imageExtent == extent
    ensures ci.presentMode == presentMode && ci.preTransform == preTransform
    ensures oldSwapchain.None? ==> ci.oldSwapchain == NullHandle
    ensures oldSwapchain.Some? ==> ci.oldSwapchain == oldSwapchain.value
    ensures ci.imageUsage == IMAGE_USAGE_COLOR_ATTACHMENT_BIT && ci.compositeAlpha == COMPOSITE_ALPHA_OPAQUE_BIT
    ensures ci.imageArrayLayers == 1 && ci.imageSharingMode == Exclusive && ci.queueFamilyIndices == []
    ensures ci.clipped
  {
    SwapchainCreateInfo(surface, minImages, format, colorSpace, extent, IMAGE_USAGE_COLOR_ATTACHMENT_BIT,
                        preTransform, COMPOSITE_ALPHA_OPAQUE_BIT, 1, Exclusive, [], presentMode,
                        match oldSwapchain case Some(h) => h case None => NullHandle, true)
  }

  /** The create-info the view builds from a surface's capabilities stays within them:
      no more images than the maximum (when there is one), at least the minimum unless
      the 32-bit addition wraps, a transform the surface reports, and a present mode
      the surface lists (FIFO is always available). */
  lemma NegotiatedCreateInfoRespectsCapabilities(surface: Handle, caps: SurfaceCapabilities, modes: seq<PresentMode>,
                                                 format: Format, colorSpace: ColorSpace, oldSwapchain: Option<Handle>)
    requires caps.minImageCount <= UINT32_MAX && caps.maxImageCount <= UINT32_MAX
    ensures var ci := SwapchainCreateInfoFor(surface, SwapchainChoice.DesiredImageCount(caps), format, colorSpace,
                                             SwapchainChoice.SwapchainExtent(caps).extent,
                                             SwapchainChoice.PreferredPresentMode(modes),
                                             SwapchainChoice.PreTransform(caps), oldSwapchain);
            (caps.maxImageCount > 0 ==> ci.minImageCount <= caps.maxImageCount) &&
            (caps.minImageCount < UINT32_MAX && caps.minImageCount <= caps.maxImageCount ==> caps.minImageCount <= ci.minImageCount) &&
            (ci.preTransform == SURFACE_TRANSFORM_IDENTITY_BIT || ci.preTransform == caps.currentTransform) &&
            (ci.presentMode in modes || ci.presentMode == Fifo)
  {
    SwapchainChoice.PresentModeIgnoresOrder(modes, modes);
  }

  class Swapchain {
    const gpu: Gpu
    /** m_swapchain */
    const handle: Handle
    const createInfo: SwapchainCreateInfo

    /** The device and surface must be non-null (asserted on entry). */
    constructor (gpu: Gpu, device: Handle, surface: Handle, minImages: U32, format: Format, colorSpace: ColorSpace,
                 extent: Extent2D, presentMode: PresentMode, preTransform: Flags, oldSwapchain: Swapchain?)
      requires device != NullHandle && surface != NullHandle
      requires gpu.Valid()
      modifies gpu`log, gpu`next, gpu`live
      ensures gpu.Valid() && this.gpu == gpu
      ensures createInfo == SwapchainCreateInfoFor(surface, minImages, format, colorSpace, extent, presentMode, preTransform,
                                                   if oldSwapchain == null then None else Some(oldSwapchain.handle))
      ensures handle != NullHandle && handle !in old(gpu.live) && handle !in gpu.semaphores
      ensures handle == old(gpu.next) && gpu.next == old(gpu.next) + 1
      ensures gpu.live == old(gpu.live) + {handle}
      ensures gpu.log == old(gpu.log) + [Created(Kind.Swapchain, handle)]
    {
      this.gpu := gpu;
      var previous := if oldSwapchain == null then None else Some(oldSwapchain.handle);
      this.createInfo := SwapchainCreateInfoFor(surface, minImages, format, colorSpace, extent, presentMode, preTransform, previous);
      var h := gpu.Create(Kind.Swapchain);
      this.handle := h;
    }

    /** The destructor destroys this swapchain and nothing else. */
    method Release()
      requires gpu.Valid()
      modifies gpu`log, gpu`live
      ensures gpu.Valid()
      ensures gpu.live == old(gpu.live) - {handle}
      ensures gpu.log == old(gpu.log) + [Destroyed(Kind.Swapchain, handle)]
    {
      gpu.Destroy(Kind.Swapchain, handle);
    }

    /** getSwapchainImages: asks the driver about this swapchain; `driverImages` is its
        answer, returned as given. */
    method GetSwapchainImages(driverImages: seq<Handle>) returns (images: seq<Handle>)
      modifies gpu`log
      ensures images == driverImages
      ensures gpu.log == old(gpu.log) + [ImagesQueried(handle)]
    {
      gpu.Call(ImagesQueried(handle));
      images := driverImages;
    }

    /** acquireNextImage: signals `semaphore` when the image is free; `result` and
        `driverIndex` are the driver's answer. */
    method AcquireNextImage(semaphore: Handle, result: VkResult, driverIndex: U32) returns (r: VkResult, imageIndex: U32)
      modifies gpu`log
      ensures r == result && imageIndex == driverIndex
      ensures gpu.log == old(gpu.log) + [Acquired(handle, semaphore, result)]
    {
      gpu.Call(Acquired(handle, semaphore, result));
      r, imageIndex := result, driverIndex;
    }
  }
}

=== FILE: swapchain_choice.dfy ===
/** The swapchain parameters the view negotiates with the surface (VK_KHR_surface and
    VK_KHR_swapchain of the Vulkan 1.0 specification): present mode, image count,
    pre-transform, extent, surface format, and the queue family that must do both
    graphics and presentation. */
module SwapchainChoice {
  import opened VkTypes
  import opened Wrappers

  // ---------------------------------------------------------------- present mode

  /** MAILBOX when the surface offers it, else IMMEDIATE when offered, else FIFO
      (which every surface supports). */
  function PreferredPresentMode(modes: seq<PresentMode>): PresentMode
  {
    if Mailbox in modes then Mailbox
    else if Immediate in modes then Immediate
    else Fifo
  }

  /** The choice depends only on which modes are offered, not on their order or
      repetition, and is always an offered mode or FIFO. */
  lemma PresentModeIgnoresOrder(a: seq<PresentMode>, b: seq<PresentMode>)
    requires forall m :: m in a <==> m in b
    ensures PreferredPresentMode(a) == PreferredPresentMode(b)
    ensures PreferredPresentMode(a) in a || PreferredPresentMode(a) == Fifo
  {
  }

  /** The loop of prepare_buffers: start from FIFO, stop at MAILBOX, and take IMMEDIATE
      when it is seen (MAILBOX never having been taken). */
  method ChoosePresentMode(modes: seq<PresentMode>) returns (mode: PresentMode)
    ensures mode == PreferredPresentMode(modes)
  {
    mode := Fifo;
    var i := 0;
    while i < |modes|
      invariant 0 <= i <= |modes|
      invariant Mailbox !in modes[..i]
      invariant mode == (if Immediate in modes[..i] then Immediate else Fifo)
    {
      if modes[i] == Mailbox {
        mode := modes[i];
        return;
      }
      if mode != Mailbox && modes[i] == Immediate {
        mode := modes[i];
      }
      assert modes[..i + 1] == modes[..i] + [modes[i]];
      i := i + 1;
    }
    assert modes[..i] == modes;
  }

  // ---------------------------------------------------------------- image count

  /** minImageCount + 1 in 32-bit unsigned arithmetic, lowered to maxImageCount when
      the surface has a maximum (non-zero) and the wish exceeds it. */
  function DesiredImageCount(caps: SurfaceCapabilities): (n: U32)
    requires caps.minImageCount <= UINT32_MAX && caps.maxImageCount <= UINT32_MAX
    ensures caps.maxImageCount > 0 ==> n <= caps.maxImageCount
    ensures caps.minImageCount < UINT32_MAX && (caps.maxImageCount == 0 || caps.minImageCount < caps.maxImageCount)
            ==> n == caps.minImageCount + 1
    ensures caps.minImageCount < UINT32_MAX && caps.minImageCount <= caps.maxImageCount ==> caps.minImageCount <= n
    ensures caps.minImageCount < UINT32_MAX && caps.maxImageCount > 0 && caps.minImageCount + 1 > caps.maxImageCount
            ==> n == caps.maxImageCount
  {
    var desired := ToU32(caps.minImageCount + 1);
    if caps.maxImageCount > 0 && desired > caps.maxImageCount then caps.maxImageCount else desired
  }

  /** The one input where the unsigned addition wraps: a surface reporting
      minImageCount = 0xFFFFFFFF and no maximum gets an image count of 0. */
  lemma ImageCountWraps(caps: SurfaceCapabilities)
    requires caps.minImageCount == UINT32_MAX && caps.maxImageCount == 0
    ensures DesiredImageCount(caps) == 0
  {
  }

  // ---------------------------------------------------------------- pre-transform

  /** IDENTITY when the surface supports it, else the surface's current transform. */
  function PreTransform(caps: SurfaceCapabilities): (t: Flags)
    ensures caps.supportedTransforms & SURFACE_TRANSFORM_IDENTITY_BIT != 0 ==> t == SURFACE_TRANSFORM_IDENTITY_BIT
    ensures caps.supportedTransforms & SURFACE_TRANSFORM_IDENTITY_BIT == 0 ==> t == caps.currentTransform
  {
    if caps.supportedTransforms & SURFACE_TRANSFORM_IDENTITY_BIT != 0 then SURFACE_TRANSFORM_IDENTITY_BIT
    else caps.currentTransform
  }

  // ---------------------------------------------------------------- extent

  /** The special currentExtent width 0xFFFFFFFF means the surface size follows the
      swapchain. */
  const UNDEFINED_EXTENT_WIDTH: nat := UINT32_MAX
  const FALLBACK_EXTENT: Extent2D := Extent2D(400, 400)

  /** The swapchain extent, and whether the window is resized to it (it is whenever the
      surface dictates the size). */
  datatype ExtentChoice = ExtentChoice(extent: Extent2D, resizeWindow: bool)

  function SwapchainExtent(caps: SurfaceCapabilities): (c: ExtentChoice)
    ensures caps.currentExtent.width == UNDEFINED_EXTENT_WIDTH ==> c == ExtentChoice(FALLBACK_EXTENT, false)
    ensures caps.currentExtent.width != UNDEFINED_EXTENT_WIDTH ==> c == ExtentChoice(caps.currentExtent, true)
  {
    if caps.currentExtent.width == UNDEFINED_EXTENT_WIDTH then ExtentChoice(FALLBACK_EXTENT, false)
    else ExtentChoice(caps.currentExtent, true)
  }

  // ---------------------------------------------------------------- surface format

  /** A single UNDEFINED entry means "no preference" and gives B8G8R8A8_UNORM;
      otherwise the first entry's format. The colour space is always the first entry's.
      An empty list fails the assertion. */
  function ChooseSurfaceFormat(formats: seq<SurfaceFormat>): (r: Result<SurfaceFormat, string>)
    ensures r.Err? <==> formats == []
    ensures r.Ok? ==> r.value.colorSpace == formats[0].colorSpace
    ensures r.Ok? && |formats| == 1 && formats[0].format == FormatUndefined ==> r.value.format == B8G8R8A8Unorm
    ensures r.Ok? && !(|formats| == 1 && formats[0].format == FormatUndefined) ==> r.value.format == formats[0].format
  {
    if |formats| == 1 && formats[0].format == FormatUndefined then
      Ok(SurfaceFormat(B8G8R8A8Unorm, formats[0].colorSpace))
    else if |formats| >= 1 then
      Ok(SurfaceFormat(formats[0].format, formats[0].colorSpace))
    else
      Err("no surface formats")
  }

  /** The chosen format is one the surface listed, or the fallback for a surface with
      no preference; UNDEFINED survives only when it heads a longer list. */
  lemma SurfaceFormatIsOfferedOrFallback(formats: seq<SurfaceFormat>)
    requires ChooseSurfaceFormat(formats).Ok?
    ensures var f := ChooseSurfaceFormat(formats).value.format;
      (exists i :: 0 <= i < |formats| && formats[i].format == f) || f == B8G8R8A8Unorm
    ensures ChooseSurfaceFormat(formats).value.format == FormatUndefined ==> |formats| > 1
  {
    if !(|formats| == 1 && formats[0].format == FormatUndefined) {
      assert formats[0].format == ChooseSurfaceFormat(formats).value.format;
    }
  }

  // ---------------------------------------------------------------- queue family

  /** Family i can both draw and present to the surface. */
  predicate GraphicsAndPresent(families: seq<QueueFamilyProperties>, supportsPresent: seq<bool>, i: int)
    requires |supportsPresent| == |families|
  {
    0 <= i < |families| && IsGraphics(families[i]) && supportsPresent[i]
  }

  /** The two search loops of init_vk_swapchain (and of the lib view's constructor).
      `supportsPresent[i]` is what vkGetPhysicalDeviceSurfaceSupportKHR answers for
      family i. The first loop remembers the first graphics family and stops at a
      family that can also present; failing that, the second loop takes the first
      family that can present. Either index missing, or the two differing, is fatal. */
  method SelectQueueFamily(families: seq<QueueFamilyProperties>, supportsPresent: seq<bool>)
    returns (r: Result<nat, string>)
    requires |supportsPresent| == |families| <= UINT32_MAX
    ensures r.Ok? <==> exists i :: GraphicsAndPresent(families, supportsPresent, i)
    ensures r.Ok? ==> GraphicsAndPresent(families, supportsPresent, r.value) &&
                      forall j :: 0 <= j < r.value ==> !GraphicsAndPresent(families, supportsPresent, j)
  {
    var graphicsIndex: nat := UINT32_MAX;
    var presentIndex: nat := UINT32_MAX;
    var i := 0;
    while i < |families|
      invariant 0 <= i <= |families|
      invariant forall j :: 0 <= j < i ==> !GraphicsAndPresent(families, supportsPresent, j)
      invariant graphicsIndex == UINT32_MAX ==> forall j :: 0 <= j < i ==> !IsGraphics(families[j])
      invariant graphicsIndex != UINT32_MAX ==> graphicsIndex < i && IsGraphics(families[graphicsIndex])
      invariant presentIndex == UINT32_MAX
    {
      if families[i].queueFlags & QUEUE_GRAPHICS_BIT != 0 {
        if graphicsIndex == UINT32_MAX {
          graphicsIndex := i;
        }
        if supportsPresent[i] {
          graphicsIndex := i;
          presentIndex := i;
          break;
        }
      }
      i := i + 1;
    }
    var foundBoth := presentIndex != UINT32_MAX;
    assert foundBoth ==> graphicsIndex == presentIndex && GraphicsAndPresent(families, supportsPresent, presentIndex) &&
                         forall j :: 0 <= j < presentIndex ==> !GraphicsAndPresent(families, supportsPresent, j);
    if presentIndex == UINT32_MAX {
      assert forall j :: 0 <= j < |families| ==> !GraphicsAndPresent(families, supportsPresent, j);
      var k := 0;
      while k < |families| && !supportsPresent[k]
        invariant 0 <= k <= |families|
        invariant forall j :: 0 <= j < k ==> !supportsPresent[j]
      {
        k := k + 1;
      }
      if k < |families| {
        presentIndex := k;
      }
      assert graphicsIndex != UINT32_MAX && presentIndex != UINT32_MAX ==> graphicsIndex != presentIndex by {
        if graphicsIndex != UINT32_MAX && presentIndex != UINT32_MAX && graphicsIndex == presentIndex {
          assert GraphicsAndPresent(families, supportsPresent, graphicsIndex);
        }
      }
    }
    if graphicsIndex == UINT32_MAX || presentIndex == UINT32_MAX {
      return Err("Could not find a graphics and a present queue");
    }
    if graphicsIndex != presentIndex {
      return Err("Could not find a common graphics and a present queue");
    }
    r := Ok(graphicsIndex);
  }
}

=== FILE: uniform_buffer.dfy ===
/** QVkUniformBuffer<UniformStruct>: a host-visible buffer holding one UniformStruct,
    with a host-side copy that update() pushes to device memory. The struct is modelled
    by its bytes; `structSize` stands for sizeof(UniformStruct). */
module UniformBuffer {
  import opened VkTypes
  import opened MemoryTypes
  import opened Gpu

  datatype DescriptorBufferInfo = DescriptorBufferInfo(buffer: Handle, offset: nat, range: nat)

  class UniformBuffer {
    const gpu: Gpu
    const memoryProperties: MemoryTypeTable
    const structSize: nat

    var buffer: Handle
    var memory: Handle
    var allocationSize: nat
    /** The memoryTypeIndex passed to vkAllocateMemory, and whether the search found it
        (the constructor asserts it did; a build without assertions allocates type 0). */
    var memoryTypeIndex: U32
    var typeFound: bool
    var descriptorInfo: DescriptorBufferInfo
    /** m_hostData, the copy data() hands out. */
    var hostData: seq<bv8>

    constructor (gpu: Gpu, memoryProperties: MemoryTypeTable, structSize: nat, requirements: MemoryRequirements)
      requires gpu.Valid()
      modifies gpu`log, gpu`next, gpu`live
      ensures gpu.Valid() && this.gpu == gpu
      ensures this.memoryProperties == memoryProperties && this.structSize == structSize
      ensures buffer !in old(gpu.live) && memory !in old(gpu.live) && buffer != memory
      ensures gpu.live == old(gpu.live) + {buffer, memory}
      ensures gpu.log == old(gpu.log) + [Created(Buffer, buffer), Created(DeviceMemory, memory), MemoryBound(buffer, memory)]
      ensures allocationSize == requirements.size
      ensures typeFound == (LowestQualifying(memoryProperties, requirements.memoryTypeBits, MEMORY_PROPERTY_HOST_VISIBLE_BIT) != -1)
      ensures typeFound ==> memoryTypeIndex == LowestQualifying(memoryProperties, requirements.memoryTypeBits, MEMORY_PROPERTY_HOST_VISIBLE_BIT)
      ensures typeFound ==> HasBits(memoryProperties[memoryTypeIndex], MEMORY_PROPERTY_HOST_VISIBLE_BIT)
      ensures !typeFound ==> memoryTypeIndex == 0
      ensures descriptorInfo == DescriptorBufferInfo(buffer, 0, structSize)
      ensures hostData == seq(structSize, _ => 0)
    {
      this.gpu := gpu;
      this.memoryProperties := memoryProperties;
      this.structSize := structSize;
      new;
      buffer := gpu.Create(Buffer);
      allocationSize := requirements.size;
      typeFound, memoryTypeIndex := MemoryTypeFromProperties(requirements.memoryTypeBits, MEMORY_PROPERTY_HOST_VISIBLE_BIT, 0);
      memory := gpu.Create(DeviceMemory);
      gpu.Call(MemoryBound(buffer, memory));
      descriptorInfo := DescriptorBufferInfo(buffer, 0, structSize);
      hostData := seq(structSize, _ => 0);
    }

    /** Walks i = 0..31 over the shifted `typeBits`; on the first qualifying index it
        writes it to the out-parameter and returns true, otherwise it leaves the
        out-parameter as it was and returns false. */
    method MemoryTypeFromProperties(typeBits: U32, requirementsMask: Flags, typeIndex: U32) returns (pass: bool, typeIndexOut: U32)
      ensures pass <==> LowestQualifying(memoryProperties, typeBits, requirementsMask) != -1
      ensures pass ==> typeIndexOut == LowestQualifying(memoryProperties, typeBits, requirementsMask)
      ensures pass ==> Qualifies(memoryProperties, typeBits, requirementsMask, typeIndexOut)
      ensures !pass ==> typeIndexOut == typeIndex
    {
      var bits: nat := typeBits;
      var i: nat := 0;
      while i < MAX_MEMORY_TYPES
        invariant i <= MAX_MEMORY_TYPES
        invariant bits == Shifted(typeBits, i)
        invariant LowestQualifying(memoryProperties, typeBits, requirementsMask)
               == FirstQualifyingFrom(memoryProperties, typeBits, requirementsMask, i)
      {
        if bits % 2 == 1 {
          if memoryProperties[i] & requirementsMask == requirementsMask {
            return true, i;
          }
        }
        bits := bits / 2;
        i := i + 1;
      }
      return false, typeIndex;
    }

    /** data(): the host copy; writing through it touches no device memory. */
    function Data(): (d: seq<bv8>)
      reads this
      ensures d == hostData
    {
      hostData
    }

    /** A write through the pointer data() returns. */
    method WriteHostData(bytes: seq<bv8>)
      requires |bytes| == structSize
      modifies this`hostData
      ensures hostData == bytes
    {
      hostData := bytes;
    }

    /** update(): map the whole allocation, copy the host struct, unmap. */
    method Update()
      modifies gpu`log
      ensures gpu.log == old(gpu.log) + [Mapped(memory, allocationSize), CopiedToMapping(memory, hostData), Unmapped(memory)]
    {
      gpu.Call(Mapped(memory, allocationSize));
      gpu.Call(CopiedToMapping(memory, hostData));
      gpu.Call(Unmapped(memory));
    }

    /** The destructor: destroy the buffer, then free its memory. */
    method Release()
      requires gpu.Valid()
      modifies gpu`log, gpu`live
      ensures gpu.Valid()
      ensures gpu.live == old(gpu.live) - {buffer, memory}
      ensures gpu.log == old(gpu.log) + [Destroyed(Buffer, buffer), Destroyed(DeviceMemory, memory)]
    {
      gpu.Destroy(Buffer, buffer);
      gpu.Destroy(DeviceMemory, memory);
    }
  }
}

=== FILE: vk_types.dfy ===
/** The slice of the Vulkan 1.0 API that the demo's logic depends on: opaque handles,
    the flag bits it tests, and the enumerations it switches over. Flag words are
    32-bit masks, as in the C headers; enumerations are datatypes. */
module VkTypes {
  /** A dispatchable or non-dispatchable object handle; 0 is VK_NULL_HANDLE. */
  type Handle = nat
  const NullHandle: Handle := 0

  type Flags = bv32

  const UINT32_MAX: nat := 0xFFFF_FFFF
  const TWO_POW_32: nat := 0x1_0000_0000

  /** A C++ `uint32_t`. */
  type U32 = x: nat | x <= UINT32_MAX

  /** The value a C++ `uint32_t` receives when it is assigned the integer x. */
  function ToU32(x: int): (r: nat)
    ensures r <= UINT32_MAX
    ensures 0 <= x <= UINT32_MAX ==> r == x
    ensures (r - x) % TWO_POW_32 == 0
  {
    x % TWO_POW_32
  }

  // VkQueueFlagBits
  const QUEUE_GRAPHICS_BIT: Flags := 0x1
  const QUEUE_COMPUTE_BIT: Flags := 0x2
  const QUEUE_TRANSFER_BIT: Flags := 0x4

  // VkMemoryPropertyFlagBits
  const MEMORY_PROPERTY_DEVICE_LOCAL_BIT: Flags := 0x1
  const MEMORY_PROPERTY_HOST_VISIBLE_BIT: Flags := 0x2

  // VkAccessFlagBits
  const ACCESS_INPUT_ATTACHMENT_READ_BIT: Flags := 0x10
  const ACCESS_SHADER_READ_BIT: Flags := 0x20
  const ACCESS_COLOR_ATTACHMENT_WRITE_BIT: Flags := 0x100
  const ACCESS_DEPTH_STENCIL_ATTACHMENT_WRITE_BIT: Flags := 0x400
  const ACCESS_TRANSFER_READ_BIT: Flags := 0x800
  const ACCESS_HOST_WRITE_BIT: Flags := 0x4000

  // VkPipelineStageFlagBits
  const PIPELINE_STAGE_TOP_OF_PIPE_BIT: Flags := 0x1

  // VkImageAspectFlagBits
  const IMAGE_ASPECT_COLOR_BIT: Flags := 0x1
  const IMAGE_ASPECT_DEPTH_BIT: Flags := 0x2

  // VkImageUsageFlagBits
  const IMAGE_USAGE_TRANSFER_SRC_BIT: Flags := 0x1
  const IMAGE_USAGE_TRANSFER_DST_BIT: Flags := 0x2
  const IMAGE_USAGE_SAMPLED_BIT: Flags := 0x4
  const IMAGE_USAGE_COLOR_ATTACHMENT_BIT: Flags := 0x10
  const IMAGE_USAGE_DEPTH_STENCIL_ATTACHMENT_BIT: Flags := 0x20

  // VkFormatFeatureFlagBits
  const FORMAT_FEATURE_SAMPLED_IMAGE_BIT: Flags := 0x1

  // VkSurfaceTransformFlagBitsKHR
  const SURFACE_TRANSFORM_IDENTITY_BIT: Flags := 0x1

  // VkCompositeAlphaFlagBitsKHR
  const COMPOSITE_ALPHA_OPAQUE_BIT: Flags := 0x1

  // VkSampleCountFlagBits
  const SAMPLE_COUNT_1_BIT: Flags := 0x1

  // VkDebugReportFlagBitsEXT
  const DEBUG_REPORT_INFORMATION_BIT: Flags := 0x1
  const DEBUG_REPORT_WARNING_BIT: Flags := 0x2
  const DEBUG_REPORT_PERFORMANCE_WARNING_BIT: Flags := 0x4
  const DEBUG_REPORT_ERROR_BIT: Flags := 0x8
  const DEBUG_REPORT_DEBUG_BIT: Flags := 0x10

  // Extension names
  const KHR_SURFACE_EXTENSION_NAME: string := "VK_KHR_surface"
  const KHR_XCB_SURFACE_EXTENSION_NAME: string := "VK_KHR_xcb_surface"
  const EXT_DEBUG_REPORT_EXTENSION_NAME: string := "VK_EXT_debug_report"
  const KHR_SWAPCHAIN_EXTENSION_NAME: string := "VK_KHR_swapchain"

  /** Whether every bit of `bits` is set in `flags`. */
  predicate HasBits(flags: Flags, bits: Flags) {
    flags & bits == bits
  }

  datatype ImageLayout =
    | Undefined
    | General
    | ColorAttachmentOptimal
    | DepthStencilAttachmentOptimal
    | DepthStencilReadOnlyOptimal
    | ShaderReadOnlyOptimal
    | TransferSrcOptimal
    | TransferDstOptimal
    | Preinitialized
    | PresentSrc

  /** The VkFormat values the demo names. */
  datatype Format =
    | FormatUndefined
    | R4G4B4A4UnormPack16
    | R5G6B5UnormPack16
    | R5G5B5A1UnormPack16
    | R8Uint
    | R8G8B8Uint
    | R8G8B8A8Unorm
    | R8G8B8A8Uint
    | B8G8R8A8Unorm
    | A8B8G8R8UintPack32
    | A2R10G10B10UintPack32
    | A2B10G10R10UintPack32
    | D16Unorm
    | OtherFormat(code: nat)

  datatype ColorSpace = SrgbNonlinear | OtherColorSpace(code: nat)

  datatype PresentMode = Immediate | Mailbox | Fifo | FifoRelaxed

  datatype ImageTiling = TilingOptimal | TilingLinear

  /** VkResult, reduced to the codes the demo distinguishes. */
  datatype VkResult =
    | Success
    | Suboptimal
    | ErrorOutOfDate
    | NotReady
    | Timeout
    | Incomplete
    | ErrorDeviceLost
    | ErrorSurfaceLost
    | ErrorOutOfMemory

  datatype Offset2D = Offset2D(x: int, y: int)
  datatype Extent2D = Extent2D(width: nat, height: nat)
  datatype Rect2D = Rect2D(offset: Offset2D, extent: Extent2D)

  datatype SurfaceFormat = SurfaceFormat(format: Format, colorSpace: ColorSpace)

  /** VkSurfaceCapabilitiesKHR, without the fields the demo never reads. */
  datatype SurfaceCapabilities = SurfaceCapabilities(
    minImageCount: nat,
    maxImageCount: nat,
    currentExtent: Extent2D,
    supportedTransforms: Flags,
    currentTransform: Flags)

  datatype QueueFamilyProperties = QueueFamilyProperties(queueFlags: Flags, queueCount: nat)

  datatype LayerProperties = LayerProperties(layerName: string, description: string)
  datatype ExtensionProperties = ExtensionProperties(extensionName: string)

  /** What vkGetBufferMemoryRequirements / vkGetImageMemoryRequirements report. */
  datatype MemoryRequirements = MemoryRequirements(size: nat, memoryTypeBits: U32)

  datatype FormatProperties = FormatProperties(linearTilingFeatures: Flags, optimalTilingFeatures: Flags)

  /** The family's flags include the graphics bit. */
  predicate IsGraphics(q: QueueFamilyProperties) {
    q.queueFlags & QUEUE_GRAPHICS_BIT != 0
  }

  /** Some layer in `layers` carries the name `name`. */
  predicate LayerPresent(layers: seq<LayerProperties>, name: string) {
    exists i :: 0 <= i < |layers| && layers[i].layerName == name
  }

  /** Every name in `names` is carried by some layer in `layers`. */
  predicate AllLayersPresent(layers: seq<LayerProperties>, names: seq<string>) {
    forall j :: 0 <= j < |names| ==> LayerPresent(layers, names[j])
  }

  /** Some extension in `extensions` carries the name `name`. */
  predicate HasExtension(extensions: seq<ExtensionProperties>, name: string) {
    exists i :: 0 <= i < |extensions| && extensions[i].extensionName == name
  }
}

=== FILE: vk_util.dfy ===
/** Helpers of cube/qvkutil.h and cube/qvkutil.cpp: the two-call enumeration helper,
    the QVkRect constructors, QVkDeviceResource, the QImage-to-Vulkan format table,
    layerNames, and the ScopeDebug call-depth counter. */
module VkUtil {
  import opened VkTypes
  import opened Wrappers

  // ---------------------------------------------------------------- getVk

  /** How a Vulkan enumeration function behaves during one getVk: what it has to report
      at the first call (which only asks for the count) and at the second (which fills
      the caller's array), and what each call returns. */
  datatype Getter<T(==)> = Getter(
    firstResult: VkResult, firstItems: seq<T>,
    secondResult: VkResult, secondItems: seq<T>)
  {
    /** A getter whose list does not change between the two calls and that succeeds. */
    predicate Steady() {
      firstResult == Success && secondResult == Success && firstItems == secondItems
    }
  }

  /** What a getter writes into an array of `count` value-initialised elements: at most
      `count` of its items, the rest left as they were. */
  function Filled<T>(items: seq<T>, count: nat, zero: T): (r: seq<T>)
    ensures |r| == count
    ensures forall i :: 0 <= i < count ==> r[i] == if i < |items| then items[i] else zero
  {
    if |items| >= count then items[..count] else items + seq(count - |items|, _ => zero)
  }

  /** getVk: ask for the count; when it is non-zero, resize the vector to that count
      and call again to fill it. Either call failing is an assertion failure. `calls`
      is the number of calls made on the getter. */
  method GetVk<T(==)>(getter: Getter<T>, zero: T) returns (r: Result<seq<T>, string>, calls: nat)
    requires |getter.firstItems| <= UINT32_MAX
    ensures getter.firstResult != Success ==> r.Err? && calls == 1
    ensures getter.firstResult == Success && |getter.firstItems| == 0 ==> r == Ok([]) && calls == 1
    ensures getter.firstResult == Success && |getter.firstItems| > 0 ==>
      calls == 2 &&
      r == (if getter.secondResult == Success then Ok(Filled(getter.secondItems, |getter.firstItems|, zero))
            else Err("getVk: second call failed"))
    ensures getter.Steady() ==> r == Ok(getter.firstItems)
  {
    calls := 1;
    var count := |getter.firstItems|;
    if getter.firstResult != Success {
      return Err("getVk: first call failed"), calls;
    }
    var ret: seq<T> := [];
    if count > 0 {
      ret := seq(count, _ => zero);
      calls := 2;
      if getter.secondResult != Success {
        return Err("getVk: second call failed"), calls;
      }
      ret := Filled(getter.secondItems, count, zero);
      assert getter.Steady() ==> getter.secondItems[..count] == getter.firstItems;
    }
    r := Ok(ret);
  }

  // ---------------------------------------------------------------- QVkRect

  /** QRect, by the values its accessors report. */
  datatype QRect = QRect(left: int, top: int, width: int, height: int)

  /** QVkRect(x, y, w, h): the offset takes x and y, the extent takes w and h as
      unsigned 32-bit values. */
  function RectFromInts(x: int, y: int, w: int, h: int): (r: Rect2D)
    ensures r.offset == Offset2D(x, y)
    ensures r.extent.width <= UINT32_MAX && r.extent.height <= UINT32_MAX
    ensures 0 <= w <= UINT32_MAX && 0 <= h <= UINT32_MAX ==> r.extent == Extent2D(w, h)
  {
    Rect2D(Offset2D(x, y), Extent2D(ToU32(w), ToU32(h)))
  }

  /** QVkRect(QRect) and QVkRect::operator=(QRect) both copy left, top, width and height. */
  function RectFromQRect(qr: QRect): (r: Rect2D)
    ensures r == RectFromInts(qr.left, qr.top, qr.width, qr.height)
  {
    Rect2D(Offset2D(qr.left, qr.top), Extent2D(ToU32(qr.width), ToU32(qr.height)))
  }

  /** A negative width wraps around in the unsigned extent. */
  lemma NegativeWidthWraps(x: int, y: int, h: int)
    ensures RectFromInts(x, y, -1, h).extent.width == UINT32_MAX
  {
  }

  // ---------------------------------------------------------------- QVkDeviceResource

  class DeviceResource {
    const device: Handle

    constructor (dev: Handle)
      ensures device == dev
    {
      device := dev;
    }

    /** device(): the handle given at construction. */
    function Device(): (d: Handle)
      ensures d == device
    {
      device
    }
  }

  // ---------------------------------------------------------------- QtFormat2vkFormat

  /** QImage::Format. */
  datatype QImageFormat =
    | FormatInvalid | Mono | MonoLSB | Indexed8 | RGB32 | ARGB32 | ARGB32Premultiplied
    | RGB16 | ARGB8565Premultiplied | RGB666 | ARGB6666Premultiplied | RGB555
    | ARGB8555Premultiplied | RGB888 | RGB444 | ARGB4444Premultiplied | RGBX8888
    | RGBA8888 | RGBA8888Premultiplied | BGR30 | A2BGR30Premultiplied | RGB30
    | A2RGB30Premultiplied | Alpha8 | Grayscale8 | OtherQImageFormat(code: nat)

  /** Bytes per pixel of a QImage format (Qt's own storage), where the demo cares. */
  function QImageBytesPerPixel(f: QImageFormat): nat
  {
    match f
    case RGB32 | ARGB32 | ARGB32Premultiplied | RGBX8888 | RGBA8888 | RGBA8888Premultiplied
       | BGR30 | A2BGR30Premultiplied | RGB30 | A2RGB30Premultiplied => 4
    case RGB888 | ARGB8565Premultiplied | RGB666 | ARGB6666Premultiplied | ARGB8555Premultiplied => 3
    case RGB16 | RGB555 | RGB444 | ARGB4444Premultiplied => 2
    case Indexed8 | Alpha8 | Grayscale8 => 1
    case _ => 0
  }

  /** Bytes per texel of a Vulkan format (0 when it has none). */
  function TexelBytes(f: Format): nat
  {
    match f
    case R8G8B8A8Unorm | R8G8B8A8Uint | B8G8R8A8Unorm | A8B8G8R8UintPack32
       | A2R10G10B10UintPack32 | A2B10G10R10UintPack32 => 4
    case R8G8B8Uint => 3
    case R4G4B4A4UnormPack16 | R5G6B5UnormPack16 | R5G5B5A1UnormPack16 | D16Unorm => 2
    case R8Uint => 1
    case _ => 0
  }

  /** QtFormat2vkFormat. Every format it maps keeps its pixel size, so a QImage
      scanline can be copied byte for byte into a texture of the returned format. */
  function QtFormatToVkFormat(f: QImageFormat): (r: Format)
    ensures f in {RGB32, ARGB32} ==> r == R8G8B8A8Unorm
    ensures f == ARGB32Premultiplied ==> r == A8B8G8R8UintPack32
    ensures f == RGB16 ==> r == R5G6B5UnormPack16
    ensures f == RGB555 ==> r == R5G5B5A1UnormPack16
    ensures f == RGB888 ==> r == R8G8B8Uint
    ensures f == RGB444 ==> r == R4G4B4A4UnormPack16
    ensures f in {RGBX8888, RGBA8888, RGBA8888Premultiplied} ==> r == R8G8B8A8Uint
    ensures f in {BGR30, A2BGR30Premultiplied, RGB30} ==> r == A2B10G10R10UintPack32
    ensures f == A2RGB30Premultiplied ==> r == A2R10G10B10UintPack32
    ensures f in {Alpha8, Grayscale8} ==> r == R8Uint
    ensures f in {Mono, MonoLSB, Indexed8, ARGB8565Premultiplied, RGB666} ==> r == FormatUndefined
    ensures f == ARGB6666Premultiplied ==> r == FormatUndefined
    ensures f in {ARGB8555Premultiplied, ARGB4444Premultiplied, FormatInvalid} ==> r == FormatUndefined
    ensures f.OtherQImageFormat? ==> r == FormatUndefined
    ensures r != FormatUndefined ==> TexelBytes(r) == QImageBytesPerPixel(f) > 0
  {
    match f
    case Mono => FormatUndefined
    case MonoLSB => FormatUndefined
    case Indexed8 => FormatUndefined
    case RGB32 => R8G8B8A8Unorm
    case ARGB32 => R8G8B8A8Unorm
    case ARGB32Premultiplied => A8B8G8R8UintPack32
    case RGB16 => R5G6B5UnormPack16
    case ARGB8565Premultiplied => FormatUndefined
    case RGB666 => FormatUndefined
    case ARGB6666Premultiplied => FormatUndefined
    case RGB555 => R5G5B5A1UnormPack16
    case ARGB8555Premultiplied => FormatUndefined
    case RGB888 => R8G8B8Uint
    case RGB444 => R4G4B4A4UnormPack16
    case ARGB4444Premultiplied => FormatUndefined
    case RGBX8888 => R8G8B8A8Uint
    case RGBA8888 => R8G8B8A8Uint
    case RGBA8888Premultiplied => R8G8B8A8Uint
    case BGR30 => A2B10G10R10UintPack32
    case A2BGR30Premultiplied => A2B10G10R10UintPack32
    case RGB30 => A2B10G10R10UintPack32
    case A2RGB30Premultiplied => A2R10G10B10UintPack32
    case Alpha8 => R8Uint
    case Grayscale8 => R8Uint
    case _ => FormatUndefined
  }

  // ---------------------------------------------------------------- layerNames

  /** layerNames: the name of each layer, in order. */
  method LayerNames(layers: seq<LayerProperties>) returns (names: seq<string>)
    ensures |names| == |layers|
    ensures forall i :: 0 <= i < |layers| ==> names[i] == layers[i].layerName
  {
    names := [];
    for i := 0 to |layers|
      invariant |names| == i
      invariant forall k :: 0 <= k < i ==> names[k] == layers[k].layerName
    {
      names := names + [layers[i].layerName];
    }
  }

  // ---------------------------------------------------------------- ScopeDebug

  /** The indentation operator() writes: two spaces per level of `stack`. */
  function Spaces(n: nat): (s: string)
    ensures |s| == n && forall i :: 0 <= i < n ==> s[i] == ' '
  {
    seq(n, _ => ' ')
  }

  /** The unsigned counter after `stack++` and after `stack--`. */
  function Incremented(depth: U32): U32 { ToU32(depth + 1) }
  function Decremented(depth: U32): U32 { ToU32(depth - 1) }

  /** A decrement undoes an increment, including across the unsigned wrap-around. */
  lemma DecrementUndoesIncrement(depth: U32)
    ensures Decremented(Incremented(depth)) == depth
  {
    if depth == UINT32_MAX {
      assert Incremented(depth) == 0;
    } else {
      assert Incremented(depth) == depth + 1;
    }
  }

  /** A traced function call: its name and the traced calls made while it runs. */
  datatype TracedCall = TracedCall(name: string, callees: seq<TracedCall>)

  /** A line ScopeDebug prints: the counter value it is indented by and its text. */
  datatype TraceLine = Enter(depth: U32, name: string) | Leave(depth: U32, name: string)

  /** Running a call at counter value `depth`: the lines printed and the final counter. */
  function RunCall(depth: U32, c: TracedCall): (U32, seq<TraceLine>)
    decreases c, 1
  {
    var (d, lines) := RunCallees(Incremented(depth), c.callees);
    (Decremented(d), [Enter(depth, c.name)] + lines + [Leave(Decremented(d), c.name)])
  }

  function RunCallees(depth: U32, cs: seq<TracedCall>): (U32, seq<TraceLine>)
    decreases cs, 0
  {
    if cs == [] then (depth, [])
    else
      var (d1, l1) := RunCall(depth, cs[0]);
      var (d2, l2) := RunCallees(d1, cs[1..]);
      (d2, l1 + l2)
  }

  /** Nested scopes restore the counter, and each call's entry and exit lines are
      indented alike, at the depth the call started from. */
  lemma {:induction false} RunCallRestoresDepth(depth: U32, c: TracedCall)
    ensures RunCall(depth, c).0 == depth
    ensures var lines := RunCall(depth, c).1;
      |lines| >= 2 && lines[0] == Enter(depth, c.name) && lines[|lines| - 1] == Leave(depth, c.name)
    decreases c, 1
  {
    RunCalleesRestoreDepth(Incremented(depth), c.callees);
    DecrementUndoesIncrement(depth);
  }

  lemma {:induction false} RunCalleesRestoreDepth(depth: U32, cs: seq<TracedCall>)
    ensures RunCallees(depth, cs).0 == depth
    decreases cs, 0
  {
    if cs != [] {
      RunCallRestoresDepth(depth, cs[0]);
      RunCalleesRestoreDepth(depth, cs[1..]);
    }
  }

  /** The static `ScopeDebug::stack` and the objects that move it. */
  class ScopeDebugStack {
    var stack: U32

    constructor ()
      ensures stack == 0
    {
      stack := 0;
    }

    /** operator(): indent by two spaces for each level of `stack`, then the text. */
    method Line(text: string) returns (line: string)
      ensures line == Spaces(2 * stack) + text
    {
      var indent := "";
      var i: nat := 0;
      while i < stack
        invariant i <= stack
        invariant indent == Spaces(2 * i)
      {
        indent := indent + "  ";
        i := i + 1;
      }
      line := indent + text;
    }

    /** The ScopeDebug constructor: print ">>> f" at the current depth, then `stack++`. */
    method EnterScope(f: string) returns (line: string)
      modifies this
      ensures line == Spaces(2 * old(stack)) + ">>> " + f
      ensures stack == Incremented(old(stack))
    {
      line := Line(">>> " + f);
      stack := Incremented(stack);
    }

    /** The ScopeDebug destructor: `stack--`, then print "<<< f" at the new depth. */
    method LeaveScope(f: string) returns (line: string)
      modifies this
      ensures stack == Decremented(old(stack))
      ensures line == Spaces(2 * stack) + "<<< " + f
    {
      stack := Decremented(stack);
      line := Line("<<< " + f);
    }
  }
}

=== FILE: wrappers.dfy ===
/** Optional values and fallible results, used for the source's null returns and for
    the points where it aborts the process (qFatal, a failed Q_ASSERT). */
module Wrappers {
  datatype Option<T> = None | Some(value: T)

  datatype Result<T, E> = Ok(value: T) | Err(error: E)
}
